=== FILE: README.md ===
# SiteSecure donations and manual-payment reconciliation, in Dafny

SiteSecure is a donation site. Donors give through PayPal, a card (Stripe) or
a manual GCash transfer. A GCash transfer is recorded twice: a pending
donation, then a payment submission that carries the transfer's reference
number. Staff later verify or reject the payment. A "verified" outcome
completes the linked donation. Admin and owner dashboards show figures
computed over the stored donations.

This project models that core as pure functions and proves properties of
them:

- `Base`, `Table`, `Paging`: JavaScript's optional values, `Map` (in
  insertion order), the stable newest-first sort and `Array.prototype.slice`.
- `Schema`: the five record shapes, their defaults and status vocabularies,
  the insert shapes and the `{ ...record, ...updates }` merge.
- `Storage`: `MemStorage`, the in-memory store, as a value `Store` with one
  pure function per operation.
- `Stats`: sums, the per-method revenue breakdown and the distinct-donor
  count behind the two dashboards.
- `Routes`: the HTTP handlers. Each is one step
  `(store, request, fresh id, now) -> (store', reply)`, with `requireAuth` as
  the gate `RequireAuth`.
- `Donor`, `Card`, `GCashForm`, `DonatePage`: the client-side formatters,
  validators and request payloads of the payment components and the donate
  page; `GCashForm.SubmitPayment` runs the GCash form's two requests through
  the server handlers.
- `Auth`, `Navigation`: the client's authentication state with its local
  storage, and the role-based navigation bar.
- `Scenarios`: whole request sequences against the seeded store.

Time is milliseconds since the epoch (`Timestamp`). The ids `randomUUID()`
would return and the time `new Date()` would read are parameters of every
operation that uses them. Amounts are integers: donation amounts are whole
cents, since the column is `decimal(10, 2)`.

## Model

| member | source | states |
|---|---|---|
| Base.OrNull | SiteSecure/server/storage.ts:99 | `data \|\| null` keeps a value exactly when it is a non-empty string. |
| Table.Get | SiteSecure/server/storage.ts:60-62 | A lookup finds nothing exactly when the key is absent, and otherwise returns one of the stored values. |
| Table.Put | SiteSecure/server/storage.ts:80 | `set` makes the key map to the new value and leaves every other key's value alone; a new key is appended at the end, leaving the earlier entries as they were, and an existing key keeps its position. |
| Table.Delete | SiteSecure/server/storage.ts:112 | `delete` leaves the key absent, every other key unchanged, and an absent key makes it a no-op. |
| Table.GetAt | SiteSecure/server/storage.ts:61 | With distinct keys, the entry at any position is exactly what a lookup of its key returns. |
| Table.PutKeepsDistinct | SiteSecure/server/storage.ts:80 | `set` keeps the store a genuine map; it grows by one entry exactly when the key is new. |
| Table.DeterminedByKeys | SiteSecure/server/storage.ts:37-41 | A genuine map is fixed by its keys in insertion order together with what each key finds, so a contract that states both leaves no room for a second copy or a reordering. |
| Table.DeleteKeepsDistinct | SiteSecure/server/storage.ts:112 | `delete` keeps the store a genuine map and removes exactly one entry when the key is present. |
| Paging.InsertByAge | SiteSecure/server/storage.ts:158 | One insertion step of the sort keeps the list newest first and adds exactly the one element. |
| Paging.SortNewestFirst | SiteSecure/server/storage.ts:157-158 | The sorted list is newest first and a permutation of the stored records. |
| Paging.RelativeIndex | SiteSecure/server/storage.ts:159 | `slice` clamps a non-negative index to the length and counts a negative one from the end. |
| Paging.Page | SiteSecure/server/storage.ts:159 | With a non-negative offset and limit, the page is the window `[offset, offset + limit)` cut at the end of the list, so it never holds more than `limit` records. |
| Paging.NegativeLimitDropsLast | SiteSecure/server/routes.ts:139-141 | A negative limit (which `parseInt` lets through) makes `slice` drop records from the end instead of returning none. |
| Paging.PageKeepsOrder | SiteSecure/server/storage.ts:156-161 | A page of a newest-first list is itself newest first. |
| Paging.Filter | SiteSecure/server/storage.ts:165 | `filter` keeps exactly the records satisfying the predicate, each as often as it occurs. |
| Paging.NewestPage | SiteSecure/server/storage.ts:156-158 | The listing is newest first, holds only stored records, is exactly as long as the window `[offset, offset + limit)` cut at the end of the table, holds the sorted records at `offset`, `offset + 1`, …, and is a permutation of the whole table when the window covers it. |
| Paging.InsertByAgeTies | SiteSecure/server/storage.ts:157 | An inserted element goes in front of every element created at the same time, so among equal times the input order is kept. |
| Paging.SortKeepsTies | SiteSecure/server/storage.ts:157 | The sort is stable: for every time, the elements created then appear in the same order as in the input. |
| Paging.TiesDetermineOrder | SiteSecure/server/storage.ts:157 | Two newest-first lists with the same elements per time, in the same order, are equal. |
| Paging.SortIsTheStableOrder | SiteSecure/server/storage.ts:156-157 | The sorted list is the one newest-first arrangement of the records that keeps records created at the same time in insertion order. |
| Paging.NewestPageIsWindow | SiteSecure/server/storage.ts:156-158 | A page of the listing equals `slice(offset, offset + limit)` of any stable newest-first arrangement of the records. |
| Schema.Public | SiteSecure/server/routes.ts:104-109 | The user in the login reply has the stored id, name, email and role, and no password field. |
| Schema.ParseInsertDonation | SiteSecure/shared/schema.ts:69-73 | Parsing succeeds exactly when amount and payment method are present, and it drops `id`, `createdAt` and `verifiedAt`. |
| Schema.MergeUser | SiteSecure/server/storage.ts:88 | Each of the six columns takes the update's value when the update has that key and keeps the stored value otherwise; an empty update changes nothing. |
| Schema.MergeDonation | SiteSecure/server/storage.ts:151 | Each of the twelve columns takes the update's value when the update has that key and keeps the stored value otherwise; an empty update changes nothing. |
| Schema.MergeContact | SiteSecure/server/storage.ts:198 | Each of the ten columns takes the update's value when the update has that key and keeps the stored value otherwise; an empty update changes nothing. |
| Schema.MergeGCash | SiteSecure/server/storage.ts:233 | Each of the nine columns takes the update's value when the update has that key and keeps the stored value otherwise; an empty update changes nothing. |
| Schema.MergeDonationLaws | SiteSecure/server/storage.ts:147-154 | Applying a donation update twice is the same as once, and two updates in a row equal one update in which the later keys win. |
| Schema.MergeGCashIdempotent | SiteSecure/server/storage.ts:229-236 | Applying a payment update twice is the same as once. |
| Storage.CreateUser | SiteSecure/server/storage.ts:70-82 | The new user is stored under the fresh id with the given name and password, a missing email as null and a missing role as "user"; no other user changes, the keys keep their order, and a fresh id is appended after the existing users. |
| Storage.Init | SiteSecure/server/storage.ts:43-58 | The store starts with exactly two users, "admin" with role admin and "owner" with role owner, in that order, and nothing else. |
| Storage.InitValid | SiteSecure/server/storage.ts:43-58 | The seeded store is a genuine map whose two usernames differ. |
| Storage.GetUserByUsername | SiteSecure/server/storage.ts:64-68 | The lookup returns the first stored user, in insertion order, with exactly that name, and nothing exactly when no user has it. |
| Storage.UniqueNameLookup | SiteSecure/shared/schema.ts:8 | When usernames are unique, as the column declares, the lookup by name returns that one user. |
| Storage.CreateUserAllowsDuplicateName | SiteSecure/server/storage.ts:70-82 | `createUser` does not enforce the unique username: a second "admin" next to the seeded one breaks uniqueness. |
| Storage.DefaultRoleIsOutsideVocabulary | SiteSecure/shared/schema.ts:11 | The store's default role "user" is not one of the column's roles guest/admin/owner. |
| Storage.UpdateUser | SiteSecure/server/storage.ts:84-91 | An absent id is "not found" and changes nothing; otherwise the merged user replaces the stored one in place, and no other user changes. |
| Storage.CreateSession | SiteSecure/server/storage.ts:93-104 | The session is stored under the fresh id for that user and expiry; its data is kept only when non-empty; no other session changes and a fresh id is added after the existing keys. |
| Storage.GetSession | SiteSecure/server/storage.ts:106-117 | A session is returned exactly when it exists and has not expired, and then the store is unchanged; an expired one is reported absent and deleted; no other session changes. |
| Storage.DeleteSession | SiteSecure/server/storage.ts:119-121 | Only the given session is removed, and deleting an absent id changes nothing. |
| Storage.CreateDonation | SiteSecure/server/storage.ts:123-141 | The donation is stored under the fresh id with currency "USD" and status "pending" unless given, the other missing columns null, never verified; no other donation changes, and a fresh id is appended after the existing donations. |
| Storage.UpdateDonation | SiteSecure/server/storage.ts:147-154 | An absent id is "not found" and changes nothing; otherwise the merged donation replaces the stored one in place, and no other donation changes. |
| Storage.GetDonations | SiteSecure/server/storage.ts:155-160 | The page is newest first and holds only stored donations; for a non-negative window it is exactly as long as the window cut at the end of the table and holds the sorted donations from `offset` on; with the whole table in the window it is a permutation of all donations. |
| Storage.DonationPageIsWindow | SiteSecure/server/storage.ts:155-160 | The page is `slice(offset, offset + limit)` of the newest-first arrangement that keeps donations created at the same time in insertion order: its k-th record is that arrangement's record at `offset + k`. |
| Storage.GetDonationsByStatus | SiteSecure/server/storage.ts:163-167 | The result holds exactly the donations with that status, each as often as stored, newest first. |
| Storage.CreateContactMessage | SiteSecure/server/storage.ts:169-185 | The message is stored under the fresh id, stamped with the current time, with the given first and last name, email, subject, inquiry type, message, subscription flag and status; a missing status stays null; no other message changes, a fresh id is appended after the existing messages, and nothing else in the store changes. |
| Storage.CreateContactMessageUnread | SiteSecure/shared/schema.ts:39 | With the column default applied, a message sent without a status is "unread" and a given status is kept; every other field is as given, and the stored status is in the vocabulary exactly when the given one is; the message table changes as in createContactMessage, one entry appended for a fresh id. |
| Storage.GetContactMessages | SiteSecure/server/storage.ts:187-192 | The page is newest first and holds only stored messages; for a non-negative window it is exactly as long as the window cut at the end of the table and holds the sorted messages from `offset` on; with the whole table in the window it is a permutation of all messages. |
| Storage.MessagePageIsWindow | SiteSecure/server/storage.ts:187-192 | The page is `slice(offset, offset + limit)` of the newest-first arrangement that keeps messages created at the same time in insertion order: its k-th record is that arrangement's record at `offset + k`. |
| Storage.UpdateContactMessage | SiteSecure/server/storage.ts:194-201 | An absent id is "not found" and changes nothing; otherwise the merged message replaces the stored one in place. |
| Storage.CreateGCashPayment | SiteSecure/server/storage.ts:203-218 | The payment is stored under the fresh id with the given fields, missing ones null and never verified; no other payment changes, and a fresh id is appended after the existing payments. |
| Storage.GetGCashPaymentByReference | SiteSecure/server/storage.ts:224-227 | The lookup returns the first stored payment, in insertion order, with exactly that reference number, and nothing exactly when no payment has it. |
| Storage.UpdateGCashPayment | SiteSecure/server/storage.ts:229-236 | An absent id is "not found" and changes nothing; otherwise the merged payment replaces the stored one in place. |
| Storage.GetPendingGCashPayments | SiteSecure/server/storage.ts:238-242 | The queue holds exactly the payments whose status is "pending", each as often as stored, newest first. |
| Stats.SumOfAppend | SiteSecure/server/routes.ts:257 | The sum over two lists joined is the sum of their sums. |
| Stats.SumOfPermutation | SiteSecure/server/routes.ts:257 | The sum of a list does not depend on the order of its records. |
| Stats.SumOfFilterBounded | SiteSecure/server/routes.ts:282-284 | With non-negative amounts, summing a filtered list gives between zero and the whole sum. |
| Stats.AddTo | SiteSecure/server/routes.ts:276 | One reduction step keeps one entry per method and adds the amount to the breakdown's total. |
| Stats.SumAfterPut | SiteSecure/server/routes.ts:276 | Overwriting one method's entry changes the breakdown's total by the difference. |
| Stats.BreakdownTotal | SiteSecure/server/routes.ts:275-278 | The reduction keeps one entry per method, and its entries add up to the sum of the donations' amounts. |
| Stats.BreakdownEntry | SiteSecure/server/routes.ts:275-278 | Each method's entry is the sum of that method's donations. |
| Stats.MethodBreakdown | SiteSecure/server/routes.ts:275-278 | The breakdown has one entry per method, each the sum of that method's donations, and the entries add up to the total. |
| Stats.DonorEmailsBounded | SiteSecure/server/routes.ts:289 | There are never more distinct donor emails than donations. |
| Stats.AdminFigures | SiteSecure/server/routes.ts:256-261 | The count is the list's length, the pending figure the queue's length, the pending-message figure the number of unread messages (at most the number of messages), and the total the sum of the amounts in any order. |
| Stats.OwnerFigures | SiteSecure/server/routes.ts:272-292 | Only completed donations count: the revenue is their sum, the month's revenue the sum of those created in the month of `now`, each method's entry the sum of its completed donations, and the entries add up to the revenue; the month's revenue lies within the total for non-negative amounts; donors are the distinct emails, at most one per donation. |
| Stats.MonthWithinTotal | SiteSecure/server/routes.ts:280-287 | With non-negative amounts the month's revenue is between zero and the total revenue. |
| Stats.AnonymousDonorsCountOnce | SiteSecure/server/routes.ts:289 | Completed donations without an email count as one donor between them. |
| Routes.FirstOccurrence | SiteSecure/server/routes.ts:19 | The position found is the first place at or after the start where the pattern occurs, and none is found exactly when it occurs nowhere. |
| Routes.RemoveFirst | SiteSecure/server/routes.ts:19 | `replace` with a string removes the first occurrence only, and leaves a string without the pattern as it was. |
| Routes.BearerToken | SiteSecure/server/routes.ts:19 | A token exists exactly when the header does. |
| Routes.TokenOfBearerHeader | SiteSecure/server/routes.ts:19 | A header "Bearer <id>" yields exactly the session id. |
| Routes.HeaderWithoutBearer | SiteSecure/server/routes.ts:19 | A header without "Bearer " anywhere is used whole as the session id. |
| Routes.BearerRemovedMidHeader | SiteSecure/server/routes.ts:19 | "Bearer " is removed wherever it first occurs, so text before it stays part of the token. |
| Routes.RequireAuth | SiteSecure/server/routes.ts:17-42 | 401 without a token, for an absent or expired session or a vanished user; 403 exactly when authenticated with a role outside a non-empty list; otherwise admitted with that session and user and the store unchanged. With a token, the store afterwards is the session lookup's: an expired session is deleted and no other session changes. |
| Routes.EmptyRolesAdmitAnyone | SiteSecure/server/routes.ts:34 | An empty role list admits exactly the authenticated requests. |
| Routes.ExpiredSessionRefused | SiteSecure/server/routes.ts:24-27 | An expired session is refused with 401 and is gone from the store afterwards. |
| Routes.Credentials | SiteSecure/server/routes.ts:85-86 | A user is returned exactly when the body names a stored user and gives that user's password, and it is that user. |
| Routes.Login | SiteSecure/server/routes.ts:81-115 | Bad credentials are a 401 and a role that does not fit the portal a 403, both leaving the store alone; otherwise exactly one session, for that user and expiring 24 hours later, is stored, and the reply carries the user without the password. |
| Routes.PortalLoginHasRole | SiteSecure/server/routes.ts:91-97 | A successful login through the admin or owner portal proves that role. |
| Routes.LoginThenAuthenticate | SiteSecure/server/routes.ts:100-101 | The session a login creates admits its bearer, as that user, until 24 hours have passed. |
| Routes.Logout | SiteSecure/server/routes.ts:117-124 | An unauthenticated request is a 401 whose store is the authentication gate's; otherwise exactly the caller's session is deleted and the same header no longer authenticates. |
| Routes.PostDonation | SiteSecure/server/routes.ts:127-135 | A body without amount or payment method is a 400 that stores nothing; otherwise one unverified donation with the server's id is stored: for a fresh id the table is the old one with that entry appended, and no other donation changes. |
| Routes.PostedDonationIsUnverified | SiteSecure/shared/schema.ts:69-73 | A body that sends its own `id` and `verifiedAt` still gets the server's id and no verification time. |
| Routes.QueryNumber | SiteSecure/server/routes.ts:139-140 | `parseInt(q) \|\| d` gives the default exactly for a missing, unparsable or zero value. |
| Routes.ListDonations | SiteSecure/server/routes.ts:137-146 | Staff only; the reply is the store's page for the requested limit and offset (50 and 0 when absent): newest first, stored donations only, of at most the requested size. |
| Routes.PatchDonation | SiteSecure/server/routes.ts:148-162 | Staff only; an unknown id is a 404 that changes nothing; otherwise the body's fields overwrite the donation's in place, the donation keys stay as they were, and nothing else changes. |
| Routes.SubmitGCash | SiteSecure/server/routes.ts:165-187 | A reference number already present is a 400 and so is a missing amount, both storing nothing; otherwise one pending payment linked to the given donation is stored: for a fresh id the table is the old one with that entry appended. |
| Routes.ResubmissionRefused | SiteSecure/server/routes.ts:169-173 | Submitting the same reference number a second time is refused and changes nothing. |
| Routes.PendingGCash | SiteSecure/server/routes.ts:189-196 | Staff only; the reply is the store's pending queue: exactly the stored payments whose status is "pending", each as often as stored, newest first. |
| Routes.Verify | SiteSecure/server/routes.ts:203-219 | An unknown payment is a 404 that changes nothing; otherwise the payment takes the request's status, the actor and the time, and the linked donation is completed iff the payment names one and the status is exactly "verified"; a linked donation that does not exist stays absent, and no other donation or payment changes; the keys of both tables stay as they were, so nothing is added. |
| Routes.VerifyGCash | SiteSecure/server/routes.ts:198-225 | Staff only; an admitted request verifies as the caller. |
| Routes.FilterPermutation | SiteSecure/server/routes.ts:272 | Filtering a reordered list gives a reordering of the filtered list. |
| Routes.AdminStats | SiteSecure/server/routes.ts:250-267 | Admin only; over the first page of 50 donations and 50 messages, the count is the page's size, the total its sum of amounts of any status, and the pending-message figure its number of unread messages; the pending-payment figure is the size of the whole pending queue; when the donations fit in one page the total is the sum of all of them. |
| Routes.OwnerStats | SiteSecure/server/routes.ts:269-298 | Owner only; over the completed donations of the first page of 50, the revenue is their sum, the month's revenue the sum of those created in the current month, each method's entry its completed sum, and the active donors the number of distinct emails; the breakdown adds up to the revenue, the growth rate is the fixed 15.3, and when the donations fit in one page the revenue is the sum of all completed donations. |
| Routes.OwnerRevenueFacts | SiteSecure/server/routes.ts:271-272 | The first page inherits non-negative amounts, and its completed sum is the whole table's when the table fits in one page. |
| Routes.StatsSeeFirstPageOnly | SiteSecure/server/routes.ts:252-258 | With more than 50 donations the admin count stays at 50, below the number stored. |
| Routes.VerifyKeepsLinks | SiteSecure/server/routes.ts:203-219 | Verification keeps every verified payment's existing donation completed. |
| Routes.SubmitKeepsLinks | SiteSecure/server/routes.ts:175-181 | A submission keeps every verified payment's existing donation completed. |
| Routes.StatusVocabulary | SiteSecure/shared/schema.ts:49 | Submission keeps payment statuses within pending/verified/rejected; verification does so exactly when the request's status is absent or in that vocabulary, since the route does not check it. |
| Routes.SecondVerifyOverwrites | SiteSecure/server/routes.ts:198-225 | The prior status is not checked: a second verification overwrites the first, and a later non-"verified" outcome does not undo the first one's donation update. |
| Routes.NonVerifiedOutcomeKeepsDonations | SiteSecure/server/routes.ts:214-219 | A "rejected" (or any non-"verified") outcome leaves every donation as it was. |
| Routes.PatchDonationBreaksLinks | SiteSecure/server/routes.ts:148-162 | A direct donation update can set a verified payment's donation back to pending. |
| Donor.DonorName | SiteSecure/client/src/components/GCashPayment.tsx:63 | The name is null exactly for an anonymous donor, and otherwise the first name, one space and the last name. |
| Donor.DonorEmail | SiteSecure/client/src/components/GCashPayment.tsx:64 | The email is null exactly for an anonymous donor, and otherwise the donor's email. |
| Donor.AnonymousHidesDonor | SiteSecure/client/src/components/GCashPayment.tsx:63-64 | An anonymous donation carries nothing of the donor's details. |
| Donor.NameSplitsBack | SiteSecure/client/src/components/GCashPayment.tsx:63 | A donor name splits back into first and last name at its first space when the first name has none. |
| Donor.FirstSpace | SiteSecure/client/src/components/GCashPayment.tsx:63 | The position found holds the first space, or is the length when there is none. |
| Card.Digits | SiteSecure/client/src/components/StripeCheckout.tsx:40 | Only digits remain, in order, and a digit string is left unchanged. |
| Card.DigitsAppend | SiteSecure/client/src/components/StripeCheckout.tsx:40 | Stripping non-digits from two joined strings strips each separately. |
| Card.Chunks | SiteSecure/client/src/components/StripeCheckout.tsx:47-49 | The groups number one per started four digits, and each holds one to four. |
| Card.CardMatch | SiteSecure/client/src/components/StripeCheckout.tsx:43-44 | Below four digits nothing matches; otherwise the match is the first sixteen digits at most. |
| Card.JoinLength | SiteSecure/client/src/components/StripeCheckout.tsx:51-52 | Joining the groups adds one space per four digits after the first group. |
| Card.JoinDigits | SiteSecure/client/src/components/StripeCheckout.tsx:47-52 | Joining the groups loses no digit: stripping the spaces gives the digits back. |
| Card.JoinSpaced | SiteSecure/client/src/components/StripeCheckout.tsx:47-52 | The joined groups have a space at every fifth position and digits elsewhere. |
| Card.JoinChunks | SiteSecure/client/src/components/StripeCheckout.tsx:47-52 | The joined groups are spaced every four digits, end in a group of one to four digits, and strip back to the digits. |
| Card.FormatCardNumberShape | SiteSecure/client/src/components/StripeCheckout.tsx:38-56 | Below four digits the digits come back unspaced; otherwise the output is the first sixteen digits at most in groups of four, at most 19 characters. |
| Card.FormatCardNumberIdempotent | SiteSecure/client/src/components/StripeCheckout.tsx:38-56 | Formatting a formatted card number changes nothing. |
| Card.FormatExpiryDate | SiteSecure/client/src/components/StripeCheckout.tsx:58-64 | With two digits or more the output is two digits, a slash and up to two more digits, at most five characters, keeping the first four digits; otherwise the digits. |
| Card.FormatExpiryDateIdempotent | SiteSecure/client/src/components/StripeCheckout.tsx:58-64 | Formatting a formatted expiry date changes nothing. |
| Card.ValidateCard | SiteSecure/client/src/components/StripeCheckout.tsx:66-104 | A card is accepted exactly when number, expiry, CVC and name all pass, and each failure is reported only after the earlier checks passed. |
| Card.FormattedNumberCheck | SiteSecure/client/src/components/StripeCheckout.tsx:67 | Through the formatter, the 13-character check asks for eleven digits. |
| Card.FormattedExpiryCheck | SiteSecure/client/src/components/StripeCheckout.tsx:76 | Through the formatter, the 5-character expiry check asks for four digits. |
| Card.StripeDonation | SiteSecure/client/src/components/StripeCheckout.tsx:106-131 | A donation request is built exactly when the card is accepted; it records a completed card payment in USD with the client secret as reference, the donor's full name and email (null when anonymous), the anonymity flag and the donation type, and no id or dates. |
| GCashForm.ValidateForm | SiteSecure/client/src/components/GCashPayment.tsx:33-53 | The form passes exactly with a reference of ten characters and a sender number of eleven; a short reference is reported before the sender number is looked at. |
| GCashForm.PhpAmount | SiteSecure/client/src/components/GCashPayment.tsx:30 | The peso amount is the nearest whole number to 55 times the dollar amount. |
| GCashForm.DonationRequest | SiteSecure/client/src/components/GCashPayment.tsx:62-72 | The donation request is a parseable pending GCash donation in USD whose reference is the transfer's, with the donor's full name and email (null when anonymous), the anonymity flag and the donation type, and no id or dates. |
| GCashForm.SubmitPayment | SiteSecure/client/src/components/GCashPayment.tsx:55-100 | An invalid form sends nothing; otherwise the pending donation is stored first, and the payment, linked to it with the same reference and the peso amount, is stored exactly when no payment already has the reference. For fresh ids each table gains exactly its new entry at the end; when no payment is stored, the payments are left exactly as they were, and no other payment changes in any case. |
| GCashForm.DuplicateReferenceOrphansDonation | SiteSecure/client/src/components/GCashPayment.tsx:62-82 | A reference already submitted is refused only after the donation is stored, leaving a pending donation no payment points at. |
| GCashForm.SubmitThenVerifyCompletes | SiteSecure/server/routes.ts:214-219 | Verifying a payment the form submitted completes the donation the form created, recording who and when. |
| DonatePage.LeadingDigits | SiteSecure/client/src/pages/donate.tsx:48 | The digits read are the longest run of digits at the start of the text. |
| DonatePage.ParseFloat | SiteSecure/client/src/pages/donate.tsx:48 | A number is read only from text containing a digit. |
| DonatePage.UnsignedPrefix | SiteSecure/client/src/pages/donate.tsx:48 | The unsigned part reads as a non-negative number, and only from text containing a digit. |
| DonatePage.ParseFloatSign | SiteSecure/client/src/pages/donate.tsx:48 | A leading "+" or "-" is read once in front of the unsigned literal; "-" negates its value, and text with no digits after the sign is `NaN`. |
| DonatePage.UnsignedDecimal | SiteSecure/client/src/pages/donate.tsx:48 | The literal `whole.fraction` of digits reads as whole plus fraction over ten to the fraction's length. |
| DonatePage.ParseFloatDecimal | SiteSecure/client/src/pages/donate.tsx:48 | A signed decimal literal `[sign]whole.fraction` reads at its decimal value, negated under a minus. |
| DonatePage.ParseFloatWhole | SiteSecure/client/src/pages/donate.tsx:48 | A signed run of digits reads at its base-ten value, negated under a minus. |
| DonatePage.ParseFloatFifty | SiteSecure/client/src/pages/donate.tsx:29 | The preset "50" reads as 50. |
| DonatePage.ParseFloatTwelveAndAHalf | SiteSecure/client/src/pages/donate.tsx:48 | "12.5" reads as 12.5. |
| DonatePage.ParseFloatMinusThree | SiteSecure/client/src/pages/donate.tsx:48 | "-3" reads as -3. |
| DonatePage.ParseFloatIgnoresTail | SiteSecure/client/src/pages/donate.tsx:48 | Text after the literal is ignored ("7px" reads as 7) and text without digits ("abc") is `NaN`. |
| DonatePage.FinalAmount | SiteSecure/client/src/pages/donate.tsx:31-33 | A typed amount wins over the selected preset. |
| DonatePage.SelectAmount | SiteSecure/client/src/pages/donate.tsx:35-38 | Choosing a preset makes it the final amount and changes nothing else. |
| DonatePage.ValidateDonateForm | SiteSecure/client/src/pages/donate.tsx:47-76 | An empty or non-positive amount is reported first; missing donor details only when not anonymous; then the terms; valid only when all pass. |
| DonatePage.RenderPaymentForm | SiteSecure/client/src/pages/donate.tsx:78-130 | A form is shown exactly when amount, details and terms pass and the method is known; it is the chosen method's form; PayPal gets the amount text as typed, and Stripe and GCash get the positive number `parseFloat` reads from it. |
| DonatePage.GateMatchesValidation | SiteSecure/client/src/pages/donate.tsx:80-86 | For an amount that reads as a number, a form is shown exactly when the form check passes. |
| DonatePage.UnreadableAmountDisagrees | SiteSecure/client/src/pages/donate.tsx:48 | For an amount that reads as `NaN`, the form check passes but no form is shown. |
| DonatePage.LeadingNonZeroIsPositive | SiteSecure/client/src/pages/donate.tsx:81 | Text starting with a digit from 1 to 9 reads as a positive amount. |
| DonatePage.PresetsArePositive | SiteSecure/client/src/pages/donate.tsx:29 | Every preset amount reads as positive. |
| DonatePage.InitialShowsNoForm | SiteSecure/client/src/pages/donate.tsx:15-26 | The page opens with $50 selected, no form shown and the form check failing. |
| DonatePage.PhoneDoesNotMatter | SiteSecure/client/src/pages/donate.tsx:57 | The phone number never affects the form check or the form shown. |
| DonatePage.AnonymousDetailsDoNotMatter | SiteSecure/client/src/pages/donate.tsx:82 | An anonymous donor's details never affect the form check or the form shown. |
| DonatePage.PresetOverridesTypedAmount | SiteSecure/client/src/pages/donate.tsx:35-38 | Choosing a preset after typing an amount makes the preset the amount of the form shown. |
| Auth.FlagsExclusive | SiteSecure/client/src/hooks/useAuth.tsx:105-107 | The admin and owner flags exclude each other and need a user; with no user all flags are false. |
| Auth.SignedOut | SiteSecure/client/src/hooks/useAuth.tsx:25-26 | On load no one is signed in. |
| Auth.Restore | SiteSecure/client/src/hooks/useAuth.tsx:29-38 | A reload restores a session exactly when both stored values are present and the session id is non-empty, and then restores exactly them. |
| Auth.ClientLogin | SiteSecure/client/src/hooks/useAuth.tsx:40-71 | Success sets and stores the user and session id and yields true; failure yields false and changes nothing; other stored keys are kept. |
| Auth.ClientLogout | SiteSecure/client/src/hooks/useAuth.tsx:73-98 | The server is told, with the session id as bearer token, exactly when there is a session id; the user and session id are cleared and both keys removed either way. |
| Auth.LoginSurvivesReload | SiteSecure/client/src/hooks/useAuth.tsx:48-55 | After a successful login a reload restores exactly the signed-in state. |
| Auth.LogoutSurvivesReload | SiteSecure/client/src/hooks/useAuth.tsx:87-91 | After a logout a reload restores no one. |
| Auth.PortalLoginSetsFlag | SiteSecure/client/src/hooks/useAuth.tsx:106-107 | A successful login through the admin portal raises only the admin flag, through the owner portal only the owner flag. |
| Auth.LoginThenLogout | SiteSecure/client/src/hooks/useAuth.tsx:75-84 | The logout request of a signed-in client ends its server session: the server accepts it and the header is refused afterwards. |
| Navigation.Hrefs | SiteSecure/client/src/components/navigation.tsx:58-61 | The links' paths, one per item, in order. |
| Navigation.NavItems | SiteSecure/client/src/components/navigation.tsx:31-35 | The owner flag is asked first, then the admin flag, else the public links. |
| Navigation.ItemsFor | SiteSecure/client/src/components/navigation.tsx:31-37 | Owners get the owner links, admins the admin links, everyone else the public links. |
| Navigation.DonateLinkOnlyForPublic | SiteSecure/client/src/components/navigation.tsx:13-35 | The donate link and the seven public links are shown exactly to visitors who are neither admin nor owner; staff see only their dashboard. |
| Navigation.OwnerFlagWins | SiteSecure/client/src/components/navigation.tsx:32 | An owner gets the owner links whatever the admin flag says. |
| Navigation.RoleLabel | SiteSecure/client/src/components/navigation.tsx:78 | The label is "Admin" exactly for role admin, "Owner" exactly for role owner, else "User". |
| Navigation.AccountControls | SiteSecure/client/src/components/navigation.tsx:75-90 | The name line and logout control are shown exactly when signed in, with the user's name and a label matching the flags. |
| Navigation.LabelMatchesLinks | SiteSecure/client/src/components/navigation.tsx:75-78 | A staff label goes with that role's dashboard link, the "User" label with the public links. |
| Navigation.LogoutShowsPublicLinks | SiteSecure/client/src/hooks/useAuth.tsx:88-91 | After logout only the public links remain and no account controls are shown. |
| Scenarios.Seeded | SiteSecure/server/storage.ts:43-58 | The seeded store is a genuine map keyed by id holding exactly the admin and owner users, and "admin" finds the administrator. |
| Scenarios.AdminSignsIn | SiteSecure/server/routes.ts:81-111 | The seeded administrator signs in through the admin portal and the new session authenticates as them for 24 hours. |
| Scenarios.WrongPasswordRefused | SiteSecure/server/routes.ts:85-88 | A wrong password is a 401 and leaves the seeded store as it was. |
| Scenarios.AdminAtOwnerPortalRefused | SiteSecure/server/routes.ts:95-97 | The administrator at the owner portal is a 403 and leaves the seeded store as it was. |
| Scenarios.ManualPaymentRoundTrip | SiteSecure/server/routes.ts:165-225 | A $50.00 GCash donation submitted through the form becomes a 2750-peso pending payment; the signed-in administrator's verification records them and completes the $50.00 donation. |
| Scenarios.RejectedTransferLeavesDonationPending | SiteSecure/server/routes.ts:198-225 | When the administrator rejects the same transfer, the payment is marked rejected and the donation stays pending. |
| Scenarios.EmptyStoreAdminStats | SiteSecure/server/routes.ts:250-267 | The administrator's figures over a store with no donations, messages or payments are all zero. |
| Scenarios.WithFormMessage | SiteSecure/server/storage.ts:169-185 | The store gains exactly one contact message, created as written or with the column default. |
| Scenarios.PendingMessagesOfOne | SiteSecure/server/routes.ts:259 | Over a store whose only message is one message, the pending count is one exactly when it is unread. |
| Scenarios.FormMessageNeverPending | SiteSecure/server/storage.ts:180 | As written, a message sent without a status is never counted as pending; with the column default "unread" it is. |

## Left out

- Floating point: `parseFloat` on decimal amounts, the float sums of the dashboards, and `Math.round(amount * 100)` on the server. Donation amounts are whole cents, so the sums are exact.
- GCashForm.PhpAmount: `Math.round(amount * 55)` is modelled on whole cents, with halves rounded up; the float error of the product is not modelled.
- DonatePage.ParseFloat: reads an optional sign, digits and one decimal point; leading whitespace, exponents, "Infinity" and hexadecimal text are not modelled.
- Routes.SubmitGCash: the request's reference number is always a string. A body without `referenceNumber` is not modelled; the server would look it up as `undefined`, match any payment already stored without one, and answer a second such submission with 400. A reference that is not a string (a JSON number, say) is not modelled either.
- Routes.PatchDonation: the update is typed per column, so `createdAt` can only be set to a timestamp and keys that are not columns are dropped. The server spreads the raw JSON body instead: a `createdAt` in it becomes a string or null, after which every listing of two or more donations (`GET /api/donations` and both stats routes) fails with a 500 at the sort's `getTime()`, and unknown keys are stored on the donation. Neither is modelled.
- GCashForm.ValidateForm: lengths are counted in characters, while JavaScript's `.length` counts UTF-16 code units, so a reference or sender number holding characters outside the Basic Multilingual Plane can pass the browser's check with fewer characters than the model asks for. Card.ValidateCard counts the same way.
- Stats.MethodBreakdown: the breakdown is a table keyed by method in insertion order. The server accumulates into a plain object, where a method named like an inherited property ("constructor", "toString", "__proto__") starts from that property instead of 0 or is dropped, so its entry, and the entries' total, can differ from the model's.
- The Stripe and PayPal SDKs and `POST /api/create-payment-intent`: the client secret is an opaque string parameter.
- The clock and `randomUUID`: every operation takes `now` and the fresh id as parameters, and nothing requires the id to be fresh (a colliding id overwrites, as `Map.set` does).
- Month and year extraction in the owner figures: a `monthOf` parameter stands for `getMonth()`/`getFullYear()`.
- Zod: request parsing is modelled as "amount and payment method present"; the text of a parse error is the placeholder `InvalidBody`.
- `getUser`, `getDonation` and `getGCashPayment` have no members of their own: they are the table lookup `Table.Get`.
- The contact routes (`POST`/`GET /api/contact`): only their store operations are modelled.
- The order in which JavaScript objects list integer-like keys: the payment-method breakdown keeps insertion order.
- Concurrency: each handler is one atomic step, so the await between the duplicate-reference check and the insert is not modelled.
- Password hashing: passwords are compared as plain text, as the code does.
- Browser state: local storage is a map from key to value, with the user kept as a value instead of JSON text; toasts, React rendering and `apiRequest` (client/src/lib/queryClient.ts is not part of this model) are left out.
- The dashboards, App.tsx and the static pages: they only fetch and render.

## Findings

| source | as written | input that shows it | evidently intended | confidence | as-written member | corrected member |
|---|---|---|---|---|---|---|
| SiteSecure/server/storage.ts:180 | A contact message created without a status is stored with status null. | A message from the contact form, which sends no status, while the administrator views the admin figures. | The column default "unread" of SiteSecure/shared/schema.ts:39, so the admin figures count the message as pending. | not executed; high | Scenarios.FormMessageNeverPending | Storage.CreateContactMessageUnread |

Where the code departs from its own schema defaults and comments, the model follows the code:

- Verification does not check the prior status, so there is no "already finalized" refusal (`Routes.SecondVerifyOverwrites`).
- The payment update and the donation cascade are two separate store steps with no rollback.
- `createUser` defaults the role to "user", while the users table's default is "guest" (`Storage.DefaultRoleIsOutsideVocabulary`).
- Both dashboards read only the first page of 50 donations (`Routes.StatsSeeFirstPageOnly`).

=== FILE: auth.dfy ===
/** The client's authentication state: the signed-in user, the session id,
    the flags derived from them, and the two keys kept in the browser's
    local storage so that a reload restores the session. */
module Auth {
  import opened Base
  import opened Schema
  import opened Table
  import opened Storage
  import opened Routes

  /** A local-storage value: the session id as text, or the user as it was
      serialised by `JSON.stringify`. */
  datatype Stored = StoredText(text: string) | StoredUser(user: PublicUser)

  const SessionKey := "sessionId"
  const UserKey := "user"

  datatype AuthState = AuthState(user: Option<PublicUser>, sessionId: Option<string>, storage: map<string, Stored>)

  /** `!!user`. */
  predicate IsAuthenticated(st: AuthState) { st.user.Some? }

  /** `user?.role === "admin"`. */
  predicate IsAdmin(st: AuthState) { st.user.Some? && st.user.value.role == RoleAdmin }

  /** `user?.role === "owner"`. */
  predicate IsOwner(st: AuthState) { st.user.Some? && st.user.value.role == RoleOwner }

  /** The two staff flags exclude each other and need a user. */
  lemma FlagsExclusive(st: AuthState)
    ensures !(IsAdmin(st) && IsOwner(st))
    ensures (IsAdmin(st) || IsOwner(st)) ==> IsAuthenticated(st)
    ensures st.user.None? ==> !IsAuthenticated(st) && !IsAdmin(st) && !IsOwner(st)
  {
  }

  /** The state on page load, before anything is restored. */
  function SignedOut(storage: map<string, Stored>): (st: AuthState)
    ensures !IsAuthenticated(st) && st.sessionId.None? && st.storage == storage
  {
    AuthState(None, None, storage)
  }

  /** The mount effect: both stored values present (the session id
      non-empty) restore the session; otherwise nothing is restored. */
  function Restore(storage: map<string, Stored>): (st: AuthState)
    ensures st.storage == storage
    ensures IsAuthenticated(st) <==>
      && SessionKey in storage && storage[SessionKey].StoredText? && storage[SessionKey].text != ""
      && UserKey in storage && storage[UserKey].StoredUser?
    ensures IsAuthenticated(st) ==>
      st.user == Some(storage[UserKey].user) && st.sessionId == Some(storage[SessionKey].text)
    ensures !IsAuthenticated(st) ==> st == SignedOut(storage)
  {
    if SessionKey in storage && storage[SessionKey].StoredText? && storage[SessionKey].text != ""
       && UserKey in storage && storage[UserKey].StoredUser?
    then AuthState(Some(storage[UserKey].user), Some(storage[SessionKey].text), storage)
    else SignedOut(storage)
  }

  /** `login`: the server's reply is the outcome of the request (a failed
      request throws before anything is set). A success sets and stores the
      user and the session id and yields true; a failure changes nothing
      and yields false. */
  function ClientLogin(st: AuthState, reply: Reply<LoginReply>): (r: (AuthState, bool))
    ensures r.1 <==> reply.Ok?
    ensures !r.1 ==> r.0 == st
    ensures r.1 ==>
      && r.0.user == Some(reply.body.user) && r.0.sessionId == Some(reply.body.sessionId)
      && SessionKey in r.0.storage && UserKey in r.0.storage
      && r.0.storage[SessionKey] == StoredText(reply.body.sessionId)
      && r.0.storage[UserKey] == StoredUser(reply.body.user)
      && (forall k :: k in st.storage && k != SessionKey && k != UserKey ==> k in r.0.storage && r.0.storage[k] == st.storage[k])
  {
    match reply
    case Fail(_, _) => (st, false)
    case Ok(body) =>
      var storage := st.storage[SessionKey := StoredText(body.sessionId)][UserKey := StoredUser(body.user)];
      (AuthState(Some(body.user), Some(body.sessionId), storage), true)
  }

  /** `logout`: the server is told (with the session as a bearer token) only
      when there is a session id; whatever the server does, the user and the
      session id are cleared and both keys removed. The second component is
      the `Authorization` header of the request sent, if one is. */
  function ClientLogout(st: AuthState): (r: (AuthState, Option<string>))
    ensures r.1.Some? <==> Truthy(st.sessionId)
    ensures r.1.Some? ==> BearerToken(r.1) == st.sessionId
    ensures r.0.user.None? && r.0.sessionId.None?
    ensures SessionKey !in r.0.storage && UserKey !in r.0.storage
    ensures forall k :: k in st.storage && k != SessionKey && k != UserKey ==> k in r.0.storage && r.0.storage[k] == st.storage[k]
  {
    var cleared := AuthState(None, None, st.storage - {SessionKey, UserKey});
    if Truthy(st.sessionId) then
      TokenOfBearerHeader(st.sessionId.value);
      (cleared, Some(BearerPrefix + st.sessionId.value))
    else (cleared, None)
  }

  /** After a successful login, a reload restores exactly the signed-in state. */
  lemma LoginSurvivesReload(st: AuthState, reply: Reply<LoginReply>)
    requires reply.Ok? && reply.body.sessionId != ""
    ensures Restore(ClientLogin(st, reply).0.storage) == ClientLogin(st, reply).0
  {
  }

  /** After a logout, a reload restores no one. */
  lemma LogoutSurvivesReload(st: AuthState)
    ensures !IsAuthenticated(Restore(ClientLogout(st).0.storage))
    ensures Restore(ClientLogout(st).0.storage) == ClientLogout(st).0
  {
  }

  /** A successful login through the admin portal raises the admin flag,
      through the owner portal the owner flag. */
  lemma PortalLoginSetsFlag(st: AuthState, s: Store, b: LoginBody, sessionId: Id, now: Timestamp)
    requires b.portal == Some(RoleAdmin) || b.portal == Some(RoleOwner)
    requires Login(s, b, sessionId, now).1.Ok?
    ensures var after := ClientLogin(st, Login(s, b, sessionId, now).1).0;
      (b.portal == Some(RoleAdmin) ==> IsAdmin(after) && !IsOwner(after))
      && (b.portal == Some(RoleOwner) ==> IsOwner(after) && !IsAdmin(after))
  {
    PortalLoginHasRole(s, b, sessionId, now);
  }

  /** The request a signed-in client sends on logout ends its server
      session: the server accepts it, and the same header is refused after. */
  lemma LoginThenLogout(st: AuthState, s: Store, b: LoginBody, sessionId: Id, now: Timestamp, later: Timestamp)
    requires Valid(s) && KeyedById(s)
    requires sessionId != ""
    requires Login(s, b, sessionId, now).1.Ok?
    requires now <= later <= now + DayMs
    ensures var s1 := Login(s, b, sessionId, now).0;
      var header := ClientLogout(ClientLogin(st, Login(s, b, sessionId, now).1).0).1;
      && header == Some(BearerPrefix + sessionId)
      && Logout(s1, header, later).1 == Ok(true)
      && !Authenticated(Logout(s1, header, later).0, header, later)
  {
    var s1 := Login(s, b, sessionId, now).0;
    LoginThenAuthenticate(s, b, sessionId, now, later);
    TokenOfBearerHeader(sessionId);
    var header := Some(BearerPrefix + sessionId);
    var s2 := Logout(s1, header, later).0;
    assert Get(s1.sessions, sessionId).value.id == sessionId;
    assert Get(s2.sessions, sessionId).None?;
  }
}

=== FILE: base.dfy ===
/** Values shared by every part of the model: JavaScript's `null`/`undefined`
    as an optional value, and JavaScript truthiness of an optional string. */
module Base {

  /** `None` stands for both `null` and `undefined`. */
  datatype Option<+T> = None | Some(value: T) {

    /** The `??` operator: the value when present, otherwise the default. */
    function GetOr(default: T): T {
      match this
      case Some(v) => v
      case None => default
    }
  }

  /** `!!s` for a string that may be absent: present and non-empty. */
  predicate Truthy(s: Option<string>) {
    s.Some? && s.value != ""
  }

  /** `s || null`: an empty string collapses to `null`. */
  function OrNull(s: Option<string>): (r: Option<string>)
    ensures r.Some? <==> Truthy(s)
    ensures r.Some? ==> r == s
  {
    if Truthy(s) then s else None
  }
}

=== FILE: card.dfy ===
/** The card form of the credit-card checkout: the two input formatters,
    the validator and the donation request it sends once the payment
    intent's client secret is known. */
module Card {
  import opened Base
  import opened Schema
  import opened Donor

  predicate IsDigit(c: char) { '0' <= c <= '9' }

  predicate AllDigits(s: string) { forall i :: 0 <= i < |s| ==> IsDigit(s[i]) }

  /** `replace(/\s+/g, '').replace(/[^0-9]/gi, '')`: keep the ASCII digits, in order. */
  function Digits(s: string): (r: string)
    ensures AllDigits(r) && |r| <= |s|
    ensures AllDigits(s) ==> r == s
  {
    if s == [] then []
    else if IsDigit(s[0]) then [s[0]] + Digits(s[1..])
    else Digits(s[1..])
  }

  lemma {:induction false} DigitsAppend(a: string, b: string)
    ensures Digits(a + b) == Digits(a) + Digits(b)
  {
    if a == [] {
      assert a + b == b;
    } else {
      assert (a + b)[0] == a[0];
      assert (a + b)[1..] == a[1..] + b;
      DigitsAppend(a[1..], b);
      if IsDigit(a[0]) {
        calc {
          Digits(a + b);
          [a[0]] + Digits(a[1..] + b);
          [a[0]] + (Digits(a[1..]) + Digits(b));
          ([a[0]] + Digits(a[1..])) + Digits(b);
        }
      } else {
        assert Digits(a + b) == Digits(a[1..] + b);
      }
    }
  }

  function Min(a: int, b: int): int { if a <= b then a else b }

  /** Cut into groups of four, the last group holding the rest. */
  function Chunks(w: string): (parts: seq<string>)
    ensures |parts| == (|w| + 3) / 4
    ensures forall k :: 0 <= k < |parts| ==> 1 <= |parts[k]| <= 4
  {
    if w == [] then [] else if |w| <= 4 then [w] else [w[..4]] + Chunks(w[4..])
  }

  /** `parts.join(' ')`. */
  function Join(parts: seq<string>): string {
    if parts == [] then "" else if |parts| == 1 then parts[0] else parts[0] + " " + Join(parts[1..])
  }

  /** The digits `\d{4,16}` first matches in a digit string: nothing below
      four digits, otherwise the first sixteen at most. */
  function CardMatch(v: string): (m: string)
    ensures |v| < 4 ==> m == ""
    ensures |v| >= 4 ==> m == v[..Min(16, |v|)]
  {
    if |v| < 4 then "" else v[..Min(16, |v|)]
  }

  /** `formatCardNumber`. */
  function FormatCardNumber(value: string): string {
    var v := Digits(value);
    var parts := Chunks(CardMatch(v));
    if |parts| > 0 then Join(parts) else v
  }

  /** A card number as displayed: digits, a space at every fifth position
      and nowhere else, and a last group of one to four digits. */
  ghost predicate Grouped(r: string) {
    SpacedEveryFifth(r) && |r| % 5 != 0
  }

  ghost predicate SpacedEveryFifth(r: string) {
    forall i :: 0 <= i < |r| ==> (if i % 5 == 4 then r[i] == ' ' else IsDigit(r[i]))
  }

  lemma JoinStep(w: string)
    requires |w| > 4
    ensures Join(Chunks(w)) == w[..4] + " " + Join(Chunks(w[4..]))
  {
    assert Chunks(w) == [w[..4]] + Chunks(w[4..]);
  }

  lemma {:induction false} JoinLength(w: string)
    requires w != []
    ensures |Join(Chunks(w))| == |w| + (|w| - 1) / 4
    decreases |w|
  {
    if |w| > 4 {
      JoinStep(w);
      JoinLength(w[4..]);
    }
  }

  lemma DigitsSkipSpace(a: string, rest: string)
    requires AllDigits(a)
    ensures Digits(a + " " + rest) == a + Digits(rest)
  {
    var spaced := " " + rest;
    assert a + " " + rest == a + spaced;
    assert Digits(spaced) == Digits(rest) by {
      assert spaced[0] == ' ' && spaced[1..] == rest;
    }
    DigitsAppend(a, spaced);
  }

  lemma {:induction false} JoinDigits(w: string)
    requires AllDigits(w)
    ensures Digits(Join(Chunks(w))) == w
    decreases |w|
  {
    if |w| > 4 {
      var rest := Join(Chunks(w[4..]));
      JoinStep(w);
      assert AllDigits(w[4..]) && AllDigits(w[..4]);
      JoinDigits(w[4..]);
      DigitsSkipSpace(w[..4], rest);
      assert w[..4] + w[4..] == w;
    } else if w != [] {
      assert Chunks(w) == [w];
    }
  }

  lemma {:induction false} JoinSpaced(w: string)
    requires AllDigits(w)
    ensures SpacedEveryFifth(Join(Chunks(w)))
    decreases |w|
  {
    if |w| > 4 {
      var rest := Join(Chunks(w[4..]));
      var r := Join(Chunks(w));
      JoinStep(w);
      JoinSpaced(w[4..]);
      forall i | 0 <= i < |r|
        ensures if i % 5 == 4 then r[i] == ' ' else IsDigit(r[i])
      {
        if i >= 5 {
          assert (i - 5) % 5 == i % 5;
          assert r[i] == rest[i - 5];
        } else if i < 4 {
          assert r[i] == w[i];
        }
      }
    }
  }

  lemma GroupedLength(n: int)
    requires n >= 1
    ensures (n + (n - 1) / 4) % 5 != 0
  {
    var q := (n - 1) / 4;
    assert n + q == 5 * q + ((n - 1) % 4 + 1);
  }

  /** Joining the groups of a digit string spaces it every four digits
      and loses nothing but the spaces. */
  lemma JoinChunks(w: string)
    requires AllDigits(w) && w != []
    ensures var r := Join(Chunks(w));
      Grouped(r) && Digits(r) == w && |r| == |w| + (|w| - 1) / 4
  {
    var r := Join(Chunks(w));
    assert |r| == |w| + (|w| - 1) / 4 by { JoinLength(w); }
    assert |r| % 5 != 0 by { GroupedLength(|w|); }
    assert SpacedEveryFifth(r) by { JoinSpaced(w); }
    assert Digits(r) == w by { JoinDigits(w); }
  }

  /** `formatCardNumber` keeps only digits and spaces, at most the first
      sixteen digits, in groups of four; below four digits the digits come
      back unspaced. */
  lemma FormatCardNumberShape(value: string)
    ensures var v := Digits(value); var r := FormatCardNumber(value);
      && (|v| < 4 ==> r == v)
      && (|v| >= 4 ==> Grouped(r) && Digits(r) == v[..Min(16, |v|)] && |r| <= 19)
      && (|v| >= 4 ==> |r| == Min(16, |v|) + (Min(16, |v|) - 1) / 4)
  {
    var v := Digits(value);
    if |v| >= 4 {
      JoinChunks(v[..Min(16, |v|)]);
    }
  }

  /** Formatting a formatted card number changes nothing. */
  lemma FormatCardNumberIdempotent(value: string)
    ensures FormatCardNumber(FormatCardNumber(value)) == FormatCardNumber(value)
  {
    var v := Digits(value);
    var r := FormatCardNumber(value);
    FormatCardNumberShape(value);
    if |v| >= 4 {
      FormatCardNumberShape(r);
      assert Digits(r)[..Min(16, |Digits(r)|)] == Digits(r);
    }
  }

  /** `formatExpiryDate`: two digits, a slash, then up to two more digits. */
  function FormatExpiryDate(value: string): (r: string)
    ensures |r| <= 5
    ensures |Digits(value)| >= 2 ==> |r| >= 3 && r[2] == '/' && AllDigits(r[..2]) && AllDigits(r[3..])
    ensures |Digits(value)| >= 2 ==> r[..2] + r[3..] == Digits(value)[..Min(4, |Digits(value)|)]
    ensures |Digits(value)| < 2 ==> r == Digits(value)
  {
    var v := Digits(value);
    if |v| >= 2 then v[..2] + "/" + v[2..Min(4, |v|)] else v
  }

  /** Formatting a formatted expiry date changes nothing. */
  lemma FormatExpiryDateIdempotent(value: string)
    ensures FormatExpiryDate(FormatExpiryDate(value)) == FormatExpiryDate(value)
  {
    var v := Digits(value);
    var r := FormatExpiryDate(value);
    if |v| >= 2 {
      assert r == r[..2] + ("/" + r[3..]);
      DigitsAppend(r[..2], "/" + r[3..]);
      assert ("/" + r[3..])[0] == '/' && ("/" + r[3..])[1..] == r[3..];
      assert Digits(r) == r[..2] + r[3..];
    }
  }

  datatype CardInfo = CardInfo(cardNumber: string, expiryDate: string, cvc: string, cardholderName: string)

  /** The outcome of `validateCard`: the first failing check, or none. */
  datatype CardCheck = CardAccepted | InvalidCard | InvalidExpiry | InvalidCvc | MissingName

  /** `validateCard`, checking number, expiry, CVC and name in that order. */
  function ValidateCard(c: CardInfo): (r: CardCheck)
    ensures r == CardAccepted <==>
      |c.cardNumber| >= 13 && |c.expiryDate| >= 5 && |c.cvc| >= 3 && c.cardholderName != ""
    ensures r == InvalidExpiry ==> |c.cardNumber| >= 13
    ensures r == InvalidCvc ==> |c.cardNumber| >= 13 && |c.expiryDate| >= 5
    ensures r == MissingName ==> |c.cardNumber| >= 13 && |c.expiryDate| >= 5 && |c.cvc| >= 3
  {
    if |c.cardNumber| < 13 then InvalidCard
    else if |c.expiryDate| < 5 then InvalidExpiry
    else if |c.cvc| < 3 then InvalidCvc
    else if c.cardholderName == "" then MissingName
    else CardAccepted
  }

  /** Through the formatter, the number check asks for eleven digits. */
  lemma FormattedNumberCheck(number: string)
    ensures |FormatCardNumber(number)| >= 13 <==> |Digits(number)| >= 11
  {
    FormatCardNumberShape(number);
    var n := Min(16, |Digits(number)|);
    if |Digits(number)| >= 4 {
      assert n >= 11 ==> (n - 1) / 4 >= 2;
      assert n <= 10 ==> (n - 1) / 4 <= 2;
    }
  }

  /** Through the formatter, the expiry check asks for four digits. */
  lemma FormattedExpiryCheck(expiry: string)
    ensures |FormatExpiryDate(expiry)| >= 5 <==> |Digits(expiry)| >= 4
  {
  }

  /** `processPayment`: no request when the card is rejected; otherwise the
      donation request records a completed card payment whose reference is
      the payment intent's client secret. */
  function StripeDonation(c: CardInfo, amount: int, donor: DonorInfo, donationType: string, isAnonymous: bool,
                          clientSecret: string): (r: Option<DonationBody>)
    ensures r.Some? <==> ValidateCard(c) == CardAccepted
    ensures r.Some? ==>
      && r.value.status == Some(StatusCompleted) && r.value.paymentMethod == Some(MethodStripe)
      && r.value.paymentReference == Some(clientSecret) && r.value.amount == Some(amount)
      && r.value.currency == Some(DefaultCurrency) && r.value.isAnonymous == Some(isAnonymous)
      && (r.value.donorName.None? <==> isAnonymous) && (r.value.donorEmail.None? <==> isAnonymous)
    ensures r.Some? ==>
      && r.value.donorName == DonorName(donor, isAnonymous) && r.value.donorEmail == DonorEmail(donor, isAnonymous)
      && r.value.donationType == Some(donationType)
      && r.value.id.None? && r.value.verifiedAt.None? && r.value.createdAt.None?
  {
    if ValidateCard(c) != CardAccepted then None
    else Some(DonationBody(None, DonorName(donor, isAnonymous), DonorEmail(donor, isAnonymous), Some(amount),
                           Some(DefaultCurrency), Some(MethodStripe), Some(clientSecret), Some(StatusCompleted),
                           Some(isAnonymous), Some(donationType), None, None))
  }
}

=== FILE: donate.dfy ===
/** The donate page: the amount selection, the form check and the gate that
    decides which payment form is shown. Amounts are the text of the input
    fields, read with `parseFloat`. */
module DonatePage {
  import opened Base
  import opened Schema
  import opened Donor

  // ---------------------------------------------------------------- parseFloat

  /** A JavaScript number as far as this page uses one. */
  datatype Number = NaN | Num(value: real)

  predicate IsDigit(c: char) { '0' <= c <= '9' }

  /** The longest run of digits at the start of `s`. */
  function LeadingDigits(s: string): (r: string)
    ensures |r| <= |s| && r == s[..|r|]
    ensures forall i :: 0 <= i < |r| ==> IsDigit(r[i])
    ensures |r| < |s| ==> !IsDigit(s[|r|])
  {
    if s == [] || !IsDigit(s[0]) then "" else [s[0]] + LeadingDigits(s[1..])
  }

  /** The value of a digit string read in base ten. */
  function DigitsValue(d: string): nat {
    if d == [] then 0 else 10 * DigitsValue(d[..|d| - 1]) + (if IsDigit(d[|d| - 1]) then (d[|d| - 1] - '0') as nat else 0)
  }

  function Pow10(n: nat): (r: nat)
    ensures r >= 1
  {
    if n == 0 then 1 else 10 * Pow10(n - 1)
  }

  /** The unsigned part of a decimal literal at the start of `body`: digits,
      then optionally a point and more digits; `NaN` when neither run has a
      digit. */
  function UnsignedPrefix(body: string): (r: Number)
    ensures r.Num? ==> r.value >= 0.0
    ensures r.Num? ==> exists i :: 0 <= i < |body| && IsDigit(body[i])
  {
    var whole := LeadingDigits(body);
    var rest := body[|whole|..];
    var fraction := if rest != [] && rest[0] == '.' then LeadingDigits(rest[1..]) else "";
    if whole == "" && fraction == "" then NaN
    else
      assert whole != "" ==> body[0] == whole[0];
      assert whole == "" ==> rest[1..][0] == fraction[0];
      Num(DecimalValue(whole, fraction))
  }

  /** The value of the literal `whole.fraction`. */
  function DecimalValue(whole: string, fraction: string): (r: real)
    ensures r >= DigitsValue(whole) as real >= 0.0
  {
    DigitsValue(whole) as real + DigitsValue(fraction) as real / Pow10(|fraction|) as real
  }

  /** `parseFloat` on a decimal literal prefix: an optional sign, digits, and
      an optional point followed by digits; at least one digit must be there,
      and whatever follows the longest such prefix is ignored. */
  function ParseFloat(s: string): (r: Number)
    ensures r.Num? ==> exists i :: 0 <= i < |s| && IsDigit(s[i])
  {
    var negative := s != [] && s[0] == '-';
    var body := if s != [] && (s[0] == '-' || s[0] == '+') then s[1..] else s;
    match UnsignedPrefix(body)
    case NaN => NaN
    case Num(magnitude) =>
      assert exists i :: 0 <= i < |body| && IsDigit(body[i]);
      Num(if negative then -magnitude else magnitude)
  }

  predicate AllDigits(d: string) { forall i :: 0 <= i < |d| ==> IsDigit(d[i]) }

  /** The leading digits stop where the digits do. */
  lemma {:induction false} LeadingDigitsOf(d: string, t: string)
    requires AllDigits(d) && (t == [] || !IsDigit(t[0]))
    ensures LeadingDigits(d + t) == d
    decreases |d|
  {
    if d != [] {
      assert (d + t)[1..] == d[1..] + t;
      LeadingDigitsOf(d[1..], t);
      assert d == [d[0]] + d[1..];
    }
  }

  /** A sign in front of an unsigned literal is read once: a minus negates. */
  lemma ParseFloatSign(s: string, sign: string, body: string)
    requires s == sign + body
    requires sign == "" || sign == "-" || sign == "+"
    requires body == [] || (body[0] != '-' && body[0] != '+')
    ensures UnsignedPrefix(body).NaN? ==> ParseFloat(s) == NaN
    ensures UnsignedPrefix(body).Num? ==>
      ParseFloat(s) == Num(if sign == "-" then -UnsignedPrefix(body).value else UnsignedPrefix(body).value)
  {
    if sign == "" {
      assert s == body;
    } else {
      assert s[0] == sign[0] && s[1..] == body;
    }
  }

  /** The unsigned literal `whole.fraction` reads at its value. */
  lemma UnsignedDecimal(whole: string, fraction: string)
    requires AllDigits(whole) && AllDigits(fraction) && (whole != "" || fraction != "")
    ensures UnsignedPrefix(whole + "." + fraction) == Num(DecimalValue(whole, fraction))
    ensures (whole + "." + fraction)[0] != '-' && (whole + "." + fraction)[0] != '+'
  {
    var body := whole + "." + fraction;
    assert body[0] == (if whole == "" then '.' else whole[0]);
    assert body == whole + ("." + fraction);
    LeadingDigitsOf(whole, "." + fraction);
    assert body[|whole|..] == "." + fraction;
    assert ("." + fraction)[1..] == fraction;
    LeadingDigitsOf(fraction, "");
    assert fraction + "" == fraction;
  }

  /** `parseFloat` reads a whole decimal literal `[sign]whole.fraction` at
      its value; a leading minus negates it. */
  lemma ParseFloatDecimal(sign: string, whole: string, fraction: string)
    requires sign == "" || sign == "-" || sign == "+"
    requires AllDigits(whole) && AllDigits(fraction) && (whole != "" || fraction != "")
    ensures var magnitude := DecimalValue(whole, fraction);
      ParseFloat(sign + whole + "." + fraction) == Num(if sign == "-" then -magnitude else magnitude)
  {
    var body := whole + "." + fraction;
    var s := sign + whole + "." + fraction;
    assert s == sign + body;
    UnsignedDecimal(whole, fraction);
    ParseFloatSign(s, sign, body);
  }

  /** `parseFloat` reads a signed run of digits at its value. */
  lemma ParseFloatWhole(sign: string, whole: string)
    requires sign == "" || sign == "-" || sign == "+"
    requires AllDigits(whole) && whole != ""
    ensures ParseFloat(sign + whole) == Num(if sign == "-" then -(DigitsValue(whole) as real) else DigitsValue(whole) as real)
  {
    LeadingDigitsOf(whole, "");
    assert whole + "" == whole;
    assert DecimalValue(whole, "") == DigitsValue(whole) as real;
    assert UnsignedPrefix(whole) == Num(DigitsValue(whole) as real);
    ParseFloatSign(sign + whole, sign, whole);
  }

  /** The amounts the page's inputs produce, read as `parseFloat` reads them. */
  lemma ParseFloatFifty()
    ensures ParseFloat("50") == Num(50.0)
  {
    assert "50"[..1] == "5";
    ParseFloatWhole("", "50");
    assert "" + "50" == "50";
  }

  lemma ParseFloatTwelveAndAHalf()
    ensures ParseFloat("12.5") == Num(12.5)
  {
    assert "12"[..1] == "1";
    assert DigitsValue("12") == 12 && DigitsValue("5") == 5 && Pow10(1) == 10;
    assert DecimalValue("12", "5") == 12.5;
    ParseFloatDecimal("", "12", "5");
    assert "" + "12" + "." + "5" == "12.5";
  }

  lemma ParseFloatMinusThree()
    ensures ParseFloat("-3") == Num(-3.0)
  {
    ParseFloatWhole("-", "3");
    assert "-" + "3" == "-3";
  }

  /** Text after the literal is ignored, and text without a digit is `NaN`. */
  lemma ParseFloatIgnoresTail()
    ensures ParseFloat("7px") == Num(7.0)
    ensures ParseFloat("abc") == NaN
  {
    LeadingDigitsOf("7", "px");
    assert "7" + "px" == "7px";
  }

  /** `parseFloat(x) > 0`; false for `NaN`. */
  predicate Positive(n: Number) { n.Num? && n.value > 0.0 }

  /** `parseFloat(x) <= 0`; false for `NaN` as well. */
  predicate NonPositive(n: Number) { n.Num? && n.value <= 0.0 }

  // -------------------------------------------------------------- page state

  datatype DonateState = DonateState(
    amount: string,
    customAmount: string,
    donationType: string,
    paymentMethod: string,
    donor: DonorInfo,
    isAnonymous: bool,
    termsAccepted: bool)

  const Initial := DonateState("50", "", "one-time", MethodPaypal, DonorInfo("", "", "", ""), false, false)

  const Presets := ["25", "50", "100", "250"]

  /** `customAmount || amount`: a typed amount wins over the selected preset. */
  function FinalAmount(st: DonateState): (r: string)
    ensures st.customAmount != "" ==> r == st.customAmount
    ensures st.customAmount == "" ==> r == st.amount
  {
    if st.customAmount != "" then st.customAmount else st.amount
  }

  /** `handleAmountSelect`: choose a preset and clear the typed amount. */
  function SelectAmount(st: DonateState, selected: string): (r: DonateState)
    ensures FinalAmount(r) == selected
    ensures r.(amount := st.amount, customAmount := st.customAmount) == st
  {
    st.(amount := selected, customAmount := "")
  }

  predicate HasRequiredInfo(st: DonateState) {
    st.isAnonymous || (st.donor.firstName != "" && st.donor.lastName != "" && st.donor.email != "")
  }

  /** The outcome of the page's `validateForm`: the first failing check, or none. */
  datatype DonateCheck = DonateValid | InvalidAmount | MissingInformation | TermsRequired

  /** `validateForm`: amount, then donor details unless anonymous, then terms. */
  function ValidateDonateForm(st: DonateState): (r: DonateCheck)
    ensures r == InvalidAmount <==> FinalAmount(st) == "" || NonPositive(ParseFloat(FinalAmount(st)))
    ensures r == MissingInformation ==> !HasRequiredInfo(st)
    ensures r == TermsRequired ==> HasRequiredInfo(st) && !st.termsAccepted
    ensures r == DonateValid ==> HasRequiredInfo(st) && st.termsAccepted
  {
    var f := FinalAmount(st);
    if f == "" || NonPositive(ParseFloat(f)) then InvalidAmount
    else if !st.isAnonymous && (st.donor.firstName == "" || st.donor.lastName == "" || st.donor.email == "") then MissingInformation
    else if !st.termsAccepted then TermsRequired
    else DonateValid
  }

  /** The condition under which `renderPaymentForm` shows anything at all. */
  predicate ShowsPaymentForm(st: DonateState) {
    FinalAmount(st) != "" && Positive(ParseFloat(FinalAmount(st))) && HasRequiredInfo(st) && st.termsAccepted
  }

  datatype PaymentForm = PayPalForm(text: string) | StripeForm(dollars: real) | GCashForm(dollars: real)

  /** `renderPaymentForm`: the form for the chosen method, or nothing. */
  function RenderPaymentForm(st: DonateState): (r: Option<PaymentForm>)
    ensures r.Some? <==> ShowsPaymentForm(st) && IsPaymentMethod(st.paymentMethod)
    ensures r.Some? ==> (r.value.PayPalForm? <==> st.paymentMethod == MethodPaypal)
    ensures r.Some? ==> (r.value.GCashForm? <==> st.paymentMethod == MethodGCash)
    ensures r.Some? && !r.value.PayPalForm? ==> r.value.dollars > 0.0
    ensures r.Some? && r.value.PayPalForm? ==> r.value.text == FinalAmount(st)
    ensures r.Some? && !r.value.PayPalForm? ==> ParseFloat(FinalAmount(st)) == Num(r.value.dollars)
  {
    if !ShowsPaymentForm(st) then None
    else if st.paymentMethod == MethodPaypal then Some(PayPalForm(FinalAmount(st)))
    else if st.paymentMethod == MethodStripe then Some(StripeForm(ParseFloat(FinalAmount(st)).value))
    else if st.paymentMethod == MethodGCash then Some(GCashForm(ParseFloat(FinalAmount(st)).value))
    else None
  }

  // ------------------------------------------------------------------ lemmas

  /** Whenever the amount reads as a number, the gate shows a form exactly
      when the form check passes. */
  lemma GateMatchesValidation(st: DonateState)
    requires ParseFloat(FinalAmount(st)).Num?
    ensures ShowsPaymentForm(st) <==> ValidateDonateForm(st) == DonateValid
  {
  }

  /** The two disagree on an amount that does not read as a number: "abc"
      passes the form check (`NaN <= 0` is false) but shows no form. */
  lemma UnreadableAmountDisagrees()
    ensures var st := Initial.(customAmount := "abc", isAnonymous := true, termsAccepted := true);
      ValidateDonateForm(st) == DonateValid && RenderPaymentForm(st).None?
  {
    var st := Initial.(customAmount := "abc", isAnonymous := true, termsAccepted := true);
    assert LeadingDigits("abc") == "";
    assert ParseFloat("abc") == NaN;
  }

  lemma {:induction false} LeadingNonZeroValue(d: string)
    requires d != [] && '1' <= d[0] <= '9'
    ensures DigitsValue(d) >= 1
    decreases |d|
  {
    if |d| > 1 {
      LeadingNonZeroValue(d[..|d| - 1]);
    }
  }

  /** A text starting with a digit other than zero reads as a positive amount. */
  lemma LeadingNonZeroIsPositive(s: string)
    requires s != [] && '1' <= s[0] <= '9'
    ensures Positive(ParseFloat(s))
  {
    var whole := LeadingDigits(s);
    assert whole != [] && whole[0] == s[0];
    LeadingNonZeroValue(whole);
    assert UnsignedPrefix(s).Num? && UnsignedPrefix(s).value >= DigitsValue(whole) as real;
    ParseFloatSign(s, "", s);
  }

  /** Every preset reads as a positive amount. */
  lemma PresetsArePositive()
    ensures forall p :: p in Presets ==> Positive(ParseFloat(p))
  {
    forall p | p in Presets
      ensures Positive(ParseFloat(p))
    {
      LeadingNonZeroIsPositive(p);
    }
  }

  /** The page opens with the $50 preset selected and no form shown, since
      the terms are not yet accepted. */
  lemma InitialShowsNoForm()
    ensures FinalAmount(Initial) == "50"
    ensures RenderPaymentForm(Initial).None?
    ensures ValidateDonateForm(Initial) != DonateValid
  {
  }

  /** The phone number is never looked at. */
  lemma PhoneDoesNotMatter(st: DonateState, phone: string)
    ensures var st' := st.(donor := st.donor.(phone := phone));
      ValidateDonateForm(st') == ValidateDonateForm(st) && RenderPaymentForm(st') == RenderPaymentForm(st)
  {
  }

  /** An anonymous donor's details are not looked at either. */
  lemma AnonymousDetailsDoNotMatter(st: DonateState, other: DonorInfo)
    requires st.isAnonymous
    ensures var st' := st.(donor := other);
      ValidateDonateForm(st') == ValidateDonateForm(st) && RenderPaymentForm(st') == RenderPaymentForm(st)
  {
  }

  /** Choosing a preset after typing an amount makes the preset count. */
  lemma PresetOverridesTypedAmount(st: DonateState, p: string)
    requires p in Presets && st.termsAccepted && HasRequiredInfo(st) && st.paymentMethod == MethodPaypal
    ensures RenderPaymentForm(SelectAmount(st, p)) == Some(PayPalForm(p))
  {
    PresetsArePositive();
  }
}

=== FILE: donor.dfy ===
/** The donor details the payment components receive, and the two donor
    columns they derive from them for the donation request. */
module Donor {
  import opened Base

  datatype DonorInfo = DonorInfo(firstName: string, lastName: string, email: string, phone: string)

  /** `isAnonymous ? null : \`${firstName} ${lastName}\``. */
  function DonorName(info: DonorInfo, isAnonymous: bool): (r: Option<string>)
    ensures r.None? <==> isAnonymous
    ensures r.Some? ==> |r.value| == |info.firstName| + 1 + |info.lastName|
    ensures r.Some? ==> r.value[..|info.firstName|] == info.firstName && r.value[|info.firstName|] == ' '
    ensures r.Some? ==> r.value[|info.firstName| + 1..] == info.lastName
  {
    if isAnonymous then None else Some(info.firstName + " " + info.lastName)
  }

  /** `isAnonymous ? null : email`. */
  function DonorEmail(info: DonorInfo, isAnonymous: bool): (r: Option<string>)
    ensures r.None? <==> isAnonymous
    ensures r.Some? ==> r.value == info.email
  {
    if isAnonymous then None else Some(info.email)
  }

  /** An anonymous donation carries nothing of the donor's details. */
  lemma AnonymousHidesDonor(a: DonorInfo, b: DonorInfo)
    ensures DonorName(a, true) == DonorName(b, true) && DonorEmail(a, true) == DonorEmail(b, true)
  {
  }

  /** A named donation's name splits back into the first and last name
      whenever the first name has no space in it. */
  lemma {:induction false} NameSplitsBack(info: DonorInfo)
    requires forall i :: 0 <= i < |info.firstName| ==> info.firstName[i] != ' '
    ensures var n := DonorName(info, false).value;
      FirstSpace(n) == |info.firstName| && n[..FirstSpace(n)] == info.firstName && n[FirstSpace(n) + 1..] == info.lastName
  {
    var n := DonorName(info, false).value;
    FirstSpaceAt(n, |info.firstName|);
  }

  /** The position of the first space, or the length when there is none. */
  function FirstSpace(s: string): (r: nat)
    ensures r <= |s|
    ensures forall i :: 0 <= i < r ==> s[i] != ' '
    ensures r < |s| ==> s[r] == ' '
  {
    if s == [] then 0 else if s[0] == ' ' then 0 else 1 + FirstSpace(s[1..])
  }

  lemma FirstSpaceAt(s: string, k: nat)
    requires k < |s| && s[k] == ' '
    requires forall i :: 0 <= i < k ==> s[i] != ' '
    ensures FirstSpace(s) == k
  {
  }
}

=== FILE: gcash_form.dfy ===
/** The GCash payment form: its validation, the two requests it sends (the
    donation first, then the payment for verification) and the flow of
    those requests through the server handlers. */
module GCashForm {
  import opened Base
  import opened Schema
  import opened Table
  import opened Storage
  import opened Routes
  import opened Donor

  /** The outcome of the form's `validateForm`. */
  datatype FormCheck = FormAccepted | InvalidReference | InvalidNumber

  /** Reference number first (ten characters), then sender number (eleven). */
  function ValidateForm(referenceNumber: string, senderNumber: string): (r: FormCheck)
    ensures r == FormAccepted <==> |referenceNumber| >= 10 && |senderNumber| >= 11
    ensures |referenceNumber| < 10 ==> r == InvalidReference
    ensures r == InvalidNumber ==> |referenceNumber| >= 10
  {
    if |referenceNumber| < 10 then InvalidReference
    else if |senderNumber| < 11 then InvalidNumber
    else FormAccepted
  }

  /** `Math.round(amount * 55)`, the peso amount for a dollar amount given
      in cents: the nearest whole peso, halves rounded up. */
  function PhpAmount(cents: int): (r: int)
    ensures -50 < 100 * r - 55 * cents <= 50
  {
    (cents * 55 + 50) / 100
  }

  /** The donation request: a pending GCash donation whose payment
      reference is the transfer's reference number. */
  function DonationRequest(amount: int, donor: DonorInfo, donationType: string, isAnonymous: bool, referenceNumber: string)
    : (b: DonationBody)
    ensures b.status == Some(StatusPending) && b.paymentMethod == Some(MethodGCash)
    ensures b.paymentReference == Some(referenceNumber) && b.amount == Some(amount)
    ensures ParseInsertDonation(b).Some?
    ensures (b.donorName.None? <==> isAnonymous) && (b.donorEmail.None? <==> isAnonymous)
    ensures b.donorName == DonorName(donor, isAnonymous) && b.donorEmail == DonorEmail(donor, isAnonymous)
    ensures b.donationType == Some(donationType) && b.currency == Some(DefaultCurrency)
    ensures b.isAnonymous == Some(isAnonymous)
    ensures b.id.None? && b.verifiedAt.None? && b.createdAt.None?
  {
    DonationBody(None, DonorName(donor, isAnonymous), DonorEmail(donor, isAnonymous), Some(amount),
                 Some(DefaultCurrency), Some(MethodGCash), Some(referenceNumber), Some(StatusPending),
                 Some(isAnonymous), Some(donationType), None, None)
  }

  /** What became of one press of the submit button. */
  datatype Outcome =
    | NotSent(check: FormCheck)
    | DonationRefused(code: int)
    | SubmissionRefused(donation: Donation, code: int)
    | Submitted(donation: Donation, payment: GCashPayment)

  /** `submitPayment` against the server: nothing is sent for an invalid
      form; otherwise the donation is posted, and only once it is stored is
      the payment submitted with the new donation's id. A failed request
      ends the flow. */
  function SubmitPayment(s: Store, amount: int, donor: DonorInfo, donationType: string, isAnonymous: bool,
                         referenceNumber: string, senderNumber: string,
                         donationId: Id, paymentId: Id, now: Timestamp): (r: (Store, Outcome))
    ensures ValidateForm(referenceNumber, senderNumber) != FormAccepted ==>
      r == (s, NotSent(ValidateForm(referenceNumber, senderNumber)))
    ensures ValidateForm(referenceNumber, senderNumber) == FormAccepted ==>
      && (r.1.SubmissionRefused? || r.1.Submitted?)
      && r.1.donation.id == donationId && r.1.donation.status == StatusPending
      && r.1.donation.paymentReference == Some(referenceNumber)
      && Get(r.0.donations, donationId) == Some(r.1.donation)
      && (forall j :: j != donationId ==> Get(r.0.donations, j) == Get(s.donations, j))
    ensures r.1.Submitted? ==>
      && r.1.payment.donationId == Some(donationId) && r.1.payment.referenceNumber == referenceNumber
      && r.1.payment.amount == PhpAmount(amount) && r.1.payment.senderNumber == Some(senderNumber)
      && r.1.payment.status == Some(StatusPending)
      && Get(r.0.payments, paymentId) == Some(r.1.payment)
      && (forall j :: j != paymentId ==> Get(r.0.payments, j) == Get(s.payments, j))
      && Keys(r.0.payments) == (if paymentId in Keys(s.payments) then Keys(s.payments) else Keys(s.payments) + [paymentId])
      && (paymentId !in Keys(s.payments) ==> r.0.payments == s.payments + [(paymentId, r.1.payment)])
    ensures !r.1.Submitted? ==> r.0.payments == s.payments
    ensures ValidateForm(referenceNumber, senderNumber) == FormAccepted ==>
      && Keys(r.0.donations) == (if donationId in Keys(s.donations) then Keys(s.donations) else Keys(s.donations) + [donationId])
      && (donationId !in Keys(s.donations) ==> r.0.donations == s.donations + [(donationId, r.1.donation)])
    ensures r.0 == s.(donations := r.0.donations, payments := r.0.payments)
    ensures r.1.Submitted? <==>
      (ValidateForm(referenceNumber, senderNumber) == FormAccepted
       && forall g :: g in Values(s.payments) ==> g.referenceNumber != referenceNumber)
  {
    var check := ValidateForm(referenceNumber, senderNumber);
    if check != FormAccepted then (s, NotSent(check))
    else
      var (s1, posted) := PostDonation(s, DonationRequest(amount, donor, donationType, isAnonymous, referenceNumber),
                                       donationId, now);
      match posted
      case Fail(code, _) => (s1, DonationRefused(code))
      case Ok(donation) =>
        var (s2, submitted) := SubmitGCash(s1, GCashBody(Some(donation.id), referenceNumber, Some(PhpAmount(amount)),
                                                         Some(senderNumber)), paymentId, now);
        match submitted
        case Fail(code, _) => (s2, SubmissionRefused(donation, code))
        case Ok(payment) => (s2, Submitted(donation, payment))
  }

  /** A reference number that was already submitted is refused only after
      the donation is stored, so the donor is left with a pending GCash
      donation that no payment points at. */
  lemma DuplicateReferenceOrphansDonation(s: Store, amount: int, donor: DonorInfo, donationType: string, isAnonymous: bool,
                                          referenceNumber: string, senderNumber: string,
                                          donationId: Id, paymentId: Id, now: Timestamp)
    requires |referenceNumber| >= 10 && |senderNumber| >= 11
    requires exists g :: g in Values(s.payments) && g.referenceNumber == referenceNumber
    ensures var r := SubmitPayment(s, amount, donor, donationType, isAnonymous, referenceNumber, senderNumber,
                                   donationId, paymentId, now);
      && r.1 == SubmissionRefused(r.1.donation, 400)
      && r.0.payments == s.payments
      && Get(r.0.donations, donationId).Some? && Get(r.0.donations, donationId).value.status == StatusPending
  {
  }

  /** A submitted GCash payment that staff verify completes the donation the
      form created, and records who verified it and when. */
  lemma SubmitThenVerifyCompletes(s: Store, amount: int, donor: DonorInfo, donationType: string, isAnonymous: bool,
                                  referenceNumber: string, senderNumber: string,
                                  donationId: Id, paymentId: Id, now: Timestamp, actor: Id, later: Timestamp)
    requires donationId != ""
    requires SubmitPayment(s, amount, donor, donationType, isAnonymous, referenceNumber, senderNumber,
                           donationId, paymentId, now).1.Submitted?
    ensures var r := SubmitPayment(s, amount, donor, donationType, isAnonymous, referenceNumber, senderNumber,
                                   donationId, paymentId, now);
      var v := Verify(r.0, actor, paymentId, Some(StatusVerified), later);
      && v.1.Ok? && v.1.body.status == Some(StatusVerified) && v.1.body.verifiedBy == Some(actor)
      && Get(v.0.donations, donationId).Some?
      && Get(v.0.donations, donationId).value.status == StatusCompleted
      && Get(v.0.donations, donationId).value.verifiedAt == Some(later)
  {
    var r := SubmitPayment(s, amount, donor, donationType, isAnonymous, referenceNumber, senderNumber,
                           donationId, paymentId, now);
    assert Cascades(r.1.payment, Some(StatusVerified));
  }
}

=== FILE: navigation.dfy ===
/** The navigation bar: which links a visitor sees, the role label next to
    the signed-in user's name, and when the logout control is shown. */
module Navigation {
  import opened Base
  import opened Schema
  import opened Auth

  datatype NavItem = NavItem(href: string, text: string)

  const PublicItems := [
    NavItem("/", "Home"),
    NavItem("/about", "About Us"),
    NavItem("/work", "Our Work"),
    NavItem("/stories", "Stories"),
    NavItem("/recognition", "Recognition"),
    NavItem("/donate", "Donate"),
    NavItem("/contact", "Contact Us")
  ]

  const AdminItems := [NavItem("/admin-dashboard", "Dashboard")]

  const OwnerItems := [NavItem("/owner-dashboard", "Dashboard")]

  /** The paths of a list of links. */
  function Hrefs(items: seq<NavItem>): (r: seq<string>)
    ensures |r| == |items|
    ensures forall i :: 0 <= i < |items| ==> r[i] == items[i].href
  {
    if items == [] then [] else [items[0].href] + Hrefs(items[1..])
  }

  /** `getNavItems`: the owner flag is asked first, then the admin flag. */
  function NavItems(isOwner: bool, isAdmin: bool): (r: seq<NavItem>)
    ensures isOwner ==> r == OwnerItems
    ensures !isOwner && isAdmin ==> r == AdminItems
    ensures !isOwner && !isAdmin ==> r == PublicItems
  {
    if isOwner then OwnerItems else if isAdmin then AdminItems else PublicItems
  }

  /** The links shown for a client state. */
  function ItemsFor(st: AuthState): (r: seq<NavItem>)
    ensures IsOwner(st) ==> r == OwnerItems
    ensures IsAdmin(st) ==> r == AdminItems
    ensures !IsOwner(st) && !IsAdmin(st) ==> r == PublicItems
  {
    FlagsExclusive(st);
    NavItems(IsOwner(st), IsAdmin(st))
  }

  /** Only visitors who are neither admin nor owner see the public links,
      and only they see the donate page among them; each staff role sees
      its own dashboard and nothing else. */
  lemma DonateLinkOnlyForPublic(st: AuthState)
    ensures "/donate" in Hrefs(ItemsFor(st)) <==> !IsOwner(st) && !IsAdmin(st)
    ensures |ItemsFor(st)| == 7 <==> !IsOwner(st) && !IsAdmin(st)
    ensures IsOwner(st) ==> Hrefs(ItemsFor(st)) == ["/owner-dashboard"]
    ensures IsAdmin(st) ==> Hrefs(ItemsFor(st)) == ["/admin-dashboard"]
  {
    assert Hrefs(PublicItems)[5] == "/donate";
    assert Hrefs(OwnerItems) == ["/owner-dashboard"];
    assert Hrefs(AdminItems) == ["/admin-dashboard"];
  }

  /** An owner flag wins over the admin flag, whatever the admin flag says. */
  lemma OwnerFlagWins(isAdmin: bool)
    ensures NavItems(true, isAdmin) == OwnerItems
    ensures NavItems(true, isAdmin) != PublicItems && NavItems(true, isAdmin) != AdminItems
  {
  }

  /** The label before the user's name: "Admin", "Owner", else "User". */
  function RoleLabel(role: Option<string>): (r: string)
    ensures r == "Admin" <==> role == Some(RoleAdmin)
    ensures r == "Owner" <==> role == Some(RoleOwner)
    ensures r in {"Admin", "Owner", "User"}
  {
    if role == Some(RoleAdmin) then "Admin" else if role == Some(RoleOwner) then "Owner" else "User"
  }

  /** The user name line and the logout control, shown only when signed in. */
  function AccountControls(st: AuthState): (r: Option<(string, string)>)
    ensures r.Some? <==> IsAuthenticated(st)
    ensures r.Some? ==> r.value.1 == st.user.value.username
    ensures r.Some? ==> (r.value.0 == "Admin" <==> IsAdmin(st)) && (r.value.0 == "Owner" <==> IsOwner(st))
  {
    if IsAuthenticated(st) then Some((RoleLabel(Some(st.user.value.role)), st.user.value.username)) else None
  }

  /** The label agrees with the links: a staff label goes with that role's
      dashboard, the "User" label with the public links. */
  lemma LabelMatchesLinks(st: AuthState)
    requires IsAuthenticated(st)
    ensures AccountControls(st).value.0 == "Admin" ==> ItemsFor(st) == AdminItems
    ensures AccountControls(st).value.0 == "Owner" ==> ItemsFor(st) == OwnerItems
    ensures AccountControls(st).value.0 == "User" ==> ItemsFor(st) == PublicItems
  {
  }

  /** After logout only the public links remain and no controls are shown. */
  lemma LogoutShowsPublicLinks(st: AuthState)
    ensures ItemsFor(ClientLogout(st).0) == PublicItems
    ensures AccountControls(ClientLogout(st).0).None?
  {
  }
}

=== FILE: paging.dfy ===
/** The list operations the store applies to `Array.from(map.values())`:
    a stable sort by creation time, newest first (`sort((a, b) => b - a)`),
    and JavaScript's `Array.prototype.slice` with its negative-index rule. */
module Paging {

  /** Every element is at least as new as every element after it. */
  ghost predicate NewestFirst<T>(s: seq<T>, at: T -> int) {
    forall i, j :: 0 <= i < j < |s| ==> at(s[i]) >= at(s[j])
  }

  /** Places `x`, which came earlier in the input than everything in `s`,
      in front of every element that is not strictly newer than it. */
  function InsertByAge<T(==)>(x: T, s: seq<T>, at: T -> int): (r: seq<T>)
    requires NewestFirst(s, at)
    ensures NewestFirst(r, at)
    ensures multiset(r) == multiset(s) + multiset{x}
    ensures |r| == |s| + 1
  {
    if s == [] || at(x) >= at(s[0]) then [x] + s
    else
      var rest := InsertByAge(x, s[1..], at);
      assert s == [s[0]] + s[1..];
      forall k | 0 <= k < |rest|
        ensures at(s[0]) >= at(rest[k])
      {
        assert rest[k] in multiset(rest);
        assert rest[k] in multiset(s[1..]) || rest[k] == x;
      }
      [s[0]] + rest
  }

  /** A stable insertion sort, newest first; equal times keep their input order. */
  function SortNewestFirst<T(==)>(s: seq<T>, at: T -> int): (r: seq<T>)
    ensures NewestFirst(r, at)
    ensures multiset(r) == multiset(s)
    ensures |r| == |s|
  {
    if s == [] then []
    else
      assert s == [s[0]] + s[1..];
      InsertByAge(s[0], SortNewestFirst(s[1..], at), at)
  }

  /** How `slice` resolves one index against a length: negative counts from the end. */
  function RelativeIndex(i: int, len: nat): (r: nat)
    ensures r <= len
    ensures 0 <= i ==> r == if i <= len then i else len
    ensures i < 0 ==> r == if -i <= len then len + i else 0
  {
    if i < 0 then (if len + i < 0 then 0 else len + i)
    else if i > len then len
    else i
  }

  /** `s.slice(start, end)`. */
  function Slice<T>(s: seq<T>, start: int, end: int): (r: seq<T>)
    ensures |r| <= |s|
  {
    var from := RelativeIndex(start, |s|);
    var to := RelativeIndex(end, |s|);
    if from < to then s[from..to] else []
  }

  /** `slice(offset, offset + limit)`, the page the store hands out. With a
      non-negative window it is `[offset, offset + limit)` cut off at the
      end of the list. */
  function Page<T>(s: seq<T>, limit: int, offset: int): (r: seq<T>)
    ensures 0 <= offset && 0 <= limit ==> |r| <= limit
    ensures 0 <= offset && 0 <= limit ==>
      |r| == if offset >= |s| then 0 else if offset + limit <= |s| then limit else |s| - offset
    ensures 0 <= offset && 0 <= limit ==> forall k :: 0 <= k < |r| ==> r[k] == s[offset + k]
    ensures forall x :: x in r ==> x in s
  {
    Slice(s, offset, offset + limit)
  }

  /** A negative limit makes the end index count from the back: with
      offset 0 and limit -1 the page is everything but the last element. */
  lemma NegativeLimitDropsLast<T>(s: seq<T>)
    requires s != []
    ensures Page(s, -1, 0) == s[..|s| - 1]
  {
  }

  /** A page of a newest-first list is itself newest first. */
  lemma PageKeepsOrder<T>(s: seq<T>, limit: int, offset: int, at: T -> int)
    requires NewestFirst(s, at)
    ensures NewestFirst(Page(s, limit, offset), at)
  {
    var from := RelativeIndex(offset, |s|);
    var to := RelativeIndex(offset + limit, |s|);
    if from < to {
      assert Page(s, limit, offset) == s[from..to];
      forall i, j | 0 <= i < j < to - from
        ensures at(s[from..to][i]) >= at(s[from..to][j])
      {
        assert s[from..to][i] == s[from + i] && s[from..to][j] == s[from + j];
      }
    }
  }

  /** `Array.from(map.values()).sort(newest first).slice(offset, offset + limit)`:
      the store's paged listing. */
  function NewestPage<T(==)>(s: seq<T>, at: T -> int, limit: int, offset: int): (r: seq<T>)
    ensures 0 <= offset && 0 <= limit ==> |r| <= limit
    ensures 0 <= offset && 0 <= limit ==>
      |r| == if offset >= |s| then 0 else if offset + limit <= |s| then limit else |s| - offset
    ensures 0 <= offset && 0 <= limit ==>
      forall k :: 0 <= k < |r| ==> r[k] == SortNewestFirst(s, at)[offset + k]
    ensures NewestFirst(r, at)
    ensures forall x :: x in r ==> x in s
    ensures offset == 0 && |s| <= limit ==> multiset(r) == multiset(s)
  {
    var sorted := SortNewestFirst(s, at);
    PageKeepsOrder(sorted, limit, offset, at);
    assert forall x :: x in sorted ==> x in multiset(s);
    var r := Page(sorted, limit, offset);
    assert offset == 0 && |s| <= limit ==> r == sorted;
    r
  }

  /** `xs.filter(p)`: the elements satisfying `p`, in order, each as often as in `xs`. */
  function Filter<T(==,!new)>(xs: seq<T>, p: T -> bool): (r: seq<T>)
    ensures forall x :: multiset(r)[x] == if p(x) then multiset(xs)[x] else 0
    ensures forall x :: x in r <==> x in xs && p(x)
    ensures |r| <= |xs|
  {
    if xs == [] then []
    else
      assert xs == [xs[0]] + xs[1..];
      var rest := Filter(xs[1..], p);
      assert forall x :: x in rest <==> multiset(rest)[x] > 0;
      (if p(xs[0]) then [xs[0]] else []) + rest
  }

  /** `Filter` on a non-empty list: the head when it qualifies, then the rest. */
  lemma FilterHead<T(!new)>(xs: seq<T>, p: T -> bool)
    requires xs != []
    ensures Filter(xs, p) == (if p(xs[0]) then [xs[0]] else []) + Filter(xs[1..], p)
  {
  }

  /** The elements created at time `a`. */
  function AgeIs<T>(at: T -> int, a: int): T -> bool {
    (x: T) => at(x) == a
  }

  /** For every time, the same elements created at that time, in the same
      relative order: what a stable sort keeps of its input. */
  ghost predicate SameTies<T(!new)>(r: seq<T>, s: seq<T>, at: T -> int) {
    forall a :: Filter(r, AgeIs(at, a)) == Filter(s, AgeIs(at, a))
  }

  /** The tail of a newest-first list is newest first. */
  lemma NewestFirstTail<T>(s: seq<T>, at: T -> int)
    requires s != [] && NewestFirst(s, at)
    ensures NewestFirst(s[1..], at)
  {
    forall i, j | 0 <= i < j < |s[1..]|
      ensures at(s[1..][i]) >= at(s[1..][j])
    {
      assert s[1..][i] == s[i + 1] && s[1..][j] == s[j + 1];
    }
  }

  /** Inserting `x` puts it in front of every element created at the same time. */
  lemma {:induction false} InsertByAgeTies<T(!new)>(x: T, s: seq<T>, at: T -> int, a: int)
    requires NewestFirst(s, at)
    ensures Filter(InsertByAge(x, s, at), AgeIs(at, a)) == (if at(x) == a then [x] else []) + Filter(s, AgeIs(at, a))
    decreases |s|
  {
    var p := AgeIs(at, a);
    var mine := if at(x) == a then [x] else [];
    if s == [] || at(x) >= at(s[0]) {
      assert InsertByAge(x, s, at) == [x] + s;
      FilterHead([x] + s, p);
      assert ([x] + s)[1..] == s;
      assert Filter(InsertByAge(x, s, at), p) == mine + Filter(s, p);
    } else {
      NewestFirstTail(s, at);
      var rest := InsertByAge(x, s[1..], at);
      assert InsertByAge(x, s, at) == [s[0]] + rest;
      InsertByAgeTies(x, s[1..], at, a);
      var head := if p(s[0]) then [s[0]] else [];
      FilterHead([s[0]] + rest, p);
      assert ([s[0]] + rest)[1..] == rest;
      assert Filter(InsertByAge(x, s, at), p) == head + (mine + Filter(s[1..], p));
      FilterHead(s, p);
      assert head == [] || mine == [];
      ReorderAroundEmpty(Filter(InsertByAge(x, s, at), p), head, mine, Filter(s[1..], p), Filter(s, p));
    }
  }

  /** When one of two prefixes is empty, their order does not matter. */
  lemma ReorderAroundEmpty<T>(inserted: seq<T>, head: seq<T>, mine: seq<T>, tail: seq<T>, whole: seq<T>)
    requires inserted == head + (mine + tail) && whole == head + tail
    requires head == [] || mine == []
    ensures inserted == mine + whole
  {
    if head == [] {
      assert head + (mine + tail) == mine + tail;
    } else {
      assert mine + tail == tail;
    }
  }

  /** The sort is stable: elements created at the same time keep their input order. */
  lemma {:induction false} SortKeepsTies<T(!new)>(s: seq<T>, at: T -> int)
    ensures SameTies(SortNewestFirst(s, at), s, at)
    decreases |s|
  {
    if s != [] {
      SortKeepsTies(s[1..], at);
      forall a
        ensures Filter(SortNewestFirst(s, at), AgeIs(at, a)) == Filter(s, AgeIs(at, a))
      {
        InsertByAgeTies(s[0], SortNewestFirst(s[1..], at), at, a);
        FilterHead(s, AgeIs(at, a));
      }
    }
  }

  /** A non-empty list has an element created at the time of its head. */
  lemma HeadHasTie<T(!new)>(s: seq<T>, at: T -> int)
    requires s != []
    ensures Filter(s, AgeIs(at, at(s[0]))) == [s[0]] + Filter(s[1..], AgeIs(at, at(s[0])))
  {
    FilterHead(s, AgeIs(at, at(s[0])));
  }

  /** Nothing in a newest-first list is newer than its head. */
  lemma HeadIsNewest<T>(r: seq<T>, at: T -> int, y: T)
    requires NewestFirst(r, at) && y in r
    ensures at(r[0]) >= at(y)
  {
    var i :| 0 <= i < |r| && r[i] == y;
    assert i == 0 || at(r[0]) >= at(r[i]);
  }

  /** A common prefix cancels. */
  lemma CancelPrefix<T>(h: seq<T>, x: seq<T>, y: seq<T>)
    requires h + x == h + y
    ensures x == y
  {
    assert x == (h + x)[|h|..];
    assert y == (h + y)[|h|..];
  }

  /** Lists with the same ties and the same head have tails with the same ties. */
  lemma TailsKeepTies<T(!new)>(r: seq<T>, q: seq<T>, at: T -> int)
    requires r != [] && q != [] && r[0] == q[0] && SameTies(r, q, at)
    ensures SameTies(r[1..], q[1..], at)
  {
    forall a
      ensures Filter(r[1..], AgeIs(at, a)) == Filter(q[1..], AgeIs(at, a))
    {
      var p := AgeIs(at, a);
      var head := if p(r[0]) then [r[0]] else [];
      FilterHead(r, p);
      FilterHead(q, p);
      CancelPrefix(head, Filter(r[1..], p), Filter(q[1..], p));
    }
  }

  /** Two newest-first lists with the same ties have the same head. */
  lemma SameHead<T(!new)>(r: seq<T>, q: seq<T>, at: T -> int)
    requires r != [] && q != []
    requires NewestFirst(r, at) && NewestFirst(q, at) && SameTies(r, q, at)
    ensures r[0] == q[0]
  {
    HeadHasTie(r, at);
    HeadHasTie(q, at);
    var m, n := AgeIs(at, at(r[0])), AgeIs(at, at(q[0]));
    assert q[0] in Filter(r, n);
    HeadIsNewest(r, at, q[0]);
    assert r[0] in Filter(q, m);
    HeadIsNewest(q, at, r[0]);
    assert m == n;
    assert r[0] == Filter(r, m)[0] == Filter(q, m)[0] == q[0];
  }

  /** Lists with the same ties are both empty or both not. */
  lemma BothOrNeitherEmpty<T(!new)>(r: seq<T>, q: seq<T>, at: T -> int)
    requires SameTies(r, q, at)
    ensures r == [] <==> q == []
  {
    if r != [] {
      HeadHasTie(r, at);
      assert Filter(q, AgeIs(at, at(r[0]))) != [];
    }
    if q != [] {
      HeadHasTie(q, at);
      assert Filter(r, AgeIs(at, at(q[0]))) != [];
    }
  }

  /** Two newest-first lists with the same ties are the same list. */
  lemma {:induction false} TiesDetermineOrder<T(!new)>(r: seq<T>, q: seq<T>, at: T -> int)
    requires NewestFirst(r, at) && NewestFirst(q, at) && SameTies(r, q, at)
    ensures r == q
    decreases |r|
  {
    BothOrNeitherEmpty(r, q, at);
    if r != [] {
      SameHead(r, q, at);
      TailsKeepTies(r, q, at);
      NewestFirstTail(r, at);
      NewestFirstTail(q, at);
      TiesDetermineOrder(r[1..], q[1..], at);
      assert r == [r[0]] + r[1..] && q == [q[0]] + q[1..];
    }
  }

  /** The sort's result is the one newest-first arrangement of its input
      that keeps elements created at the same time in input order. */
  lemma SortIsTheStableOrder<T(!new)>(s: seq<T>, arranged: seq<T>, at: T -> int)
    requires NewestFirst(arranged, at) && SameTies(arranged, s, at)
    ensures SortNewestFirst(s, at) == arranged
  {
    SortKeepsTies(s, at);
    TiesDetermineOrder(SortNewestFirst(s, at), arranged, at);
  }

  /** A page of the listing is the window of any newest-first arrangement
      that keeps ties in input order. */
  lemma NewestPageIsWindow<T(!new)>(s: seq<T>, arranged: seq<T>, at: T -> int, limit: int, offset: int)
    requires NewestFirst(arranged, at) && SameTies(arranged, s, at)
    ensures NewestPage(s, at, limit, offset) == Page(arranged, limit, offset)
  {
    SortIsTheStableOrder(s, arranged, at);
  }
}

=== FILE: routes.dfy ===
/** The HTTP handlers over the store. Each handler is one step from a store
    and a request to a new store and a reply; the session id or record id a
    handler would draw from `randomUUID` and the current time are parameters. */
module Routes {
  import opened Base
  import opened Schema
  import opened Table
  import opened Paging
  import opened Storage
  import opened Stats

  /** A JSON reply: a body with status 200, or an error status with a message. */
  datatype Reply<T> = Ok(body: T) | Fail(code: int, error: string)

  /** A session lasts 24 hours, in milliseconds. */
  const DayMs := 24 * 60 * 60 * 1000

  // ------------------------------------------------------------ the bearer token

  predicate OccursAt(s: string, pat: string, i: nat) {
    i + |pat| <= |s| && s[i..i + |pat|] == pat
  }

  /** The first position at or after `from` where `pat` occurs in `s`. */
  function FirstOccurrence(s: string, pat: string, from: nat): (r: Option<nat>)
    ensures r.Some? ==> from <= r.value && OccursAt(s, pat, r.value)
    ensures r.Some? ==> forall i :: from <= i < r.value ==> !OccursAt(s, pat, i)
    ensures r.None? ==> forall i :: from <= i ==> !OccursAt(s, pat, i)
    decreases |s| - from
  {
    if from + |pat| > |s| then None
    else if OccursAt(s, pat, from) then Some(from)
    else FirstOccurrence(s, pat, from + 1)
  }

  /** `s.replace(pat, '')` with a string pattern: only the first occurrence,
      wherever it is, is removed. */
  function RemoveFirst(s: string, pat: string): (r: string)
    ensures FirstOccurrence(s, pat, 0).None? ==> r == s
    ensures FirstOccurrence(s, pat, 0).Some? ==> |r| + |pat| == |s|
  {
    match FirstOccurrence(s, pat, 0)
    case None => s
    case Some(i) => s[..i] + s[i + |pat|..]
  }

  const BearerPrefix := "Bearer "

  /** `req.headers.authorization?.replace('Bearer ', '')`. */
  function BearerToken(authorization: Option<string>): (r: Option<string>)
    ensures r.None? <==> authorization.None?
  {
    match authorization
    case None => None
    case Some(h) => Some(RemoveFirst(h, BearerPrefix))
  }

  /** A header of the documented shape yields exactly the session id. */
  lemma TokenOfBearerHeader(t: string)
    ensures BearerToken(Some(BearerPrefix + t)) == Some(t)
  {
    var h := BearerPrefix + t;
    assert OccursAt(h, BearerPrefix, 0) by { assert h[0..|BearerPrefix|] == BearerPrefix; }
    assert FirstOccurrence(h, BearerPrefix, 0) == Some(0);
    assert h[..0] + h[|BearerPrefix|..] == t;
  }

  /** A header without the prefix anywhere is taken whole as the session id. */
  lemma HeaderWithoutBearer(h: string)
    requires forall i: nat :: !OccursAt(h, BearerPrefix, i)
    ensures BearerToken(Some(h)) == Some(h)
  {
  }

  /** The prefix is removed wherever it first occurs, not only at the start:
      whatever comes before it (with no "B" in it) stays in the token. */
  lemma BearerRemovedMidHeader(before: string, t: string)
    requires forall i :: 0 <= i < |before| ==> before[i] != 'B'
    ensures BearerToken(Some(before + BearerPrefix + t)) == Some(before + t)
  {
    var h := before + BearerPrefix + t;
    var n := |before|;
    assert h[n..n + |BearerPrefix|] == BearerPrefix;
    assert OccursAt(h, BearerPrefix, n);
    forall i | 0 <= i < n
      ensures !OccursAt(h, BearerPrefix, i)
    {
      assert h[i] == before[i];
      assert h[i..i + |BearerPrefix|][0] == h[i];
    }
    var first := FirstOccurrence(h, BearerPrefix, 0);
    assert first.Some?;
    assert first.value == n;
    assert h[..n] == before && h[n + |BearerPrefix|..] == t;
  }

  // ------------------------------------------------------------- requireAuth

  datatype Gate = Admit(user: User, session: Session) | Deny(code: int, error: string)

  const StaffRoles := [RoleAdmin, RoleOwner]

  /** The session `id` exists and has not expired at `now`. */
  predicate LiveSession(s: Store, id: Id, now: Timestamp) {
    Get(s.sessions, id).Some? && Get(s.sessions, id).value.expiresAt >= now
  }

  /** The request carries a live session whose user still exists. */
  predicate Authenticated(s: Store, authorization: Option<string>, now: Timestamp) {
    var token := BearerToken(authorization);
    Truthy(token) && LiveSession(s, token.value, now)
    && Get(s.users, Get(s.sessions, token.value).value.userId).Some?
  }

  /** The user behind an authenticated request. */
  function Caller(s: Store, authorization: Option<string>, now: Timestamp): User
    requires Authenticated(s, authorization, now)
  {
    Get(s.users, Get(s.sessions, BearerToken(authorization).value).value.userId).value
  }

  /** `requireAuth(roles)`: 401 without a token, with an unknown or expired
      session (which the lookup deletes) or with a vanished user; 403 when
      the role list is non-empty and lacks the user's role; otherwise the
      request goes through with its user and session. */
  function RequireAuth(s: Store, authorization: Option<string>, roles: seq<string>, now: Timestamp): (r: (Store, Gate))
    ensures !Truthy(BearerToken(authorization)) ==> r == (s, Deny(401, "Authentication required"))
    ensures r.1.Admit? <==>
      Authenticated(s, authorization, now) && (roles == [] || Caller(s, authorization, now).role in roles)
    ensures r.1.Admit? ==>
      && r.0 == s
      && Get(s.sessions, BearerToken(authorization).value) == Some(r.1.session)
      && r.1.user == Caller(s, authorization, now)
    ensures r.1.Deny? ==> (r.1.code == 403 <==> Authenticated(s, authorization, now))
    ensures r.1.Deny? ==> r.1.code == 401 || r.1.code == 403
    ensures r.0 == s.(sessions := r.0.sessions)
    ensures forall j :: Get(r.0.sessions, j).Some? ==> Get(r.0.sessions, j) == Get(s.sessions, j)
    ensures Truthy(BearerToken(authorization)) ==> r.0 == GetSession(s, BearerToken(authorization).value, now).0
  {
    var token := BearerToken(authorization);
    if !Truthy(token) then (s, Deny(401, "Authentication required"))
    else
      var (s', session) := GetSession(s, token.value, now);
      match session
      case None => (s', Deny(401, "Invalid session"))
      case Some(sess) =>
        match Get(s'.users, sess.userId)
        case None => (s', Deny(401, "User not found"))
        case Some(user) =>
          if |roles| > 0 && user.role !in roles then (s', Deny(403, "Insufficient permissions"))
          else (s', Admit(user, sess))
  }

  /** An empty role list admits every authenticated request. */
  lemma EmptyRolesAdmitAnyone(s: Store, authorization: Option<string>, now: Timestamp)
    ensures RequireAuth(s, authorization, [], now).1.Admit? <==> Authenticated(s, authorization, now)
  {
  }

  /** An expired session is refused and is gone from the store afterwards. */
  lemma ExpiredSessionRefused(s: Store, t: string, now: Timestamp)
    requires t != "" && Get(s.sessions, t).Some? && Get(s.sessions, t).value.expiresAt < now
    ensures RequireAuth(s, Some(BearerPrefix + t), [], now).1 == Deny(401, "Invalid session")
    ensures Get(RequireAuth(s, Some(BearerPrefix + t), [], now).0.sessions, t).None?
  {
    TokenOfBearerHeader(t);
  }

  // ------------------------------------------------------------ login / logout

  datatype LoginBody = LoginBody(username: Option<string>, password: Option<string>, portal: Option<string>)
  datatype LoginReply = LoginReply(user: PublicUser, sessionId: Id)

  /** A login through the admin portal needs the admin role, through the
      owner portal the owner role; any other portal value is ignored. */
  predicate PortalAdmits(portal: Option<string>, role: string) {
    && !(portal == Some(RoleAdmin) && role != RoleAdmin)
    && !(portal == Some(RoleOwner) && role != RoleOwner)
  }

  /** The user whose name and password the body gives, if any. */
  function Credentials(s: Store, b: LoginBody): (r: Option<User>)
    ensures r.Some? ==> b.username.Some? && b.password == Some(r.value.password)
    ensures r.Some? ==> GetUserByUsername(s, b.username.value) == r
    ensures (&& b.username.Some?
             && GetUserByUsername(s, b.username.value).Some?
             && b.password == Some(GetUserByUsername(s, b.username.value).value.password)) ==> r.Some?
  {
    if b.username.None? then None
    else match GetUserByUsername(s, b.username.value)
      case None => None
      case Some(u) => if b.password == Some(u.password) then Some(u) else None
  }

  /** `POST /api/auth/login`. Bad credentials: 401; the wrong role for the
      portal: 403; both leave the store alone. Otherwise exactly one session,
      for that user and expiring a day from now, is stored under `sessionId`,
      and the reply carries the user without the password. */
  function Login(s: Store, b: LoginBody, sessionId: Id, now: Timestamp): (r: (Store, Reply<LoginReply>))
    ensures Credentials(s, b).None? ==> r == (s, Fail(401, "Invalid credentials"))
    ensures Credentials(s, b).Some? && !PortalAdmits(b.portal, Credentials(s, b).value.role) ==>
      r.0 == s && r.1.Fail? && r.1.code == 403
    ensures r.1.Ok? <==> Credentials(s, b).Some? && PortalAdmits(b.portal, Credentials(s, b).value.role)
    ensures r.1.Ok? ==>
      var u := Credentials(s, b).value;
      && r.1.body == LoginReply(Public(u), sessionId)
      && Get(r.0.sessions, sessionId) == Some(Session(sessionId, u.id, now + DayMs, None, now))
      && (forall j :: j != sessionId ==> Get(r.0.sessions, j) == Get(s.sessions, j))
      && r.0 == s.(sessions := r.0.sessions)
  {
    match Credentials(s, b)
    case None => (s, Fail(401, "Invalid credentials"))
    case Some(u) =>
      if b.portal == Some(RoleAdmin) && u.role != RoleAdmin then (s, Fail(403, "Admin access required"))
      else if b.portal == Some(RoleOwner) && u.role != RoleOwner then (s, Fail(403, "Owner access required"))
      else
        var (s', session) := CreateSession(s, u.id, now + DayMs, None, sessionId, now);
        (s', Ok(LoginReply(Public(u), session.id)))
  }

  /** A successful login through a staff portal proves the portal's role. */
  lemma PortalLoginHasRole(s: Store, b: LoginBody, sessionId: Id, now: Timestamp)
    requires b.portal == Some(RoleAdmin) || b.portal == Some(RoleOwner)
    ensures Login(s, b, sessionId, now).1.Ok? ==> Login(s, b, sessionId, now).1.body.user.role == b.portal.value
  {
  }

  /** The session a login creates admits its bearer, as that user, until it expires. */
  lemma LoginThenAuthenticate(s: Store, b: LoginBody, sessionId: Id, now: Timestamp, later: Timestamp)
    requires Valid(s) && KeyedById(s)
    requires sessionId != ""
    requires Login(s, b, sessionId, now).1.Ok?
    requires now <= later <= now + DayMs
    ensures Authenticated(Login(s, b, sessionId, now).0, Some(BearerPrefix + sessionId), later)
    ensures Caller(Login(s, b, sessionId, now).0, Some(BearerPrefix + sessionId), later) == Credentials(s, b).value
  {
    TokenOfBearerHeader(sessionId);
    var u := Credentials(s, b).value;
    var k := IndexOfValue(s.users, u);
    GetAt(s.users, k);
  }

  /** `POST /api/auth/logout`: the authenticated session is deleted. */
  function Logout(s: Store, authorization: Option<string>, now: Timestamp): (r: (Store, Reply<bool>))
    ensures !Authenticated(s, authorization, now) ==> r.1 == Fail(401, RequireAuth(s, authorization, [], now).1.error)
    ensures !Authenticated(s, authorization, now) ==> r.0 == RequireAuth(s, authorization, [], now).0
    ensures Authenticated(s, authorization, now) ==>
      var sid := Get(s.sessions, BearerToken(authorization).value).value.id;
      && r.1 == Ok(true)
      && Get(r.0.sessions, sid).None?
      && (forall j :: j != sid ==> Get(r.0.sessions, j) == Get(s.sessions, j))
      && r.0 == s.(sessions := r.0.sessions)
    ensures Authenticated(s, authorization, now) && KeyedById(s) ==>
      !Authenticated(r.0, authorization, now)
  {
    var (s', gate) := RequireAuth(s, authorization, [], now);
    match gate
    case Deny(code, error) => (s', Fail(code, error))
    case Admit(_, session) => (DeleteSession(s', session.id), Ok(true))
  }

  // ---------------------------------------------------------------- donations

  /** The text of a request-body validation error. */
  const InvalidBody := "Invalid request body"

  /** `POST /api/donations`: a body without amount or payment method is a
      400 and stores nothing; otherwise one donation is created. */
  function PostDonation(s: Store, b: DonationBody, id: Id, now: Timestamp): (r: (Store, Reply<Donation>))
    ensures ParseInsertDonation(b).None? ==> r == (s, Fail(400, InvalidBody))
    ensures ParseInsertDonation(b).Some? ==>
      && r.1.Ok?
      && r.1.body.id == id && r.1.body.createdAt == now && r.1.body.verifiedAt.None?
      && r.1.body.amount == b.amount.value && r.1.body.paymentMethod == b.paymentMethod.value
      && Get(r.0.donations, id) == Some(r.1.body)
      && (forall j :: j != id ==> Get(r.0.donations, j) == Get(s.donations, j))
      && Keys(r.0.donations) == (if id in Keys(s.donations) then Keys(s.donations) else Keys(s.donations) + [id])
      && (id !in Keys(s.donations) ==> r.0.donations == s.donations + [(id, r.1.body)])
      && r.0 == s.(donations := r.0.donations)
  {
    match ParseInsertDonation(b)
    case None => (s, Fail(400, InvalidBody))
    case Some(d) =>
      var (s', donation) := CreateDonation(s, d, id, now);
      (s', Ok(donation))
  }

  /** A body cannot pre-verify a donation: even one that sends `verifiedAt`
      and `id` gets the server's id and no verification time. */
  lemma PostedDonationIsUnverified(s: Store, b: DonationBody, id: Id, now: Timestamp)
    requires b.amount.Some? && b.paymentMethod.Some? && b.verifiedAt.Some? && b.id.Some?
    ensures PostDonation(s, b, id, now).1.Ok?
    ensures PostDonation(s, b, id, now).1.body.verifiedAt.None?
    ensures PostDonation(s, b, id, now).1.body.id == id
  {
  }

  /** `parseInt(q) || d`: a missing, unparsable (`NaN`) or zero value gives the default. */
  function QueryNumber(q: Option<int>, d: int): (r: int)
    ensures r == d <==> q.None? || q.value == 0 || q.value == d
    ensures r != d ==> q == Some(r)
  {
    if q.None? || q.value == 0 then d else q.value
  }

  /** `GET /api/donations`: staff only; a page of the donations, newest first. */
  function ListDonations(s: Store, authorization: Option<string>, limit: Option<int>, offset: Option<int>, now: Timestamp)
    : (r: (Store, Reply<seq<Donation>>))
    ensures r.0 == RequireAuth(s, authorization, StaffRoles, now).0
    ensures r.1.Ok? <==> RequireAuth(s, authorization, StaffRoles, now).1.Admit?
    ensures r.1.Ok? ==>
      var (l, o) := (QueryNumber(limit, DefaultLimit), QueryNumber(offset, DefaultOffset));
      && NewestFirst(r.1.body, DonationAge)
      && (forall x :: x in r.1.body ==> x in Values(s.donations))
      && (0 <= l && 0 <= o ==> |r.1.body| <= l)
    ensures r.1.Ok? ==> r.1.body == GetDonations(s, QueryNumber(limit, DefaultLimit), QueryNumber(offset, DefaultOffset))
    ensures limit.None? && offset.None? && r.1.Ok? ==> |r.1.body| <= DefaultLimit
  {
    var (s', gate) := RequireAuth(s, authorization, StaffRoles, now);
    match gate
    case Deny(code, error) => (s', Fail(code, error))
    case Admit(_, _) =>
      (s', Ok(GetDonations(s', QueryNumber(limit, DefaultLimit), QueryNumber(offset, DefaultOffset))))
  }

  /** `PATCH /api/donations/:id`: staff only; 404 for an unknown id,
      otherwise the body's keys overwrite the stored donation's. */
  function PatchDonation(s: Store, authorization: Option<string>, id: Id, p: DonationPatch, now: Timestamp)
    : (r: (Store, Reply<Donation>))
    ensures RequireAuth(s, authorization, StaffRoles, now).1.Deny? ==>
      r.0 == RequireAuth(s, authorization, StaffRoles, now).0 && r.1.Fail? && r.1.code != 404
    ensures RequireAuth(s, authorization, StaffRoles, now).1.Admit? ==>
      && (Get(s.donations, id).None? ==> r == (s, Fail(404, "Donation not found")))
      && (Get(s.donations, id).Some? ==> r.1 == Ok(MergeDonation(Get(s.donations, id).value, p)))
      && Get(r.0.donations, id) == (if r.1.Ok? then Some(r.1.body) else Get(s.donations, id))
      && (forall j :: j != id ==> Get(r.0.donations, j) == Get(s.donations, j))
      && Keys(r.0.donations) == Keys(s.donations)
      && r.0 == s.(donations := r.0.donations)
  {
    var (s', gate) := RequireAuth(s, authorization, StaffRoles, now);
    match gate
    case Deny(code, error) => (s', Fail(code, error))
    case Admit(_, _) =>
      var (s'', updated) := UpdateDonation(s', id, p);
      match updated
      case None => (s'', Fail(404, "Donation not found"))
      case Some(d) => (s'', Ok(d))
  }

  // ------------------------------------------------------------ GCash payments

  datatype GCashBody = GCashBody(donationId: Option<Id>, referenceNumber: string, amount: Option<int>, senderNumber: Option<string>)

  /** What `amount.toString()` throws on a missing amount, answered with 400. */
  const AmountMissing := "Cannot read properties of undefined (reading 'toString')"

  /** `POST /api/gcash/submit`: a reference number some payment already has
      is a 400, and so is a missing amount; neither stores anything.
      Otherwise exactly one payment, "pending" and linked to the body's
      donation, is stored under `id`. */
  function SubmitGCash(s: Store, b: GCashBody, id: Id, now: Timestamp): (r: (Store, Reply<GCashPayment>))
    ensures (exists g :: g in Values(s.payments) && g.referenceNumber == b.referenceNumber) ==>
      r == (s, Fail(400, "Reference number already submitted"))
    ensures r.1.Ok? <==> b.amount.Some? && forall g :: g in Values(s.payments) ==> g.referenceNumber != b.referenceNumber
    ensures r.1.Fail? ==> r.0 == s && r.1.code == 400
    ensures r.1.Ok? ==>
      && r.1.body == GCashPayment(id, b.donationId, b.referenceNumber, b.amount.value, b.senderNumber,
                                  Some(StatusPending), None, None, now)
      && Get(r.0.payments, id) == Some(r.1.body)
      && (forall j :: j != id ==> Get(r.0.payments, j) == Get(s.payments, j))
      && Keys(r.0.payments) == (if id in Keys(s.payments) then Keys(s.payments) else Keys(s.payments) + [id])
      && (id !in Keys(s.payments) ==> r.0.payments == s.payments + [(id, r.1.body)])
      && r.0 == s.(payments := r.0.payments)
  {
    if GetGCashPaymentByReference(s, b.referenceNumber).Some? then
      (s, Fail(400, "Reference number already submitted"))
    else if b.amount.None? then
      (s, Fail(400, AmountMissing))
    else
      var (s', payment) := CreateGCashPayment(s, InsertGCashPayment(b.donationId, b.referenceNumber, b.amount.value,
                                                                    b.senderNumber, Some(StatusPending), None), id, now);
      (s', Ok(payment))
  }

  /** A second submission of the same reference number is refused. */
  lemma ResubmissionRefused(s: Store, b: GCashBody, id: Id, id': Id, now: Timestamp, later: Timestamp)
    requires SubmitGCash(s, b, id, now).1.Ok?
    ensures SubmitGCash(SubmitGCash(s, b, id, now).0, b, id', later) ==
      (SubmitGCash(s, b, id, now).0, Fail(400, "Reference number already submitted"))
  {
    var s' := SubmitGCash(s, b, id, now).0;
    var k := IndexOfKey(s'.payments, id);
    assert s'.payments[k].1 in Values(s'.payments);
  }

  /** `GET /api/gcash/pending`: staff only; the pending queue. */
  function PendingGCash(s: Store, authorization: Option<string>, now: Timestamp): (r: (Store, Reply<seq<GCashPayment>>))
    ensures r.0 == RequireAuth(s, authorization, StaffRoles, now).0
    ensures r.1.Ok? <==> RequireAuth(s, authorization, StaffRoles, now).1.Admit?
    ensures r.1.Ok? ==> forall g :: g in r.1.body <==> g in Values(s.payments) && g.status == Some(StatusPending)
    ensures r.1.Ok? ==> r.1.body == GetPendingGCashPayments(s)
  {
    var (s', gate) := RequireAuth(s, authorization, StaffRoles, now);
    match gate
    case Deny(code, error) => (s', Fail(code, error))
    case Admit(_, _) => (s', Ok(GetPendingGCashPayments(s')))
  }

  /** The update a verification makes to its payment. */
  function VerifyPatch(status: Option<string>, actor: Id, now: Timestamp): GCashPatch {
    GCashPatch(None, None, None, None, None, Some(status), Some(Some(actor)), Some(Some(now)), None)
  }

  /** The update a verified payment makes to its donation. */
  function CompletePatch(now: Timestamp): DonationPatch {
    DonationPatch(None, None, None, None, None, None, None, Some(StatusCompleted), None, None, Some(Some(now)), None)
  }

  /** The payment's outcome reaches its donation: it names one and the
      outcome is exactly "verified". */
  predicate Cascades(g: GCashPayment, status: Option<string>) {
    Truthy(g.donationId) && status == Some(StatusVerified)
  }

  /** The store step of `PATCH /api/gcash/:id/verify` once `actor` is
      admitted: an unknown payment is a 404 and changes nothing; otherwise
      the payment takes the request's status (whatever it was before), the
      actor and the time, and a "verified" outcome completes the linked
      donation if that donation exists. */
  function Verify(s: Store, actor: Id, id: Id, status: Option<string>, now: Timestamp): (r: (Store, Reply<GCashPayment>))
    ensures Get(s.payments, id).None? ==> r == (s, Fail(404, "Payment not found"))
    ensures Get(s.payments, id).Some? ==>
      var g := Get(s.payments, id).value;
      && r.1 == Ok(g.(status := status, verifiedBy := Some(actor), verifiedAt := Some(now)))
      && Get(r.0.payments, id) == Some(r.1.body)
      && (forall j :: j != id ==> Get(r.0.payments, j) == Get(s.payments, j))
      && (Cascades(g, status) && Get(s.donations, g.donationId.value).Some? ==>
            Get(r.0.donations, g.donationId.value)
              == Some(Get(s.donations, g.donationId.value).value.(status := StatusCompleted, verifiedAt := Some(now))))
      && (Cascades(g, status) && Get(s.donations, g.donationId.value).None? ==>
            Get(r.0.donations, g.donationId.value).None?)
      && (forall j :: !(Cascades(g, status) && j == g.donationId.value) ==> Get(r.0.donations, j) == Get(s.donations, j))
    ensures Keys(r.0.payments) == Keys(s.payments) && Keys(r.0.donations) == Keys(s.donations)
    ensures r.0 == s.(payments := r.0.payments, donations := r.0.donations)
  {
    var (s', updated) := UpdateGCashPayment(s, id, VerifyPatch(status, actor, now));
    match updated
    case None => (s', Fail(404, "Payment not found"))
    case Some(g) =>
      if Cascades(g, status) then (UpdateDonation(s', g.donationId.value, CompletePatch(now)).0, Ok(g))
      else (s', Ok(g))
  }

  /** `PATCH /api/gcash/:id/verify`: staff only, then `Verify` as the caller. */
  function VerifyGCash(s: Store, authorization: Option<string>, id: Id, status: Option<string>, now: Timestamp)
    : (r: (Store, Reply<GCashPayment>))
    ensures RequireAuth(s, authorization, StaffRoles, now).1.Deny? ==>
      r.0 == RequireAuth(s, authorization, StaffRoles, now).0 && r.1.Fail? && r.1.code != 404
    ensures RequireAuth(s, authorization, StaffRoles, now).1.Admit? ==>
      r == Verify(s, Caller(s, authorization, now).id, id, status, now)
  {
    var (s', gate) := RequireAuth(s, authorization, StaffRoles, now);
    match gate
    case Deny(code, error) => (s', Fail(code, error))
    case Admit(user, _) => Verify(s', user.id, id, status, now)
  }

  // ------------------------------------------------------------------- stats

  /** Filtering commutes with reordering: equal multisets filter to equal multisets. */
  lemma FilterPermutation<T(!new)>(a: seq<T>, b: seq<T>, p: T -> bool)
    requires multiset(a) == multiset(b)
    ensures multiset(Filter(a, p)) == multiset(Filter(b, p))
  {
    assert forall x :: multiset(Filter(a, p))[x] == multiset(Filter(b, p))[x];
  }

  /** `GET /api/stats/admin`: admin only. The figures come from the default
      first page of donations and messages, so at most 50 donations are
      counted and summed whatever their status; the pending count is the
      whole pending queue. */
  function AdminStats(s: Store, authorization: Option<string>, now: Timestamp): (r: (Store, Reply<AdminStatsBody>))
    ensures r.0 == RequireAuth(s, authorization, [RoleAdmin], now).0
    ensures r.1.Ok? <==> RequireAuth(s, authorization, [RoleAdmin], now).1.Admit?
    ensures r.1.Ok? ==>
      && r.1.body.donationCount == (if |s.donations| <= DefaultLimit then |s.donations| else DefaultLimit)
      && r.1.body.pendingGCashPayments == |Filter(Values(s.payments), IsPendingPayment)|
      && r.1.body.pendingMessages <= DefaultLimit
      && (|s.donations| <= DefaultLimit ==> r.1.body.totalDonations == SumOf(Values(s.donations), Amount))
    ensures r.1.Ok? ==>
      var page := GetDonations(s, DefaultLimit, DefaultOffset);
      && r.1.body.donationCount == |page|
      && r.1.body.totalDonations == SumOf(page, Amount)
      && r.1.body.pendingMessages == |Filter(GetContactMessages(s, DefaultLimit, DefaultOffset), IsUnread)|
  {
    var (s', gate) := RequireAuth(s, authorization, [RoleAdmin], now);
    match gate
    case Deny(code, error) => (s', Fail(code, error))
    case Admit(_, _) =>
      var donations := GetDonations(s', DefaultLimit, DefaultOffset);
      var pending := GetPendingGCashPayments(s');
      assert multiset(pending) == multiset(Filter(Values(s.payments), IsPendingPayment));
      assert |pending| == |multiset(pending)|;
      (s', Ok(AdminFigures(donations, GetContactMessages(s', DefaultLimit, DefaultOffset), pending)))
  }

  /** `GET /api/stats/owner`: owner only. Only completed donations of the
      default first page count; the per-method breakdown adds up to the
      revenue, the month's revenue is within it when no amount is negative,
      and donors are counted by distinct email. */
  function OwnerStats(s: Store, authorization: Option<string>, now: Timestamp, monthOf: Timestamp -> int)
    : (r: (Store, Reply<OwnerStatsBody>))
    ensures r.0 == RequireAuth(s, authorization, [RoleOwner], now).0
    ensures r.1.Ok? <==> RequireAuth(s, authorization, [RoleOwner], now).1.Admit?
    ensures r.1.Ok? ==>
      && SumOf(Values(r.1.body.paymentMethods), Self) == r.1.body.totalRevenue
      && r.1.body.activeDonors <= DefaultLimit
      && r.1.body.growthRate == GrowthRate
      && ((forall d :: d in Values(s.donations) ==> d.amount >= 0) ==>
            0 <= r.1.body.monthlyRevenue <= r.1.body.totalRevenue)
      && (|s.donations| <= DefaultLimit ==>
            r.1.body.totalRevenue == SumOf(Filter(Values(s.donations), IsCompleted), Amount))
    ensures r.1.Ok? ==>
      var completed := Filter(GetDonations(s, DefaultLimit, DefaultOffset), IsCompleted);
      && r.1.body.totalRevenue == SumOf(completed, Amount)
      && r.1.body.monthlyRevenue == SumOf(Filter(completed, InMonth(monthOf, now)), Amount)
      && r.1.body.activeDonors == |DonorEmails(completed)|
      && (forall m :: Get(r.1.body.paymentMethods, m).GetOr(0) == SumOf(Filter(completed, OfMethod(m)), Amount))
  {
    var (s', gate) := RequireAuth(s, authorization, [RoleOwner], now);
    match gate
    case Deny(code, error) => (s', Fail(code, error))
    case Admit(_, _) =>
      var donations := GetDonations(s', DefaultLimit, DefaultOffset);
      OwnerRevenueFacts(s, donations);
      (s', Ok(OwnerFigures(donations, now, monthOf)))
  }

  lemma OwnerRevenueFacts(s: Store, donations: seq<Donation>)
    requires donations == GetDonations(s, DefaultLimit, DefaultOffset)
    ensures (forall d :: d in Values(s.donations) ==> d.amount >= 0) ==>
      forall i :: 0 <= i < |donations| ==> donations[i].amount >= 0
    ensures |s.donations| <= DefaultLimit ==>
      SumOf(Filter(donations, IsCompleted), Amount) == SumOf(Filter(Values(s.donations), IsCompleted), Amount)
  {
    assert forall i :: 0 <= i < |donations| ==> donations[i] in Values(s.donations);
    if |s.donations| <= DefaultLimit {
      FilterPermutation(donations, Values(s.donations), IsCompleted);
      SumOfPermutation(Filter(donations, IsCompleted), Filter(Values(s.donations), IsCompleted), Amount);
    }
  }

  /** Both stats routes see one page: with more than 50 donations the
      admin count stays at 50. */
  lemma StatsSeeFirstPageOnly(s: Store, authorization: Option<string>, now: Timestamp)
    requires |s.donations| > DefaultLimit
    ensures AdminStats(s, authorization, now).1.Ok? ==> AdminStats(s, authorization, now).1.body.donationCount == DefaultLimit
    ensures AdminStats(s, authorization, now).1.Ok? ==> AdminStats(s, authorization, now).1.body.donationCount < |s.donations|
  {
  }

  // -------------------------------------------------------------- invariants

  /** A verified payment's donation, when it names one that exists, is completed. */
  predicate Settled(s: Store, g: GCashPayment) {
    g.status == Some(StatusVerified) && Truthy(g.donationId) && Get(s.donations, g.donationId.value).Some? ==>
      Get(s.donations, g.donationId.value).value.status == StatusCompleted
  }

  ghost predicate ConsistentLinks(s: Store) {
    forall pid :: Get(s.payments, pid).Some? ==> Settled(s, Get(s.payments, pid).value)
  }

  /** Every payment's status is null or one of pending/verified/rejected. */
  ghost predicate KnownPaymentStatuses(s: Store) {
    forall pid :: Get(s.payments, pid).Some? ==>
      Get(s.payments, pid).value.status.None? || IsGCashStatus(Get(s.payments, pid).value.status.value)
  }

  /** Verification keeps every verified payment's donation completed. */
  lemma VerifyKeepsLinks(s: Store, actor: Id, id: Id, status: Option<string>, now: Timestamp)
    requires ConsistentLinks(s)
    ensures ConsistentLinks(Verify(s, actor, id, status, now).0)
  {
    var s' := Verify(s, actor, id, status, now).0;
    forall pid | Get(s'.payments, pid).Some?
      ensures Settled(s', Get(s'.payments, pid).value)
    {
      if pid != id {
        assert Get(s.payments, pid).Some?;
        assert Settled(s, Get(s.payments, pid).value);
      }
    }
  }

  /** A submission adds a pending payment and touches no donation. */
  lemma SubmitKeepsLinks(s: Store, b: GCashBody, id: Id, now: Timestamp)
    requires ConsistentLinks(s)
    ensures ConsistentLinks(SubmitGCash(s, b, id, now).0)
  {
    var s' := SubmitGCash(s, b, id, now).0;
    forall pid | Get(s'.payments, pid).Some?
      ensures Settled(s', Get(s'.payments, pid).value)
    {
      if pid != id || SubmitGCash(s, b, id, now).1.Fail? {
        assert Get(s.payments, pid).Some?;
        assert Settled(s, Get(s.payments, pid).value);
      }
    }
  }

  /** Submission stores only "pending"; verification keeps the vocabulary
      exactly when the request's status is absent or in it, since the route
      does not check it. */
  lemma StatusVocabulary(s: Store, b: GCashBody, actor: Id, id: Id, status: Option<string>, now: Timestamp)
    requires KnownPaymentStatuses(s)
    ensures KnownPaymentStatuses(SubmitGCash(s, b, id, now).0)
    ensures Get(s.payments, id).Some? ==>
      (KnownPaymentStatuses(Verify(s, actor, id, status, now).0) <==> status.None? || IsGCashStatus(status.value))
  {
    var s1 := SubmitGCash(s, b, id, now).0;
    forall pid | Get(s1.payments, pid).Some?
      ensures Get(s1.payments, pid).value.status.None? || IsGCashStatus(Get(s1.payments, pid).value.status.value)
    {
      if pid != id || SubmitGCash(s, b, id, now).1.Fail? {
        assert Get(s.payments, pid).Some?;
      }
    }
    if Get(s.payments, id).Some? {
      var s2 := Verify(s, actor, id, status, now).0;
      assert Get(s2.payments, id).value.status == status;
      if status.None? || IsGCashStatus(status.value) {
        forall pid | Get(s2.payments, pid).Some?
          ensures Get(s2.payments, pid).value.status.None? || IsGCashStatus(Get(s2.payments, pid).value.status.value)
        {
          if pid != id {
            assert Get(s.payments, pid).Some?;
          }
        }
      }
    }
  }

  /** Verify does not look at the prior status: a later call overwrites an
      earlier one, and a rejection after a verification leaves the
      donation completed. */
  lemma SecondVerifyOverwrites(s: Store, a: Id, b: Id, id: Id, first: Option<string>, second: Option<string>, t1: Timestamp, t2: Timestamp)
    requires Get(s.payments, id).Some?
    ensures var s1 := Verify(s, a, id, first, t1).0;
      Verify(s1, b, id, second, t2).1 ==
        Ok(Get(s.payments, id).value.(status := second, verifiedBy := Some(b), verifiedAt := Some(t2)))
    ensures var s1 := Verify(s, a, id, first, t1).0;
      Verify(s1, b, id, second, t2).0.donations == s1.donations || Cascades(Get(s.payments, id).value, second)
  {
    var s1 := Verify(s, a, id, first, t1).0;
    assert Get(s1.payments, id).value.donationId == Get(s.payments, id).value.donationId;
  }

  /** A "rejected" (or any non-"verified") outcome leaves the donations as they were. */
  lemma NonVerifiedOutcomeKeepsDonations(s: Store, actor: Id, id: Id, status: Option<string>, now: Timestamp)
    requires status != Some(StatusVerified)
    ensures Verify(s, actor, id, status, now).0.donations == s.donations
  {
  }

  /** A direct donation update can undo a verification's effect: nothing
      stops staff from setting a verified payment's donation back to pending. */
  lemma PatchDonationBreaksLinks(d: Donation, g: GCashPayment, u: User, sess: Session, now: Timestamp)
    requires d.id == "d" && d.status == StatusCompleted
    requires g.id == "p" && g.donationId == Some("d") && g.status == Some(StatusVerified)
    requires u.id == "u" && u.role == RoleAdmin
    requires sess.id == "t" && sess.userId == "u" && sess.expiresAt >= now
    ensures var s := Empty.(users := [("u", u)], sessions := [("t", sess)], donations := [("d", d)], payments := [("p", g)]);
      && ConsistentLinks(s)
      && !ConsistentLinks(PatchDonation(s, Some("Bearer t"), "d",
                                        NoDonationChange.(status := Some(StatusPending)), now).0)
  {
    var s := Empty.(users := [("u", u)], sessions := [("t", sess)], donations := [("d", d)], payments := [("p", g)]);
    TokenOfBearerHeader("t");
    assert BearerPrefix + "t" == "Bearer t";
    assert Authenticated(s, Some("Bearer t"), now);
    var s' := PatchDonation(s, Some("Bearer t"), "d", NoDonationChange.(status := Some(StatusPending)), now).0;
    assert Get(s'.payments, "p") == Some(g);
    assert !Settled(s', g);
  }
}

=== FILE: scenarios.dfy ===
/** Whole request sequences against the seeded store: the manual-payment
    round trip, the two login refusals, the figures of a store with no
    donations, and the contact-message status default. */
module Scenarios {
  import opened Base
  import opened Schema
  import opened Table
  import opened Storage
  import opened Routes
  import opened Stats
  import opened Donor
  import opened GCashForm

  const AdminId := "u-admin"
  const OwnerId := "u-owner"
  const AdminUser := User(AdminId, "admin", "admin123", Some("admin@sitesecure.org"), RoleAdmin, 0)
  const OwnerUser := User(OwnerId, "owner", "owner123", Some("owner@sitesecure.org"), RoleOwner, 0)

  /** The store as the server starts it. */
  function Seeded(): (s: Store)
    ensures Valid(s) && KeyedById(s)
    ensures Values(s.users) == [AdminUser, OwnerUser]
    ensures GetUserByUsername(s, "admin") == Some(AdminUser)
  {
    InitValid(AdminId, OwnerId, 0);
    var s := Init(AdminId, OwnerId, 0);
    assert s.users == [(AdminId, AdminUser), (OwnerId, OwnerUser)];
    assert FirstWithUsername([AdminUser, OwnerUser], "admin") == Some(AdminUser);
    s
  }

  /** The seeded administrator signs in through the admin portal. */
  lemma AdminSignsIn(sessionId: Id, now: Timestamp)
    requires sessionId != ""
    ensures var r := Login(Seeded(), LoginBody(Some("admin"), Some("admin123"), Some(RoleAdmin)), sessionId, now);
      && r.1.Ok? && r.1.body.user.role == RoleAdmin && r.1.body.user.id == AdminId
      && Authenticated(r.0, Some(BearerPrefix + sessionId), now)
      && Caller(r.0, Some(BearerPrefix + sessionId), now).id == AdminId
      && Caller(r.0, Some(BearerPrefix + sessionId), now).role == RoleAdmin
      && Get(r.0.sessions, sessionId).value.expiresAt == now + DayMs
  {
    var b := LoginBody(Some("admin"), Some("admin123"), Some(RoleAdmin));
    assert Credentials(Seeded(), b) == Some(AdminUser);
    LoginThenAuthenticate(Seeded(), b, sessionId, now, now);
  }

  /** A wrong password is a 401 and creates no session. */
  lemma WrongPasswordRefused(sessionId: Id, now: Timestamp)
    ensures Login(Seeded(), LoginBody(Some("admin"), Some("wrong"), None), sessionId, now)
      == (Seeded(), Fail(401, "Invalid credentials"))
  {
    var b := LoginBody(Some("admin"), Some("wrong"), None);
    assert Credentials(Seeded(), b).None?;
  }

  /** The administrator's correct password at the owner portal is a 403
      and creates no session. */
  lemma AdminAtOwnerPortalRefused(sessionId: Id, now: Timestamp)
    ensures Login(Seeded(), LoginBody(Some("admin"), Some("admin123"), Some(RoleOwner)), sessionId, now)
      == (Seeded(), Fail(403, "Owner access required"))
  {
    var b := LoginBody(Some("admin"), Some("admin123"), Some(RoleOwner));
    var s := Seeded();
    assert Credentials(s, b) == Some(AdminUser);
    assert AdminUser.role != RoleOwner;
    assert Login(s, b, sessionId, now) == (s, Fail(403, "Owner access required"));
  }

  /** A donor's GCash transfer for a $50.00 donation (reference
      "REF1234567890", sender "09171234567") is
      submitted through the form and then verified by the signed-in
      administrator: the payment records the administrator, and the
      donation is completed. */
  lemma ManualPaymentRoundTrip(donor: DonorInfo, sessionId: Id, t0: Timestamp, t1: Timestamp, t2: Timestamp)
    requires sessionId != "" && t0 <= t1 <= t2 <= t0 + DayMs
    ensures var s1 := Login(Seeded(), LoginBody(Some("admin"), Some("admin123"), Some(RoleAdmin)), sessionId, t0).0;
      var (s2, outcome) := SubmitPayment(s1, 5000, donor, "one-time", false, "REF1234567890", "09171234567",
                                         "d-1", "g-1", t1);
      var (s3, reply) := VerifyGCash(s2, Some(BearerPrefix + sessionId), "g-1", Some(StatusVerified), t2);
      && outcome.Submitted?
      && outcome.payment.amount == 2750
      && reply.Ok? && reply.body.status == Some(StatusVerified) && reply.body.verifiedBy == Some(AdminId)
      && Get(s3.donations, "d-1").Some? && Get(s3.donations, "d-1").value.status == StatusCompleted
      && Get(s3.donations, "d-1").value.amount == 5000
  {
    AdminSignsIn(sessionId, t0);
    TokenOfBearerHeader(sessionId);
    var s1 := Login(Seeded(), LoginBody(Some("admin"), Some("admin123"), Some(RoleAdmin)), sessionId, t0).0;
    RoundTripAsAdmin(s1, Some(BearerPrefix + sessionId), donor, t0, t1, t2);
  }

  lemma RoundTripAsAdmin(s1: Store, h: Option<string>, donor: DonorInfo, t0: Timestamp, t1: Timestamp, t2: Timestamp)
    requires s1.payments == []
    requires Authenticated(s1, h, t0) && Caller(s1, h, t0).id == AdminId && Caller(s1, h, t0).role == RoleAdmin
    requires t0 <= t1 <= t2 <= Get(s1.sessions, BearerToken(h).value).value.expiresAt
    ensures var (s2, outcome) := SubmitPayment(s1, 5000, donor, "one-time", false, "REF1234567890", "09171234567",
                                               "d-1", "g-1", t1);
      var (s3, reply) := VerifyGCash(s2, h, "g-1", Some(StatusVerified), t2);
      && outcome.Submitted?
      && outcome.payment.amount == 2750
      && reply.Ok? && reply.body.status == Some(StatusVerified) && reply.body.verifiedBy == Some(AdminId)
      && Get(s3.donations, "d-1").Some? && Get(s3.donations, "d-1").value.status == StatusCompleted
      && Get(s3.donations, "d-1").value.amount == 5000
  {
    var (s2, outcome) := SubmitPayment(s1, 5000, donor, "one-time", false, "REF1234567890", "09171234567", "d-1", "g-1", t1);
    SubmitsOnEmptyQueue(s1, donor, t1);
    VerifiesAsAdmin(s1, s2, h, t0, t2, "g-1", Some(StatusVerified));
    SubmitThenVerifyCompletes(s1, 5000, donor, "one-time", false, "REF1234567890", "09171234567",
                              "d-1", "g-1", t1, AdminId, t2);
    var (s3, reply) := VerifyGCash(s2, h, "g-1", Some(StatusVerified), t2);
    assert (s3, reply) == Verify(s2, AdminId, "g-1", Some(StatusVerified), t2);
    assert reply.Ok? && reply.body.status == Some(StatusVerified) && reply.body.verifiedBy == Some(AdminId);
    assert Get(s3.donations, "d-1").Some? && Get(s3.donations, "d-1").value.status == StatusCompleted;
    assert Get(s3.donations, "d-1").value.amount == 5000;
  }

  lemma SubmitsOnEmptyQueue(s: Store, donor: DonorInfo, now: Timestamp)
    requires s.payments == []
    ensures SubmitPayment(s, 5000, donor, "one-time", false, "REF1234567890", "09171234567", "d-1", "g-1", now).1.Submitted?
    ensures SubmitPayment(s, 5000, donor, "one-time", false, "REF1234567890", "09171234567", "d-1", "g-1", now).1.payment.amount == 2750
  {
  }

  /** Whether a header authenticates, and as whom, depends on the users and
      sessions alone; a session live at `now` is still live until it expires. */
  lemma SameAccountsSameCaller(s: Store, s': Store, authorization: Option<string>, now: Timestamp, later: Timestamp)
    requires s'.users == s.users && s'.sessions == s.sessions
    requires Authenticated(s, authorization, now) && Caller(s, authorization, now).id == AdminId
    requires Caller(s, authorization, now).role == RoleAdmin
    requires now <= later <= Get(s.sessions, BearerToken(authorization).value).value.expiresAt
    ensures Authenticated(s', authorization, later) && Caller(s', authorization, later) == Caller(s, authorization, now)
    ensures RequireAuth(s', authorization, StaffRoles, later).1.Admit?
  {
  }

  /** A request the administrator's session admits verifies as the administrator. */
  lemma VerifiesAsAdmin(s: Store, s': Store, authorization: Option<string>, now: Timestamp, later: Timestamp,
                        id: Id, status: Option<string>)
    requires s'.users == s.users && s'.sessions == s.sessions
    requires Authenticated(s, authorization, now) && Caller(s, authorization, now).id == AdminId
    requires Caller(s, authorization, now).role == RoleAdmin
    requires now <= later <= Get(s.sessions, BearerToken(authorization).value).value.expiresAt
    ensures VerifyGCash(s', authorization, id, status, later) == Verify(s', AdminId, id, status, later)
  {
    SameAccountsSameCaller(s, s', authorization, now, later);
  }

  /** The signed-in administrator's view of a store with no donations, no
      messages and no payments: every figure is zero. */
  lemma EmptyStoreAdminStats(sessionId: Id, t0: Timestamp, t1: Timestamp)
    requires sessionId != "" && t0 <= t1 <= t0 + DayMs
    ensures var s1 := Login(Seeded(), LoginBody(Some("admin"), Some("admin123"), Some(RoleAdmin)), sessionId, t0).0;
      AdminStats(s1, Some(BearerPrefix + sessionId), t1).1 == Ok(AdminStatsBody(0, 0, 0, 0))
  {
    AdminSignsIn(sessionId, t0);
    TokenOfBearerHeader(sessionId);
    var s1 := Login(Seeded(), LoginBody(Some("admin"), Some("admin123"), Some(RoleAdmin)), sessionId, t0).0;
    SameAccountsSameCaller(s1, s1, Some(BearerPrefix + sessionId), t0, t1);
    assert s1.donations == [] && s1.messages == [] && s1.payments == [];
    assert GetContactMessages(s1, DefaultLimit, DefaultOffset) == [];
  }

  /** A store holding one contact message, sent by the contact form (which
      sends no status), besides the signed-in administrator. */
  function WithFormMessage(s: Store, m: InsertContactMessage, corrected: bool, now: Timestamp): (r: Store)
    requires s.messages == []
    ensures |r.messages| == 1 && r == s.(messages := r.messages)
    ensures corrected ==> Values(r.messages) == [CreateContactMessageUnread(s, m, "c-1", now).1]
    ensures !corrected ==> Values(r.messages) == [CreateContactMessage(s, m, "c-1", now).1]
  {
    if corrected then CreateContactMessageUnread(s, m, "c-1", now).0 else CreateContactMessage(s, m, "c-1", now).0
  }

  /** The message count of the admin figures over a store whose only
      message is `msg`. */
  lemma PendingMessagesOfOne(s: Store, authorization: Option<string>, now: Timestamp, msg: ContactMessage)
    requires Values(s.messages) == [msg]
    requires RequireAuth(s, authorization, [RoleAdmin], now).1.Admit?
    ensures AdminStats(s, authorization, now).1.Ok?
    ensures AdminStats(s, authorization, now).1.body.pendingMessages == if IsUnread(msg) then 1 else 0
  {
    var page := GetContactMessages(s, DefaultLimit, DefaultOffset);
    assert multiset(page) == multiset([msg]);
    assert |page| == |multiset(page)| == 1;
    assert page == [msg] by { assert page[0] in multiset(page); }
  }

  /** As written, a message from the contact form is stored with no status,
      so the admin figures never count it as pending; with the column
      default "unread" applied it is counted. */
  lemma FormMessageNeverPending(m: InsertContactMessage, sessionId: Id, t0: Timestamp, t1: Timestamp)
    requires m.status.None?
    requires sessionId != "" && t0 <= t1 <= t0 + DayMs
    ensures var s1 := Login(Seeded(), LoginBody(Some("admin"), Some("admin123"), Some(RoleAdmin)), sessionId, t0).0;
      var asWritten := AdminStats(WithFormMessage(s1, m, false, t1), Some(BearerPrefix + sessionId), t1).1;
      var corrected := AdminStats(WithFormMessage(s1, m, true, t1), Some(BearerPrefix + sessionId), t1).1;
      && asWritten.Ok? && asWritten.body.pendingMessages == 0
      && corrected.Ok? && corrected.body.pendingMessages == 1
  {
    AdminSignsIn(sessionId, t0);
    TokenOfBearerHeader(sessionId);
    var h := Some(BearerPrefix + sessionId);
    var s1 := Login(Seeded(), LoginBody(Some("admin"), Some("admin123"), Some(RoleAdmin)), sessionId, t0).0;
    assert s1.messages == [];
    var asWritten := WithFormMessage(s1, m, false, t1);
    var corrected := WithFormMessage(s1, m, true, t1);
    SameAccountsSameCaller(s1, asWritten, h, t0, t1);
    SameAccountsSameCaller(s1, corrected, h, t0, t1);
    PendingMessagesOfOne(asWritten, h, t1, CreateContactMessage(s1, m, "c-1", t1).1);
    PendingMessagesOfOne(corrected, h, t1, CreateContactMessageUnread(s1, m, "c-1", t1).1);
  }

  /** The administrator rejects the example transfer instead: the payment
      is marked rejected and the donation stays pending. */
  lemma RejectedTransferLeavesDonationPending(donor: DonorInfo, sessionId: Id, t0: Timestamp, t1: Timestamp, t2: Timestamp)
    requires sessionId != "" && t0 <= t1 <= t2 <= t0 + DayMs
    ensures var s1 := Login(Seeded(), LoginBody(Some("admin"), Some("admin123"), Some(RoleAdmin)), sessionId, t0).0;
      var (s2, outcome) := SubmitPayment(s1, 5000, donor, "one-time", false, "REF1234567890", "09171234567",
                                         "d-1", "g-1", t1);
      var (s3, reply) := VerifyGCash(s2, Some(BearerPrefix + sessionId), "g-1", Some(StatusRejected), t2);
      && reply.Ok? && reply.body.status == Some(StatusRejected)
      && Get(s3.donations, "d-1") == Get(s2.donations, "d-1")
      && Get(s3.donations, "d-1").value.status == StatusPending
  {
    AdminSignsIn(sessionId, t0);
    TokenOfBearerHeader(sessionId);
    var s1 := Login(Seeded(), LoginBody(Some("admin"), Some("admin123"), Some(RoleAdmin)), sessionId, t0).0;
    RejectionAsAdmin(s1, Some(BearerPrefix + sessionId), donor, t0, t1, t2);
  }

  lemma RejectionAsAdmin(s1: Store, h: Option<string>, donor: DonorInfo, t0: Timestamp, t1: Timestamp, t2: Timestamp)
    requires s1.payments == []
    requires Authenticated(s1, h, t0) && Caller(s1, h, t0).id == AdminId && Caller(s1, h, t0).role == RoleAdmin
    requires t0 <= t1 <= t2 <= Get(s1.sessions, BearerToken(h).value).value.expiresAt
    ensures var (s2, outcome) := SubmitPayment(s1, 5000, donor, "one-time", false, "REF1234567890", "09171234567",
                                               "d-1", "g-1", t1);
      var (s3, reply) := VerifyGCash(s2, h, "g-1", Some(StatusRejected), t2);
      && reply.Ok? && reply.body.status == Some(StatusRejected)
      && Get(s3.donations, "d-1") == Get(s2.donations, "d-1")
      && Get(s3.donations, "d-1").value.status == StatusPending
  {
    var s2 := SubmitPayment(s1, 5000, donor, "one-time", false, "REF1234567890", "09171234567", "d-1", "g-1", t1).0;
    SubmitsOnEmptyQueue(s1, donor, t1);
    VerifiesAsAdmin(s1, s2, h, t0, t2, "g-1", Some(StatusRejected));
  }
}

=== FILE: schema.dfy ===
/** Record shapes, defaults and status vocabularies of the five tables
    (users, donations, contact messages, GCash payments, sessions), the
    insert shapes (which leave out the generated columns) and the partial
    updates `Partial<T>` that the store merges field by field. */
module Schema {
  import opened Base

  type Id = string

  /** Milliseconds since the epoch, as `Date.getTime()` returns. */
  type Timestamp = int

  // Role vocabulary of the users table, and the store's own default.
  const RoleGuest := "guest"
  const RoleAdmin := "admin"
  const RoleOwner := "owner"
  const RoleUser := "user"

  // Donation status and payment-method vocabularies.
  const StatusPending := "pending"
  const StatusCompleted := "completed"
  const StatusFailed := "failed"
  const MethodPaypal := "paypal"
  const MethodStripe := "stripe"
  const MethodGCash := "gcash"
  const DefaultCurrency := "USD"

  // GCash payment status vocabulary ("pending" is shared with donations).
  const StatusVerified := "verified"
  const StatusRejected := "rejected"

  // Contact message status vocabulary.
  const StatusUnread := "unread"
  const StatusRead := "read"
  const StatusResponded := "responded"

  predicate IsRole(r: string) {
    r == RoleGuest || r == RoleAdmin || r == RoleOwner
  }

  predicate IsDonationStatus(s: string) {
    s == StatusPending || s == StatusCompleted || s == StatusFailed
  }

  predicate IsPaymentMethod(m: string) {
    m == MethodPaypal || m == MethodStripe || m == MethodGCash
  }

  predicate IsGCashStatus(s: string) {
    s == StatusPending || s == StatusVerified || s == StatusRejected
  }

  predicate IsMessageStatus(s: string) {
    s == StatusUnread || s == StatusRead || s == StatusResponded
  }

  /** `decimal(10, 2)`: at most ten digits, two of them after the point,
      so an amount is a whole number of cents below 10^10 in magnitude. */
  predicate FitsAmountColumn(cents: int) {
    -10_000_000_000 < cents < 10_000_000_000
  }

  datatype User = User(
    id: Id,
    username: string,
    password: string,
    email: Option<string>,
    role: string,
    createdAt: Timestamp)

  /** A user as the login reply shows it: everything but the password. */
  datatype PublicUser = PublicUser(id: Id, username: string, email: Option<string>, role: string)

  function Public(u: User): (p: PublicUser)
    ensures p.id == u.id && p.username == u.username && p.email == u.email && p.role == u.role
  {
    PublicUser(u.id, u.username, u.email, u.role)
  }

  datatype InsertUser = InsertUser(username: string, password: string, email: Option<string>, role: Option<string>)

  datatype Session = Session(id: Id, userId: Id, expiresAt: Timestamp, data: Option<string>, createdAt: Timestamp)

  /** `amount` is in cents; see `FitsAmountColumn`. */
  datatype Donation = Donation(
    id: Id,
    donorName: Option<string>,
    donorEmail: Option<string>,
    amount: int,
    currency: string,
    paymentMethod: string,
    paymentReference: Option<string>,
    status: string,
    isAnonymous: Option<bool>,
    donationType: Option<string>,
    verifiedAt: Option<Timestamp>,
    createdAt: Timestamp)

  /** The donation insert shape: `id`, `createdAt` and `verifiedAt` are not part of it. */
  datatype InsertDonation = InsertDonation(
    donorName: Option<string>,
    donorEmail: Option<string>,
    amount: int,
    currency: Option<string>,
    paymentMethod: string,
    paymentReference: Option<string>,
    status: Option<string>,
    isAnonymous: Option<bool>,
    donationType: Option<string>)

  /** A donation request body as JSON delivers it: any key may be missing,
      and a client may also send the generated columns. */
  datatype DonationBody = DonationBody(
    id: Option<Id>,
    donorName: Option<string>,
    donorEmail: Option<string>,
    amount: Option<int>,
    currency: Option<string>,
    paymentMethod: Option<string>,
    paymentReference: Option<string>,
    status: Option<string>,
    isAnonymous: Option<bool>,
    donationType: Option<string>,
    verifiedAt: Option<Timestamp>,
    createdAt: Option<Timestamp>)

  /** `insertDonationSchema.parse`: the two required keys must be present,
      the omitted columns are stripped. `None` is a parse error. */
  function ParseInsertDonation(b: DonationBody): (r: Option<InsertDonation>)
    ensures r.Some? <==> b.amount.Some? && b.paymentMethod.Some?
    ensures r.Some? ==> r.value.amount == b.amount.value && r.value.paymentMethod == b.paymentMethod.value
    ensures r.Some? ==> r.value.status == b.status && r.value.donorName == b.donorName && r.value.donorEmail == b.donorEmail
  {
    if b.amount.None? || b.paymentMethod.None? then None
    else Some(InsertDonation(b.donorName, b.donorEmail, b.amount.value, b.currency, b.paymentMethod.value,
                             b.paymentReference, b.status, b.isAnonymous, b.donationType))
  }

  datatype ContactMessage = ContactMessage(
    id: Id,
    firstName: string,
    lastName: string,
    email: string,
    subject: string,
    inquiryType: string,
    message: string,
    subscribeUpdates: Option<bool>,
    status: Option<string>,
    createdAt: Timestamp)

  datatype InsertContactMessage = InsertContactMessage(
    firstName: string,
    lastName: string,
    email: string,
    subject: string,
    inquiryType: string,
    message: string,
    subscribeUpdates: Option<bool>,
    status: Option<string>)

  /** `amount` is a whole number in the smallest unit the client sends. */
  datatype GCashPayment = GCashPayment(
    id: Id,
    donationId: Option<Id>,
    referenceNumber: string,
    amount: int,
    senderNumber: Option<string>,
    status: Option<string>,
    verifiedBy: Option<Id>,
    verifiedAt: Option<Timestamp>,
    createdAt: Timestamp)

  datatype InsertGCashPayment = InsertGCashPayment(
    donationId: Option<Id>,
    referenceNumber: string,
    amount: int,
    senderNumber: Option<string>,
    status: Option<string>,
    verifiedBy: Option<Id>)

  // Partial updates: `Some(v)` is a key present in the update object.
  // A nullable column takes `Some(None)` to be set to null.

  datatype UserPatch = UserPatch(
    id: Option<Id>,
    username: Option<string>,
    password: Option<string>,
    email: Option<Option<string>>,
    role: Option<string>,
    createdAt: Option<Timestamp>)

  datatype DonationPatch = DonationPatch(
    id: Option<Id>,
    donorName: Option<Option<string>>,
    donorEmail: Option<Option<string>>,
    amount: Option<int>,
    currency: Option<string>,
    paymentMethod: Option<string>,
    paymentReference: Option<Option<string>>,
    status: Option<string>,
    isAnonymous: Option<Option<bool>>,
    donationType: Option<Option<string>>,
    verifiedAt: Option<Option<Timestamp>>,
    createdAt: Option<Timestamp>)

  datatype ContactPatch = ContactPatch(
    id: Option<Id>,
    firstName: Option<string>,
    lastName: Option<string>,
    email: Option<string>,
    subject: Option<string>,
    inquiryType: Option<string>,
    message: Option<string>,
    subscribeUpdates: Option<Option<bool>>,
    status: Option<Option<string>>,
    createdAt: Option<Timestamp>)

  datatype GCashPatch = GCashPatch(
    id: Option<Id>,
    donationId: Option<Option<Id>>,
    referenceNumber: Option<string>,
    amount: Option<int>,
    senderNumber: Option<Option<string>>,
    status: Option<Option<string>>,
    verifiedBy: Option<Option<Id>>,
    verifiedAt: Option<Option<Timestamp>>,
    createdAt: Option<Timestamp>)

  const NoUserChange := UserPatch(None, None, None, None, None, None)
  const NoDonationChange := DonationPatch(None, None, None, None, None, None, None, None, None, None, None, None)
  const NoContactChange := ContactPatch(None, None, None, None, None, None, None, None, None, None)
  const NoGCashChange := GCashPatch(None, None, None, None, None, None, None, None, None)

  /** One column of `{ ...before, ...update }`: a key present in the update
      overwrites the column, an absent key leaves it as it was. */
  predicate Spread<T(==)>(before: T, update: Option<T>, after: T) {
    && (update.Some? ==> after == update.value)
    && (update.None? ==> after == before)
  }

  /** `{ ...u, ...p }`. */
  function MergeUser(u: User, p: UserPatch): (r: User)
    ensures Spread(u.id, p.id, r.id) && Spread(u.username, p.username, r.username) && Spread(u.password, p.password, r.password)
    ensures Spread(u.email, p.email, r.email) && Spread(u.role, p.role, r.role) && Spread(u.createdAt, p.createdAt, r.createdAt)
    ensures p == NoUserChange ==> r == u
  {
    User(p.id.GetOr(u.id), p.username.GetOr(u.username), p.password.GetOr(u.password),
         p.email.GetOr(u.email), p.role.GetOr(u.role), p.createdAt.GetOr(u.createdAt))
  }

  /** `{ ...d, ...p }`. */
  function MergeDonation(d: Donation, p: DonationPatch): (r: Donation)
    ensures Spread(d.id, p.id, r.id) && Spread(d.donorName, p.donorName, r.donorName) && Spread(d.donorEmail, p.donorEmail, r.donorEmail)
    ensures Spread(d.amount, p.amount, r.amount) && Spread(d.currency, p.currency, r.currency) && Spread(d.paymentMethod, p.paymentMethod, r.paymentMethod)
    ensures Spread(d.paymentReference, p.paymentReference, r.paymentReference) && Spread(d.status, p.status, r.status) && Spread(d.isAnonymous, p.isAnonymous, r.isAnonymous)
    ensures Spread(d.donationType, p.donationType, r.donationType) && Spread(d.verifiedAt, p.verifiedAt, r.verifiedAt) && Spread(d.createdAt, p.createdAt, r.createdAt)
    ensures p == NoDonationChange ==> r == d
  {
    Donation(p.id.GetOr(d.id), p.donorName.GetOr(d.donorName), p.donorEmail.GetOr(d.donorEmail),
             p.amount.GetOr(d.amount), p.currency.GetOr(d.currency), p.paymentMethod.GetOr(d.paymentMethod),
             p.paymentReference.GetOr(d.paymentReference), p.status.GetOr(d.status),
             p.isAnonymous.GetOr(d.isAnonymous), p.donationType.GetOr(d.donationType),
             p.verifiedAt.GetOr(d.verifiedAt), p.createdAt.GetOr(d.createdAt))
  }

  /** `{ ...m, ...p }`. */
  function MergeContact(m: ContactMessage, p: ContactPatch): (r: ContactMessage)
    ensures Spread(m.id, p.id, r.id) && Spread(m.firstName, p.firstName, r.firstName) && Spread(m.lastName, p.lastName, r.lastName)
    ensures Spread(m.email, p.email, r.email) && Spread(m.subject, p.subject, r.subject) && Spread(m.inquiryType, p.inquiryType, r.inquiryType)
    ensures Spread(m.message, p.message, r.message) && Spread(m.subscribeUpdates, p.subscribeUpdates, r.subscribeUpdates) && Spread(m.status, p.status, r.status)
    ensures Spread(m.createdAt, p.createdAt, r.createdAt)
    ensures p == NoContactChange ==> r == m
  {
    ContactMessage(p.id.GetOr(m.id), p.firstName.GetOr(m.firstName), p.lastName.GetOr(m.lastName),
                   p.email.GetOr(m.email), p.subject.GetOr(m.subject), p.inquiryType.GetOr(m.inquiryType),
                   p.message.GetOr(m.message), p.subscribeUpdates.GetOr(m.subscribeUpdates),
                   p.status.GetOr(m.status), p.createdAt.GetOr(m.createdAt))
  }

  /** `{ ...g, ...p }`. */
  function MergeGCash(g: GCashPayment, p: GCashPatch): (r: GCashPayment)
    ensures Spread(g.id, p.id, r.id) && Spread(g.donationId, p.donationId, r.donationId) && Spread(g.referenceNumber, p.referenceNumber, r.referenceNumber)
    ensures Spread(g.amount, p.amount, r.amount) && Spread(g.senderNumber, p.senderNumber, r.senderNumber) && Spread(g.status, p.status, r.status)
    ensures Spread(g.verifiedBy, p.verifiedBy, r.verifiedBy) && Spread(g.verifiedAt, p.verifiedAt, r.verifiedAt) && Spread(g.createdAt, p.createdAt, r.createdAt)
    ensures p == NoGCashChange ==> r == g
  {
    GCashPayment(p.id.GetOr(g.id), p.donationId.GetOr(g.donationId), p.referenceNumber.GetOr(g.referenceNumber),
                 p.amount.GetOr(g.amount), p.senderNumber.GetOr(g.senderNumber), p.status.GetOr(g.status),
                 p.verifiedBy.GetOr(g.verifiedBy), p.verifiedAt.GetOr(g.verifiedAt), p.createdAt.GetOr(g.createdAt))
  }

  /** Two successive updates of a donation are one update in which the
      later one's keys win: a field-level merge, not a replacement. */
  function ThenDonation(p: DonationPatch, q: DonationPatch): DonationPatch {
    DonationPatch(Later(p.id, q.id), Later(p.donorName, q.donorName), Later(p.donorEmail, q.donorEmail),
                  Later(p.amount, q.amount), Later(p.currency, q.currency), Later(p.paymentMethod, q.paymentMethod),
                  Later(p.paymentReference, q.paymentReference), Later(p.status, q.status),
                  Later(p.isAnonymous, q.isAnonymous), Later(p.donationType, q.donationType),
                  Later(p.verifiedAt, q.verifiedAt), Later(p.createdAt, q.createdAt))
  }

  function Later<T>(a: Option<T>, b: Option<T>): Option<T> {
    if b.Some? then b else a
  }

  /** Merging is idempotent, and two merges compose into one. */
  lemma MergeDonationLaws(d: Donation, p: DonationPatch, q: DonationPatch)
    ensures MergeDonation(MergeDonation(d, p), p) == MergeDonation(d, p)
    ensures MergeDonation(MergeDonation(d, p), q) == MergeDonation(d, ThenDonation(p, q))
  {
  }

  lemma MergeGCashIdempotent(g: GCashPayment, p: GCashPatch)
    ensures MergeGCash(MergeGCash(g, p), p) == MergeGCash(g, p)
  {
  }
}

=== FILE: stats.dfy ===
/** The dashboard figures: sums over donation lists, the per-method revenue
    breakdown and the distinct-donor count. Amounts are whole cents, so the
    sums are exact where the server adds `parseFloat` results. */
module Stats {
  import opened Base
  import opened Schema
  import opened Table
  import opened Paging

  function SumOf<T>(xs: seq<T>, f: T -> int): int {
    if xs == [] then 0 else f(xs[0]) + SumOf(xs[1..], f)
  }

  function Amount(d: Donation): int { d.amount }

  function Self(x: int): int { x }

  predicate IsCompleted(d: Donation) { d.status == StatusCompleted }

  predicate IsUnread(m: ContactMessage) { m.status == Some(StatusUnread) }

  lemma {:induction false} SumOfAppend<T>(a: seq<T>, b: seq<T>, f: T -> int)
    ensures SumOf(a + b, f) == SumOf(a, f) + SumOf(b, f)
  {
    if a == [] {
      assert a + b == b;
    } else {
      assert (a + b)[1..] == a[1..] + b;
      SumOfAppend(a[1..], b, f);
    }
  }

  /** A sum does not depend on the order of the list. */
  lemma {:induction false} SumOfPermutation<T>(a: seq<T>, b: seq<T>, f: T -> int)
    requires multiset(a) == multiset(b)
    ensures SumOf(a, f) == SumOf(b, f)
    decreases |a|
  {
    if a == [] {
      assert |multiset(b)| == 0;
    } else {
      var x := a[0];
      assert x in multiset(a);
      assert x in multiset(b);
      var k :| 0 <= k < |b| && b[k] == x;
      var rest := b[..k] + b[k + 1..];
      assert b == b[..k] + ([x] + b[k + 1..]);
      assert a == [x] + a[1..];
      assert multiset(a) == multiset{x} + multiset(a[1..]);
      assert multiset(b) == multiset(b[..k]) + (multiset{x} + multiset(b[k + 1..]));
      assert multiset(rest) == multiset(b[..k]) + multiset(b[k + 1..]);
      assert multiset(b) == multiset{x} + multiset(rest);
      assert multiset(a[1..]) == multiset(a) - multiset{x};
      assert multiset(rest) == multiset(b) - multiset{x};
      SumOfPermutation(a[1..], rest, f);
      SumOfAppend(b[..k], [x] + b[k + 1..], f);
      SumOfAppend([x], b[k + 1..], f);
      SumOfAppend(b[..k], b[k + 1..], f);
    }
  }

  /** Leaving out terms of a list of non-negative terms cannot raise its sum. */
  lemma {:induction false} SumOfFilterBounded<T(!new)>(xs: seq<T>, p: T -> bool, f: T -> int)
    requires forall i :: 0 <= i < |xs| ==> f(xs[i]) >= 0
    ensures 0 <= SumOf(Filter(xs, p), f) <= SumOf(xs, f)
  {
    if xs != [] {
      SumOfFilterBounded(xs[1..], p, f);
      SumOfAppend(if p(xs[0]) then [xs[0]] else [], Filter(xs[1..], p), f);
    }
  }

  /** `reduce((acc, d) => { acc[d.paymentMethod] = (acc[d.paymentMethod] || 0) + amount })`. */
  function Breakdown(ds: seq<Donation>, acc: Table<int>): Table<int>
  {
    if ds == [] then acc else Breakdown(ds[1..], AddTo(acc, ds[0].paymentMethod, ds[0].amount))
  }

  /** One step of the reduction: add `a` to the entry of method `m`. On a
      table with distinct keys the step keeps them distinct and adds `a` to
      the table's total. */
  function AddTo(acc: Table<int>, m: string, a: int): (r: Table<int>)
    ensures DistinctKeys(acc) ==> DistinctKeys(r)
    ensures DistinctKeys(acc) ==> SumOf(Values(r), Self) == SumOf(Values(acc), Self) + a
  {
    var v := Get(acc, m).GetOr(0) + a;
    PutFacts(acc, m, v);
    Put(acc, m, v)
  }

  lemma {:induction false} SumAfterPut(t: Table<int>, k: string, v: int)
    requires DistinctKeys(t)
    ensures SumOf(Values(Put(t, k, v)), Self) == SumOf(Values(t), Self) - Get(t, k).GetOr(0) + v
  {
    if t != [] {
      DistinctTail(t);
      if t[0].0 == k {
        assert Values(Put(t, k, v)) == [v] + Values(t[1..]);
      } else {
        SumAfterPut(t[1..], k, v);
        assert Values(Put(t, k, v)) == [t[0].1] + Values(Put(t[1..], k, v));
      }
    }
  }

  lemma PutFacts(t: Table<int>, k: string, v: int)
    ensures DistinctKeys(t) ==> DistinctKeys(Put(t, k, v))
    ensures DistinctKeys(t) ==> SumOf(Values(Put(t, k, v)), Self) == SumOf(Values(t), Self) - Get(t, k).GetOr(0) + v
  {
    if DistinctKeys(t) {
      PutKeepsDistinct(t, k, v);
      SumAfterPut(t, k, v);
    }
  }

  lemma {:induction false} BreakdownTotal(ds: seq<Donation>, acc: Table<int>)
    requires DistinctKeys(acc)
    ensures DistinctKeys(Breakdown(ds, acc))
    ensures SumOf(Values(Breakdown(ds, acc)), Self) == SumOf(Values(acc), Self) + SumOf(ds, Amount)
  {
    if ds != [] {
      var acc' := AddTo(acc, ds[0].paymentMethod, ds[0].amount);
      BreakdownTotal(ds[1..], acc');
      assert Breakdown(ds, acc) == Breakdown(ds[1..], acc');
    }
  }

  function OfMethod(m: string): Donation -> bool {
    (d: Donation) => d.paymentMethod == m
  }

  lemma {:induction false} BreakdownEntry(ds: seq<Donation>, acc: Table<int>, m: string)
    ensures Get(Breakdown(ds, acc), m).GetOr(0) == Get(acc, m).GetOr(0) + SumOf(Filter(ds, OfMethod(m)), Amount)
  {
    if ds != [] {
      var m0 := ds[0].paymentMethod;
      var acc' := AddTo(acc, ds[0].paymentMethod, ds[0].amount);
      assert Breakdown(ds, acc) == Breakdown(ds[1..], acc');
      assert Get(acc', m).GetOr(0) == Get(acc, m).GetOr(0) + (if m0 == m then ds[0].amount else 0);
      assert Filter(ds, OfMethod(m)) == (if OfMethod(m)(ds[0]) then [ds[0]] else []) + Filter(ds[1..], OfMethod(m));
      BreakdownEntry(ds[1..], acc', m);
      SumOfAppend(if OfMethod(m)(ds[0]) then [ds[0]] else [], Filter(ds[1..], OfMethod(m)), Amount);
    }
  }

  /** The revenue per payment method: every method's entry is the sum of
      that method's donations, and the entries add up to the whole sum. */
  function MethodBreakdown(ds: seq<Donation>): (r: Table<int>)
    ensures DistinctKeys(r)
    ensures SumOf(Values(r), Self) == SumOf(ds, Amount)
    ensures forall m :: Get(r, m).GetOr(0) == SumOf(Filter(ds, OfMethod(m)), Amount)
  {
    BreakdownTotal(ds, []);
    forall m
      ensures Get(Breakdown(ds, []), m).GetOr(0) == SumOf(Filter(ds, OfMethod(m)), Amount)
    {
      BreakdownEntry(ds, [], m);
    }
    Breakdown(ds, [])
  }

  /** `new Set(ds.map(d => d.donorEmail))`: null is one value among the others. */
  function DonorEmails(ds: seq<Donation>): set<Option<string>> {
    set d | d in ds :: d.donorEmail
  }

  lemma {:induction false} DonorEmailsBounded(ds: seq<Donation>)
    ensures |DonorEmails(ds)| <= |ds|
  {
    if ds != [] {
      DonorEmailsBounded(ds[1..]);
      assert DonorEmails(ds) == {ds[0].donorEmail} + DonorEmails(ds[1..]) by {
        assert ds == [ds[0]] + ds[1..];
      }
    }
  }

  datatype AdminStatsBody = AdminStatsBody(
    totalDonations: int,
    donationCount: nat,
    pendingMessages: nat,
    pendingGCashPayments: nat)

  /** The admin figures over the lists the route reads. */
  function AdminFigures(donations: seq<Donation>, messages: seq<ContactMessage>, pending: seq<GCashPayment>): (r: AdminStatsBody)
    ensures r.donationCount == |donations| && r.pendingGCashPayments == |pending|
    ensures r.pendingMessages == |Filter(messages, IsUnread)| <= |messages|
    ensures r.totalDonations == SumOf(donations, Amount)
    ensures forall donations' :: multiset(donations') == multiset(donations) ==> r.totalDonations == SumOf(donations', Amount)
  {
    forall donations' | multiset(donations') == multiset(donations)
      ensures SumOf(donations, Amount) == SumOf(donations', Amount)
    {
      SumOfPermutation(donations, donations', Amount);
    }
    AdminStatsBody(SumOf(donations, Amount), |donations|, |Filter(messages, IsUnread)|, |pending|)
  }

  datatype OwnerStatsBody = OwnerStatsBody(
    totalRevenue: int,
    monthlyRevenue: int,
    activeDonors: nat,
    paymentMethods: Table<int>,
    growthRate: real)

  /** The fixed growth rate the owner route reports. */
  const GrowthRate: real := 15.3

  /** Created in the same calendar month as `now`. */
  function InMonth(monthOf: Timestamp -> int, now: Timestamp): Donation -> bool {
    (d: Donation) => monthOf(d.createdAt) == monthOf(now)
  }

  /** The owner figures over a donation list: only completed donations count.
      `monthOf` maps a time to its calendar month (month and year together). */
  function OwnerFigures(donations: seq<Donation>, now: Timestamp, monthOf: Timestamp -> int): (r: OwnerStatsBody)
    ensures r.totalRevenue == SumOf(Filter(donations, IsCompleted), Amount)
    ensures r.monthlyRevenue == SumOf(Filter(Filter(donations, IsCompleted), InMonth(monthOf, now)), Amount)
    ensures SumOf(Values(r.paymentMethods), Self) == r.totalRevenue
    ensures forall m :: Get(r.paymentMethods, m).GetOr(0) == SumOf(Filter(Filter(donations, IsCompleted), OfMethod(m)), Amount)
    ensures (forall i :: 0 <= i < |donations| ==> donations[i].amount >= 0) ==>
      0 <= r.monthlyRevenue <= r.totalRevenue
    ensures r.activeDonors == |DonorEmails(Filter(donations, IsCompleted))|
    ensures r.activeDonors <= |Filter(donations, IsCompleted)|
  {
    var completed := Filter(donations, IsCompleted);
    var thisMonth := Filter(completed, InMonth(monthOf, now));
    DonorEmailsBounded(completed);
    MonthWithinTotal(donations, completed, InMonth(monthOf, now));
    OwnerStatsBody(SumOf(completed, Amount), SumOf(thisMonth, Amount), |DonorEmails(completed)|,
                   MethodBreakdown(completed), GrowthRate)
  }

  lemma MonthWithinTotal(donations: seq<Donation>, completed: seq<Donation>, inMonth: Donation -> bool)
    requires completed == Filter(donations, IsCompleted)
    ensures (forall i :: 0 <= i < |donations| ==> donations[i].amount >= 0) ==>
      0 <= SumOf(Filter(completed, inMonth), Amount) <= SumOf(completed, Amount)
  {
    if forall i :: 0 <= i < |donations| ==> donations[i].amount >= 0 {
      assert forall i :: 0 <= i < |completed| ==> completed[i] in donations;
      SumOfFilterBounded(completed, inMonth, Amount);
    }
  }

  /** Completed donations without an email count as one donor between them. */
  lemma AnonymousDonorsCountOnce(d1: Donation, d2: Donation, now: Timestamp, monthOf: Timestamp -> int)
    requires IsCompleted(d1) && IsCompleted(d2)
    requires d1.donorEmail.None? && d2.donorEmail.None?
    ensures OwnerFigures([d1, d2], now, monthOf).activeDonors == 1
  {
    var completed := Filter([d1, d2], IsCompleted);
    assert completed == [d1, d2];
    assert DonorEmails(completed) == {None};
  }
}

=== FILE: storage.dfy ===
/** The in-memory record store: five JavaScript maps (users, sessions,
    donations, contact messages, GCash payments) and the operations on them.
    Every operation is a pure function from the store before to the store
    after; the identifier `randomUUID()` would produce and the time
    `new Date()` would read are parameters. */
module Storage {
  import opened Base
  import opened Schema
  import opened Table
  import opened Paging

  datatype Store = Store(
    users: Table<User>,
    sessions: Table<Session>,
    donations: Table<Donation>,
    messages: Table<ContactMessage>,
    payments: Table<GCashPayment>)

  const Empty := Store([], [], [], [], [])

  /** The default page of the list operations. */
  const DefaultLimit := 50
  const DefaultOffset := 0

  /** Every collection is a genuine map: no id appears twice. */
  ghost predicate Valid(s: Store) {
    && DistinctKeys(s.users)
    && DistinctKeys(s.sessions)
    && DistinctKeys(s.donations)
    && DistinctKeys(s.messages)
    && DistinctKeys(s.payments)
  }

  /** The users table declares `username` unique; the store itself never checks it. */
  ghost predicate UniqueUsernames(s: Store) {
    forall i, j :: 0 <= i < j < |s.users| ==> s.users[i].1.username != s.users[j].1.username
  }

  /** Every user and every session is stored under its own id, as the
      create functions do; an update whose patch renames the id breaks it. */
  ghost predicate KeyedById(s: Store) {
    && (forall k :: Get(s.users, k).Some? ==> Get(s.users, k).value.id == k)
    && (forall k :: Get(s.sessions, k).Some? ==> Get(s.sessions, k).value.id == k)
  }

  function DonationAge(d: Donation): int { d.createdAt }
  function MessageAge(m: ContactMessage): int { m.createdAt }
  function PaymentAge(g: GCashPayment): int { g.createdAt }

  // ---------------------------------------------------------------- users

  /** `createUser`: a missing email becomes null, a missing role becomes "user". */
  function CreateUser(s: Store, u: InsertUser, id: Id, now: Timestamp): (r: (Store, User))
    ensures r.1.id == id && r.1.username == u.username && r.1.password == u.password
    ensures r.1.role == if u.role.Some? then u.role.value else RoleUser
    ensures r.1.email == u.email && r.1.createdAt == now
    ensures Get(r.0.users, id) == Some(r.1)
    ensures forall j :: j != id ==> Get(r.0.users, j) == Get(s.users, j)
    ensures Keys(r.0.users) == if id in Keys(s.users) then Keys(s.users) else Keys(s.users) + [id]
    ensures id !in Keys(s.users) ==> r.0.users == s.users + [(id, r.1)]
    ensures r.0 == s.(users := r.0.users)
  {
    var user := User(id, u.username, u.password, u.email, u.role.GetOr(RoleUser), now);
    (s.(users := Put(s.users, id, user)), user)
  }

  /** The constructor: an empty store seeded with the "admin" and "owner" accounts. */
  function Init(adminId: Id, ownerId: Id, now: Timestamp): (s: Store)
    ensures adminId != ownerId ==> Keys(s.users) == [adminId, ownerId]
    ensures adminId != ownerId ==>
      (Get(s.users, adminId).Some? && Get(s.users, adminId).value.username == "admin"
       && Get(s.users, adminId).value.role == RoleAdmin)
    ensures Get(s.users, ownerId).Some? && Get(s.users, ownerId).value.username == "owner"
    ensures Get(s.users, ownerId).value.role == RoleOwner
    ensures s.sessions == [] && s.donations == [] && s.messages == [] && s.payments == []
    ensures adminId != ownerId ==>
      s.users == [(adminId, User(adminId, "admin", "admin123", Some("admin@sitesecure.org"), RoleAdmin, now)),
                  (ownerId, User(ownerId, "owner", "owner123", Some("owner@sitesecure.org"), RoleOwner, now))]
  {
    var (s1, admin) := CreateUser(Empty, InsertUser("admin", "admin123", Some("admin@sitesecure.org"), Some(RoleAdmin)), adminId, now);
    assert s1.users == [(adminId, admin)];
    var (s2, owner) := CreateUser(s1, InsertUser("owner", "owner123", Some("owner@sitesecure.org"), Some(RoleOwner)), ownerId, now);
    assert adminId != ownerId ==> s2.users == [(adminId, admin), (ownerId, owner)];
    s2
  }

  function FirstWithUsername(us: seq<User>, name: string): (r: Option<User>)
    ensures r.Some? ==> r.value in us && r.value.username == name
    ensures r.Some? ==> exists i :: 0 <= i < |us| && us[i] == r.value && forall j :: 0 <= j < i ==> us[j].username != name
    ensures r.None? <==> forall i :: 0 <= i < |us| ==> us[i].username != name
  {
    if us == [] then None
    else if us[0].username == name then Some(us[0])
    else FirstWithUsername(us[1..], name)
  }

  /** `getUserByUsername`: the first user, in insertion order, with that name. */
  function GetUserByUsername(s: Store, name: string): (r: Option<User>)
    ensures r.Some? ==> r.value in Values(s.users) && r.value.username == name
    ensures r.Some? ==>
      exists i :: 0 <= i < |s.users| && Values(s.users)[i] == r.value && forall j :: 0 <= j < i ==> Values(s.users)[j].username != name
    ensures r.None? <==> forall u :: u in Values(s.users) ==> u.username != name
  {
    FirstWithUsername(Values(s.users), name)
  }

  /** `updateUser`: an absent id is "not found" and changes nothing; otherwise
      the supplied fields are merged into the stored user, in place. */
  function UpdateUser(s: Store, id: Id, p: UserPatch): (r: (Store, Option<User>))
    ensures Get(s.users, id).None? ==> r == (s, None)
    ensures Get(s.users, id).Some? ==>
      && r.1 == Some(MergeUser(Get(s.users, id).value, p))
      && Get(r.0.users, id) == r.1
      && Keys(r.0.users) == Keys(s.users)
    ensures forall j :: j != id ==> Get(r.0.users, j) == Get(s.users, j)
    ensures r.0 == s.(users := r.0.users)
  {
    match Get(s.users, id)
    case None => (s, None)
    case Some(u) =>
      var updated := MergeUser(u, p);
      (s.(users := Put(s.users, id, updated)), Some(updated))
  }

  // ------------------------------------------------------------- sessions

  /** `createSession`: `data || null`, so an empty payload is stored as null. */
  function CreateSession(s: Store, userId: Id, expiresAt: Timestamp, data: Option<string>, id: Id, now: Timestamp): (r: (Store, Session))
    ensures r.1.id == id && r.1.userId == userId && r.1.expiresAt == expiresAt && r.1.createdAt == now
    ensures r.1.data.Some? <==> Truthy(data)
    ensures r.1.data.Some? ==> r.1.data == data
    ensures Get(r.0.sessions, id) == Some(r.1)
    ensures forall j :: j != id ==> Get(r.0.sessions, j) == Get(s.sessions, j)
    ensures Keys(r.0.sessions) == if id in Keys(s.sessions) then Keys(s.sessions) else Keys(s.sessions) + [id]
    ensures r.0 == s.(sessions := r.0.sessions)
  {
    var session := Session(id, userId, expiresAt, OrNull(data), now);
    (s.(sessions := Put(s.sessions, id, session)), session)
  }

  /** `getSession`: a session whose expiry lies before `now` is treated as
      absent and deleted on the spot; a live one is returned untouched. */
  function GetSession(s: Store, id: Id, now: Timestamp): (r: (Store, Option<Session>))
    ensures r.1.Some? <==> Get(s.sessions, id).Some? && Get(s.sessions, id).value.expiresAt >= now
    ensures r.1.Some? ==> r.1 == Get(s.sessions, id) && r.0 == s
    ensures Get(s.sessions, id).None? ==> r.0 == s
    ensures r.1.None? ==> Get(r.0.sessions, id).None?
    ensures forall j :: j != id ==> Get(r.0.sessions, j) == Get(s.sessions, j)
    ensures r.0 == s.(sessions := r.0.sessions)
  {
    match Get(s.sessions, id)
    case None => (s, None)
    case Some(session) =>
      if session.expiresAt < now then (s.(sessions := Delete(s.sessions, id)), None)
      else (s, Some(session))
  }

  /** `deleteSession`: removes that one session; an absent id is a no-op. */
  function DeleteSession(s: Store, id: Id): (r: Store)
    ensures Get(r.sessions, id).None?
    ensures forall j :: j != id ==> Get(r.sessions, j) == Get(s.sessions, j)
    ensures id !in Keys(s.sessions) ==> r == s
    ensures r == s.(sessions := r.sessions)
  {
    s.(sessions := Delete(s.sessions, id))
  }

  // ------------------------------------------------------------ donations

  /** `createDonation`: currency "USD" and status "pending" unless given,
      every other missing optional column null, and never verified yet. */
  function CreateDonation(s: Store, d: InsertDonation, id: Id, now: Timestamp): (r: (Store, Donation))
    ensures r.1.id == id && r.1.amount == d.amount && r.1.paymentMethod == d.paymentMethod && r.1.createdAt == now
    ensures r.1.currency == if d.currency.Some? then d.currency.value else DefaultCurrency
    ensures r.1.status == if d.status.Some? then d.status.value else StatusPending
    ensures r.1.donorName == d.donorName && r.1.donorEmail == d.donorEmail
    ensures r.1.paymentReference == d.paymentReference
    ensures r.1.isAnonymous == d.isAnonymous && r.1.donationType == d.donationType
    ensures r.1.verifiedAt.None?
    ensures Get(r.0.donations, id) == Some(r.1)
    ensures forall j :: j != id ==> Get(r.0.donations, j) == Get(s.donations, j)
    ensures Keys(r.0.donations) == if id in Keys(s.donations) then Keys(s.donations) else Keys(s.donations) + [id]
    ensures id !in Keys(s.donations) ==> r.0.donations == s.donations + [(id, r.1)]
    ensures r.0 == s.(donations := r.0.donations)
  {
    var donation := Donation(id, d.donorName, d.donorEmail, d.amount, d.currency.GetOr(DefaultCurrency),
                             d.paymentMethod, d.paymentReference, d.status.GetOr(StatusPending),
                             d.isAnonymous, d.donationType, None, now);
    (s.(donations := Put(s.donations, id, donation)), donation)
  }

  /** `updateDonation`: "not found" for an absent id, otherwise a field merge in place. */
  function UpdateDonation(s: Store, id: Id, p: DonationPatch): (r: (Store, Option<Donation>))
    ensures Get(s.donations, id).None? ==> r == (s, None)
    ensures Get(s.donations, id).Some? ==>
      && r.1 == Some(MergeDonation(Get(s.donations, id).value, p))
      && Get(r.0.donations, id) == r.1
      && Keys(r.0.donations) == Keys(s.donations)
    ensures forall j :: j != id ==> Get(r.0.donations, j) == Get(s.donations, j)
    ensures r.0 == s.(donations := r.0.donations)
  {
    match Get(s.donations, id)
    case None => (s, None)
    case Some(d) =>
      var updated := MergeDonation(d, p);
      (s.(donations := Put(s.donations, id, updated)), Some(updated))
  }

  /** `getDonations(limit, offset)`: newest first, then `slice(offset, offset + limit)`. */
  function GetDonations(s: Store, limit: int, offset: int): (r: seq<Donation>)
    ensures 0 <= offset && 0 <= limit ==> |r| <= limit
    ensures 0 <= offset && 0 <= limit ==>
      |r| == if offset >= |s.donations| then 0 else if offset + limit <= |s.donations| then limit else |s.donations| - offset
    ensures 0 <= offset && 0 <= limit ==>
      forall k :: 0 <= k < |r| ==> r[k] == SortNewestFirst(Values(s.donations), DonationAge)[offset + k]
    ensures NewestFirst(r, DonationAge)
    ensures forall x :: x in r ==> x in Values(s.donations)
    ensures offset == 0 && |s.donations| <= limit ==> multiset(r) == multiset(Values(s.donations))
  {
    NewestPage(Values(s.donations), DonationAge, limit, offset)
  }

  /** A page of donations is the window `[offset, offset + limit)` of the one
      newest-first arrangement that keeps donations created at the same
      instant in insertion order. */
  lemma DonationPageIsWindow(s: Store, arranged: seq<Donation>, limit: int, offset: int)
    requires NewestFirst(arranged, DonationAge) && SameTies(arranged, Values(s.donations), DonationAge)
    ensures GetDonations(s, limit, offset) == Page(arranged, limit, offset)
    ensures 0 <= offset && 0 <= limit ==>
      forall k :: 0 <= k < |GetDonations(s, limit, offset)| ==> GetDonations(s, limit, offset)[k] == arranged[offset + k]
  {
    NewestPageIsWindow(Values(s.donations), arranged, DonationAge, limit, offset);
  }

  /** `getDonationsByStatus`: exactly the donations with that status, newest first. */
  function GetDonationsByStatus(s: Store, status: string): (r: seq<Donation>)
    ensures forall x :: multiset(r)[x] == if x.status == status then multiset(Values(s.donations))[x] else 0
    ensures NewestFirst(r, DonationAge)
  {
    SortNewestFirst(Filter(Values(s.donations), (d: Donation) => d.status == status), DonationAge)
  }

  // ------------------------------------------------------- contact messages

  /** `createContactMessage` as written: a missing status is stored as null,
      not as the column default "unread". */
  function CreateContactMessage(s: Store, m: InsertContactMessage, id: Id, now: Timestamp): (r: (Store, ContactMessage))
    ensures r.1.id == id && r.1.createdAt == now && r.1.email == m.email && r.1.message == m.message
    ensures r.1.firstName == m.firstName && r.1.lastName == m.lastName && r.1.subject == m.subject
    ensures r.1.inquiryType == m.inquiryType && r.1.subscribeUpdates == m.subscribeUpdates
    ensures r.1.status == m.status
    ensures Get(r.0.messages, id) == Some(r.1)
    ensures forall j :: j != id ==> Get(r.0.messages, j) == Get(s.messages, j)
    ensures Keys(r.0.messages) == if id in Keys(s.messages) then Keys(s.messages) else Keys(s.messages) + [id]
    ensures id !in Keys(s.messages) ==> r.0.messages == s.messages + [(id, r.1)]
    ensures r.0 == s.(messages := r.0.messages)
  {
    var msg := ContactMessage(id, m.firstName, m.lastName, m.email, m.subject, m.inquiryType, m.message,
                              m.subscribeUpdates, m.status, now);
    (s.(messages := Put(s.messages, id, msg)), msg)
  }

  /** `createContactMessage` with the column default applied: a message
      created without a status is "unread". */
  function CreateContactMessageUnread(s: Store, m: InsertContactMessage, id: Id, now: Timestamp): (r: (Store, ContactMessage))
    ensures r.1.status.Some? && IsMessageStatus(r.1.status.value) <==> m.status.None? || IsMessageStatus(m.status.value)
    ensures m.status.None? ==> r.1.status == Some(StatusUnread)
    ensures m.status.Some? ==> r.1.status == m.status
    ensures r.1.id == id && r.1.createdAt == now && r.1.email == m.email && r.1.message == m.message
    ensures r.1.firstName == m.firstName && r.1.lastName == m.lastName && r.1.subject == m.subject
    ensures r.1.inquiryType == m.inquiryType && r.1.subscribeUpdates == m.subscribeUpdates
    ensures Get(r.0.messages, id) == Some(r.1)
    ensures forall j :: j != id ==> Get(r.0.messages, j) == Get(s.messages, j)
    ensures Keys(r.0.messages) == if id in Keys(s.messages) then Keys(s.messages) else Keys(s.messages) + [id]
    ensures id !in Keys(s.messages) ==> r.0.messages == s.messages + [(id, r.1)]
    ensures r.0 == s.(messages := r.0.messages)
  {
    var msg := ContactMessage(id, m.firstName, m.lastName, m.email, m.subject, m.inquiryType, m.message,
                              m.subscribeUpdates, Some(m.status.GetOr(StatusUnread)), now);
    (s.(messages := Put(s.messages, id, msg)), msg)
  }

  /** `getContactMessages(limit, offset)`: newest first, then the page. */
  function GetContactMessages(s: Store, limit: int, offset: int): (r: seq<ContactMessage>)
    ensures 0 <= offset && 0 <= limit ==> |r| <= limit
    ensures 0 <= offset && 0 <= limit ==>
      |r| == if offset >= |s.messages| then 0 else if offset + limit <= |s.messages| then limit else |s.messages| - offset
    ensures 0 <= offset && 0 <= limit ==>
      forall k :: 0 <= k < |r| ==> r[k] == SortNewestFirst(Values(s.messages), MessageAge)[offset + k]
    ensures NewestFirst(r, MessageAge)
    ensures forall x :: x in r ==> x in Values(s.messages)
    ensures offset == 0 && |s.messages| <= limit ==> multiset(r) == multiset(Values(s.messages))
  {
    NewestPage(Values(s.messages), MessageAge, limit, offset)
  }

  /** A page of messages is the window `[offset, offset + limit)` of the one
      newest-first arrangement that keeps messages created at the same
      instant in insertion order. */
  lemma MessagePageIsWindow(s: Store, arranged: seq<ContactMessage>, limit: int, offset: int)
    requires NewestFirst(arranged, MessageAge) && SameTies(arranged, Values(s.messages), MessageAge)
    ensures GetContactMessages(s, limit, offset) == Page(arranged, limit, offset)
    ensures 0 <= offset && 0 <= limit ==>
      forall k :: 0 <= k < |GetContactMessages(s, limit, offset)| ==> GetContactMessages(s, limit, offset)[k] == arranged[offset + k]
  {
    NewestPageIsWindow(Values(s.messages), arranged, MessageAge, limit, offset);
  }

  /** `updateContactMessage`: "not found" for an absent id, otherwise a field merge in place. */
  function UpdateContactMessage(s: Store, id: Id, p: ContactPatch): (r: (Store, Option<ContactMessage>))
    ensures Get(s.messages, id).None? ==> r == (s, None)
    ensures Get(s.messages, id).Some? ==>
      && r.1 == Some(MergeContact(Get(s.messages, id).value, p))
      && Get(r.0.messages, id) == r.1
      && Keys(r.0.messages) == Keys(s.messages)
    ensures forall j :: j != id ==> Get(r.0.messages, j) == Get(s.messages, j)
    ensures r.0 == s.(messages := r.0.messages)
  {
    match Get(s.messages, id)
    case None => (s, None)
    case Some(m) =>
      var updated := MergeContact(m, p);
      (s.(messages := Put(s.messages, id, updated)), Some(updated))
  }

  // --------------------------------------------------------- GCash payments

  /** `createGCashPayment`: missing optional columns null (status included),
      never verified yet. */
  function CreateGCashPayment(s: Store, p: InsertGCashPayment, id: Id, now: Timestamp): (r: (Store, GCashPayment))
    ensures r.1.id == id && r.1.createdAt == now && r.1.referenceNumber == p.referenceNumber && r.1.amount == p.amount
    ensures r.1.donationId == p.donationId && r.1.senderNumber == p.senderNumber
    ensures r.1.status == p.status && r.1.verifiedBy == p.verifiedBy && r.1.verifiedAt.None?
    ensures Get(r.0.payments, id) == Some(r.1)
    ensures forall j :: j != id ==> Get(r.0.payments, j) == Get(s.payments, j)
    ensures Keys(r.0.payments) == if id in Keys(s.payments) then Keys(s.payments) else Keys(s.payments) + [id]
    ensures id !in Keys(s.payments) ==> r.0.payments == s.payments + [(id, r.1)]
    ensures r.0 == s.(payments := r.0.payments)
  {
    var payment := GCashPayment(id, p.donationId, p.referenceNumber, p.amount, p.senderNumber, p.status,
                                p.verifiedBy, None, now);
    (s.(payments := Put(s.payments, id, payment)), payment)
  }

  function FirstWithReference(ps: seq<GCashPayment>, reference: string): (r: Option<GCashPayment>)
    ensures r.Some? ==> r.value in ps && r.value.referenceNumber == reference
    ensures r.Some? ==> exists i :: 0 <= i < |ps| && ps[i] == r.value && forall j :: 0 <= j < i ==> ps[j].referenceNumber != reference
    ensures r.None? <==> forall i :: 0 <= i < |ps| ==> ps[i].referenceNumber != reference
  {
    if ps == [] then None
    else if ps[0].referenceNumber == reference then Some(ps[0])
    else FirstWithReference(ps[1..], reference)
  }

  /** `getGCashPaymentByReference`: a payment whose reference is exactly
      the argument (case-sensitive), or nothing iff no payment has it. */
  function GetGCashPaymentByReference(s: Store, reference: string): (r: Option<GCashPayment>)
    ensures r.Some? ==> r.value in Values(s.payments) && r.value.referenceNumber == reference
    ensures r.Some? ==>
      exists i :: 0 <= i < |s.payments| && Values(s.payments)[i] == r.value
        && (forall j :: 0 <= j < i ==> Values(s.payments)[j].referenceNumber != reference)
    ensures r.None? <==> forall g :: g in Values(s.payments) ==> g.referenceNumber != reference
  {
    FirstWithReference(Values(s.payments), reference)
  }

  /** `updateGCashPayment`: "not found" for an absent id, otherwise a field merge in place. */
  function UpdateGCashPayment(s: Store, id: Id, p: GCashPatch): (r: (Store, Option<GCashPayment>))
    ensures Get(s.payments, id).None? ==> r == (s, None)
    ensures Get(s.payments, id).Some? ==>
      && r.1 == Some(MergeGCash(Get(s.payments, id).value, p))
      && Get(r.0.payments, id) == r.1
      && Keys(r.0.payments) == Keys(s.payments)
    ensures forall j :: j != id ==> Get(r.0.payments, j) == Get(s.payments, j)
    ensures r.0 == s.(payments := r.0.payments)
  {
    match Get(s.payments, id)
    case None => (s, None)
    case Some(g) =>
      var updated := MergeGCash(g, p);
      (s.(payments := Put(s.payments, id, updated)), Some(updated))
  }

  predicate IsPendingPayment(g: GCashPayment) {
    g.status == Some(StatusPending)
  }

  /** `getPendingGCashPayments`: exactly the payments whose status is
      "pending", each as often as stored, newest first. */
  function GetPendingGCashPayments(s: Store): (r: seq<GCashPayment>)
    ensures forall x :: multiset(r)[x] == if IsPendingPayment(x) then multiset(Values(s.payments))[x] else 0
    ensures forall x :: x in r <==> x in Values(s.payments) && IsPendingPayment(x)
    ensures NewestFirst(r, PaymentAge)
  {
    var r := SortNewestFirst(Filter(Values(s.payments), IsPendingPayment), PaymentAge);
    assert forall x :: x in r <==> multiset(r)[x] > 0;
    r
  }

  // ------------------------------------------------------------- invariants

  /** The seeded store is well formed, and its two usernames differ. */
  lemma InitValid(adminId: Id, ownerId: Id, now: Timestamp)
    requires adminId != ownerId
    ensures Valid(Init(adminId, ownerId, now))
    ensures UniqueUsernames(Init(adminId, ownerId, now))
  {
    var t := Init(adminId, ownerId, now).users;
    var tail := [t[1]];
    assert t[1..] == tail && tail[1..] == [];
    assert Keys(tail) == [ownerId];
    assert DistinctKeys(tail);
  }

  /** With unique usernames, the lookup by name finds the one user of that name. */
  lemma {:induction false} UniqueNameLookup(s: Store, u: User)
    requires UniqueUsernames(s)
    requires u in Values(s.users)
    ensures GetUserByUsername(s, u.username) == Some(u)
  {
    UniqueFirst(s.users, u);
  }

  lemma {:induction false} UniqueFirst(t: Table<User>, u: User)
    requires forall i, j :: 0 <= i < j < |t| ==> t[i].1.username != t[j].1.username
    requires u in Values(t)
    ensures FirstWithUsername(Values(t), u.username) == Some(u)
  {
    assert Values(t) == [t[0].1] + Values(t[1..]);
    if t[0].1 != u {
      assert u in Values(t[1..]);
      var k := IndexOfValue(t[1..], u);
      assert t[k + 1].1 == u;
      UniqueFirst(t[1..], u);
    }
  }

  lemma {:induction false} IndexOfValue<V>(t: Table<V>, v: V) returns (k: nat)
    requires v in Values(t)
    ensures k < |t| && t[k].1 == v
  {
    if t[0].1 == v {
      k := 0;
    } else {
      assert v in Values(t[1..]);
      var k' := IndexOfValue(t[1..], v);
      k := k' + 1;
    }
  }

  /** `createUser` does not enforce the unique username: a second "admin"
      can be created next to the seeded one. */
  lemma CreateUserAllowsDuplicateName(adminId: Id, ownerId: Id, otherId: Id, now: Timestamp)
    requires adminId != ownerId && otherId != adminId && otherId != ownerId
    ensures !UniqueUsernames(CreateUser(Init(adminId, ownerId, now), InsertUser("admin", "x", None, None), otherId, now).0)
  {
    var s := Init(adminId, ownerId, now);
    var s' := CreateUser(s, InsertUser("admin", "x", None, None), otherId, now).0;
    var i := IndexOfKey(s'.users, adminId);
    var j := IndexOfKey(s'.users, otherId);
    assert i != j && s'.users[i].1.username == "admin" == s'.users[j].1.username;
  }

  /** A user created without a role gets "user", which is outside the
      users table's own vocabulary (whose default is "guest"). */
  lemma DefaultRoleIsOutsideVocabulary(s: Store, u: InsertUser, id: Id, now: Timestamp)
    requires u.role.None?
    ensures CreateUser(s, u, id, now).1.role == RoleUser
    ensures !IsRole(CreateUser(s, u, id, now).1.role)
  {
  }
}

=== FILE: table.dfy ===
/** A JavaScript `Map<string, V>`: entries keyed by string, iterated in
    insertion order. `set` on a present key keeps the key's position,
    `set` on a new key appends, `delete` removes the entry. */
module Table {
  import opened Base

  type Table<V> = seq<(string, V)>

  function Keys<V>(t: Table<V>): (ks: seq<string>)
    ensures |ks| == |t|
  {
    if t == [] then [] else [t[0].0] + Keys(t[1..])
  }

  /** `Array.from(map.values())`. */
  function Values<V>(t: Table<V>): (vs: seq<V>)
    ensures |vs| == |t|
  {
    if t == [] then [] else [t[0].1] + Values(t[1..])
  }

  /** No key appears twice: what a JavaScript `Map` guarantees. */
  ghost predicate DistinctKeys<V>(t: Table<V>) {
    t == [] || (t[0].0 !in Keys(t[1..]) && DistinctKeys(t[1..]))
  }

  /** `map.get(k)`. */
  function Get<V>(t: Table<V>, k: string): (r: Option<V>)
    ensures r.None? <==> k !in Keys(t)
    ensures r.Some? ==> r.value in Values(t)
  {
    if t == [] then None
    else if t[0].0 == k then Some(t[0].1)
    else Get(t[1..], k)
  }

  /** `map.set(k, v)`. */
  function Put<V>(t: Table<V>, k: string, v: V): (r: Table<V>)
    ensures Get(r, k) == Some(v)
    ensures forall j :: j != k ==> Get(r, j) == Get(t, j)
    ensures Keys(r) == if k in Keys(t) then Keys(t) else Keys(t) + [k]
    ensures k !in Keys(t) ==> r == t + [(k, v)]
  {
    if t == [] then [(k, v)]
    else if t[0].0 == k then
      assert ([(k, v)] + t[1..])[1..] == t[1..];
      [(k, v)] + t[1..]
    else
      var rest := Put(t[1..], k, v);
      assert ([t[0]] + rest)[1..] == rest;
      assert k !in Keys(t) ==> [t[0]] + (t[1..] + [(k, v)]) == t + [(k, v)];
      [t[0]] + rest
  }

  /** `map.delete(k)`; deleting an absent key changes nothing. */
  function Delete<V>(t: Table<V>, k: string): (r: Table<V>)
    ensures Get(r, k) == None
    ensures forall j :: j != k ==> Get(r, j) == Get(t, j)
    ensures k !in Keys(t) ==> r == t
    ensures forall j :: j in Keys(r) <==> j in Keys(t) && j != k
  {
    if t == [] then []
    else if t[0].0 == k then Delete(t[1..], k)
    else
      var rest := Delete(t[1..], k);
      assert ([t[0]] + rest)[1..] == rest;
      [t[0]] + rest
  }

  lemma {:induction false} KeysIndex<V>(t: Table<V>, i: nat)
    requires i < |t|
    ensures Keys(t)[i] == t[i].0
    decreases i
  {
    if i > 0 {
      KeysIndex(t[1..], i - 1);
    }
  }

  /** With distinct keys, the entry at a position is the one its key finds. */
  lemma {:induction false} GetAt<V>(t: Table<V>, i: nat)
    requires DistinctKeys(t) && i < |t|
    ensures Get(t, t[i].0) == Some(t[i].1)
    decreases i
  {
    if i > 0 {
      GetAt(t[1..], i - 1);
      KeysIndex(t[1..], i - 1);
    }
  }

  /** A key that is present sits at some position. */
  lemma {:induction false} IndexOfKey<V>(t: Table<V>, k: string) returns (i: nat)
    requires Get(t, k).Some?
    ensures i < |t| && t[i].0 == k && Some(t[i].1) == Get(t, k)
  {
    if t[0].0 == k {
      i := 0;
    } else {
      var j := IndexOfKey(t[1..], k);
      i := j + 1;
    }
  }

  lemma DistinctTail<V>(t: Table<V>)
    requires t != [] && DistinctKeys(t)
    ensures DistinctKeys(t[1..])
    ensures t[0].0 !in Keys(t[1..])
  {
  }

  /** `set` keeps the keys distinct; the size grows by one exactly when the key is new. */
  lemma {:induction false} PutKeepsDistinct<V>(t: Table<V>, k: string, v: V)
    requires DistinctKeys(t)
    ensures DistinctKeys(Put(t, k, v))
    ensures |Put(t, k, v)| == if k in Keys(t) then |t| else |t| + 1
  {
    if t != [] && t[0].0 != k {
      PutKeepsDistinct(t[1..], k, v);
      assert Put(t, k, v)[1..] == Put(t[1..], k, v);
    } else if t != [] {
      assert Put(t, k, v)[1..] == t[1..];
    }
  }

  /** `delete` keeps the keys distinct and removes exactly one entry when the key is present. */
  lemma {:induction false} DeleteKeepsDistinct<V>(t: Table<V>, k: string)
    requires DistinctKeys(t)
    ensures DistinctKeys(Delete(t, k))
    ensures |Delete(t, k)| == if k in Keys(t) then |t| - 1 else |t|
  {
    if t != [] && t[0].0 == k {
      assert Delete(t[1..], k) == t[1..];
    } else if t != [] {
      DeleteKeepsDistinct(t[1..], k);
      assert Delete(t, k)[1..] == Delete(t[1..], k);
    }
  }

  /** A genuine map is determined by its keys in order and what each key
      finds: two tables that agree on both are the same table. */
  lemma {:induction false} DeterminedByKeys<V>(a: Table<V>, b: Table<V>)
    requires DistinctKeys(a) && Keys(a) == Keys(b)
    requires forall k :: Get(a, k) == Get(b, k)
    ensures a == b
    decreases |a|
  {
    if a != [] {
      assert Keys(a)[0] == a[0].0 && Keys(b)[0] == b[0].0;
      assert Get(a, a[0].0) == Some(a[0].1) && Get(b, b[0].0) == Some(b[0].1);
      assert Keys(a[1..]) == Keys(a)[1..] == Keys(b)[1..] == Keys(b[1..]);
      forall k
        ensures Get(a[1..], k) == Get(b[1..], k)
      {
        if k == a[0].0 {
          assert k !in Keys(a[1..]);
        } else {
          assert Get(a, k) == Get(a[1..], k) && Get(b, k) == Get(b[1..], k);
        }
      }
      DeterminedByKeys(a[1..], b[1..]);
    }
  }
}
